=== FILE: README.md ===
# coursecompass in Dafny

A model of the data and decision logic of coursecompass, a course marketplace
built with React over Firebase. The model covers:

- **Reviews** (`src/data/reviews.ts`): a review is stored under a
  deterministic id. One rating entry is appended to the course's ratings,
  `averageRatings` is recomputed, and both writes go in one batch. The review
  list is paginated.
- **Course catalogue** (`src/data/courses.ts`): each query chooses its sort
  directions and category clause from the search parameters. The course list
  is paginated with a cursor, with an `emptied` flag and first-page versus
  load-more behaviour. The top and popular rails have limits, and a newly
  added course gets default fields.
- **Roles and authentication** (`src/data/auth.ts`): the role → permission
  table and the conjunctive `checkIfUserCan`. Firebase error codes map to
  messages, and a new profile record is built.
- **Authors** (`src/data/authors.ts`, `src/Authors/index.tsx`): the defaults
  a new author record gets. The author form adds, edits and validates the
  socials list, maps platform ids to titles and turns authors into picker
  options.
- **Course forms** (`src/Courses/index.tsx`): the start descriptor's
  transitions (Recorded, Live, date) and the add-course guards. An admin is
  the course's own author. The form also picks authors and applies the
  rating form's guard and star fill.
- **Course page** (`src/pages/Course.tsx`): the rate button's
  already-rated gate and sign-in check. It also decides the launch label and
  what the reviews section shows.
- **Components**:
  - the heading-aware option filter and the multi-select toggle of
    `Select.tsx`;
  - the substring filter and id lookup of `Dropdown.tsx`;
  - the submit error-to-status decision table of `Form.tsx`;
  - the OPEN/CLOSE reducer shared by `Menu.tsx` and `Tooltip.tsx`, with the
    tooltip's hover and click gating.
- **Helpers**:
  - Indian digit grouping and currency symbols (`Amount.tsx`);
  - the ratings histogram and star colouring (`common/index.tsx`);
  - `getInitials`, the language and currency lookups and `arrayGroupBy`
    (`helpers.ts`);
  - the file type and size validators (`common-validators.ts`).

Modelling conventions:

- **The remote store.** Firestore is a `seq` of documents, already in the
  query's order; that order is a precondition where it matters. For writes it
  is a `map` from document id to record. A pagination cursor is the position
  of the last delivered document, and `startAfter(null)` starts from the
  beginning.
- **Parameters.** Remote failures, download URLs, new document ids, server
  timestamps and `navigator.onLine` readings are parameters. A failing read
  or batch is a `fails` flag. A rejected upload or `setDoc` in
  `addNewCourse`, `addAuthor` and `createProfile` is an optional
  `rejection` message; it writes nothing and is thrown on.
- **Averages.** `averageRatings` is an integer number of tenths,
  `(20·S + n) / (2n)` for sum `S` over `n` ratings. This is what `toFixed(1)`
  gives on the exact mean.
- **Hook state.** The stateful hooks `useCoursesByCategory`, `useReviews` and
  `useFilteredOptions` are classes. Their methods are proved equal to pure
  step functions (`Paging.FirstPage`, `Paging.MoreItems`, `Select.Filtered`),
  and the properties are proved about those functions.
- **JavaScript semantics.** Truthiness (`""`, `undefined`) is written out.
  Lower-casing is ASCII.

Modules:

| module | file |
|---|---|
| `Wrappers` | `wrappers.dfy` |
| `Text` | `text.dfy` |
| `Seqs` | `seqs.dfy` |
| `Paging` | `paging.dfy` |
| `Courses` | `courses.dfy` |
| `Reviews` | `reviews.dfy` |
| `Auth` | `auth.dfy` |
| `Authors` | `authors.dfy` |
| `AuthorForms` | `author_forms.dfy` |
| `CourseForms` | `course_forms.dfy` |
| `CoursePage` | `course_page.dfy` |
| `Select` | `select.dfy` |
| `Dropdown` | `dropdown.dfy` |
| `FormSubmit` | `form.dfy` |
| `Menu` | `menu.dfy` |
| `Tooltip` | `tooltip.dfy` |
| `Amount` | `amount.dfy` |
| `Common` | `common.dfy` |
| `Helpers` | `helpers.dfy` |
| `Validators` | `validators.dfy` |

## Model

| member | source | states |
|---|---|---|
| Paging.Page | src/data/courses.ts:183-203 | a page is the run of at most `limit` results starting just after the cursor, element for element |
| Paging.PageKeepsChain | src/data/courses.ts:185-192 | a page of an ordered result list is ordered the same way |
| Paging.Advance | src/data/courses.ts:193-202 | after a page, `emptied` holds iff fewer than `limit` came back, and `lastItem` is the last one returned (none on an empty page) |
| Paging.FirstPage | src/data/reviews.ts:57-81 | the first page replaces the items with the first `limit` results; a failed load clears them and keeps the pagination |
| Paging.MoreItems | src/data/reviews.ts:83-109 | load-more appends the page after the cursor to the old items; a failed load leaves everything unchanged |
| Paging.FirstPageConsistent | src/data/reviews.ts:57-81 | after a first page, the items are a prefix of the results and the cursor sits on the last one |
| Paging.MoreItemsConsistent | src/data/reviews.ts:83-109 | load-more keeps the items a prefix of the results and strictly grows them while any remain |
| Paging.Drain | src/data/courses.ts:242-308 | pressing load-more until `emptied` yields exactly the full result list |
| Paging.Completeness | src/data/courses.ts:179-308 | from a first page, draining reaches every result once, in order |
| Paging.ExhaustionFlag | src/data/courses.ts:193-202 | the first page sets `emptied` iff the results are fewer than the limit |
| Paging.ThreePagesOfTwo | src/data/reviews.ts:51-109 | a worked run: five results with limit 2 arrive as pages of 2, 2 and 1, and the last page sets `emptied` |
| Courses.InitialSearchParams | src/data/courses.ts:146-172 | the default parameters are category "all", ratings high-to-low and latest first; any prop that is given overrides its default |
| Courses.RatingDirection | src/data/courses.ts:185-188 | ratings sort descending iff `ratings` is "high_to_low" |
| Courses.DateDirection | src/data/courses.ts:189-192 | `updated_at` sorts ascending iff `orderDateBy` is "oldest" |
| Courses.CategoryClause | src/data/courses.ts:182-210 | no category clause iff the id is "all"; otherwise the clause is equality on that id |
| Courses.QueryResultsOrdered | src/data/courses.ts:182-226 | the query result keeps the store's order |
| Courses.QueryResultsCategory | src/data/courses.ts:182-226 | "all" returns the whole store; any other id returns exactly the courses of that category, as a subsequence |
| Courses.AllIsUnionOfCategories | src/data/courses.ts:182-226 | every course of a category query is in the "all" query |
| Courses.PageOfQuery | src/data/courses.ts:193-203 | a course page has at most `limit` courses, all matching the category and in sort order |
| Courses.ApplyUpdate | src/data/courses.ts:321-327 | a parameter change sets that one field and every other field, the query included, stays as it was; an unknown key changes nothing |
| Courses.CourseCatalog.constructor | src/data/courses.ts:152-172 | the hook starts with the initial parameters, no courses and a fresh pagination |
| Courses.CourseCatalog.GetCoursesByCategory | src/data/courses.ts:179-240 | the state becomes the first page of the query for the current parameters (cleared on failure) |
| Courses.CourseCatalog.GetMoreCourses | src/data/courses.ts:242-308 | the state becomes the load-more step of the same query; earlier courses are kept in order |
| Courses.CourseCatalog.HandleParamChange | src/data/courses.ts:321-327 | the parameter is updated and the hook is marked to re-fetch; the list is left as it was |
| Courses.CourseCatalog.RunEffect | src/data/courses.ts:314-319 | the effect fetches the first page only when not already called, then marks itself called |
| Courses.CourseCatalog.ParamChangeRestarts | src/data/courses.ts:314-327 | after a parameter change and the re-armed effect, the parameters are updated, the list is the cursorless first page of the query under the new parameters, the pagination is advanced from it, and nothing is thrown |
| Courses.CategoryIdKeyIsIgnored | src/data/courses.ts:182 | setting a `categoryId` key leaves the "all" query returning the whole store |
| Courses.LoadRail | src/data/courses.ts:89-124 | a rail is the first `min(limit, size)` courses of the store; a failure leaves it empty |
| Courses.TopCoursesBounded | src/data/courses.ts:97-102 | top courses are at most 5 (exactly 5 when available), by average then `updated_at`, both descending |
| Courses.PopularCoursesBounded | src/data/courses.ts:389-393 | popular courses are at most 10, by average descending |
| Courses.ThumbnailPath | src/data/courses.ts:496 | thumbnails are stored under `courses/` |
| Courses.AddNewCourse | src/data/courses.ts:480-513 | with no image nothing is written and nothing fails; a rejected upload or write is passed on and writes nothing; otherwise exactly one new record is added, with `id` the new doc id, `averageRatings` 0, no ratings, the given details, both timestamps `now`, and as thumbnail the download URL or, when that is empty, the storage path `courses/{docId}/{fileName}` |
| Reviews.ReviewId | src/data/reviews.ts:146 | the review id is the uid, "_", then the course id |
| Reviews.ReviewIdInjective | src/data/reviews.ts:146 | for one course, two ids are equal iff the reviewer uids are |
| Reviews.AppendRating | src/data/reviews.ts:158-160 | the new list is the old list with the new entry last; with no or empty ratings it is that entry alone |
| Reviews.SumAppend | src/data/reviews.ts:161-168 | appending an entry adds its value to the sum |
| Reviews.AverageTenths | src/data/reviews.ts:161-168 | the average in tenths is the mean rounded half-up to one decimal, and 0 on no ratings |
| Reviews.SumBounds | src/data/reviews.ts:161-168 | with values 1..5 the sum lies between `n` and `5n` |
| Reviews.AverageBounds | src/data/reviews.ts:161-168 | with values 1..5 the average lies between 1.0 and 5.0 |
| Reviews.AverageScenario | src/data/reviews.ts:161-168 | ratings 5, 4 and 3 average 4.0; adding a 2 gives 3.5 |
| Reviews.RatedCourse | src/data/reviews.ts:169-174 | the course update sets ratings, average and `updated_at` together and nothing else |
| Reviews.SubmitReview | src/data/reviews.ts:138-181 | the batch fails as a whole iff the commit fails or the course is missing; on success the stored review is the full record (id, course, user, rating, title, description, both timestamps `now`) and the course is rated |
| Reviews.SubmitGrowsRatings | src/data/reviews.ts:158-160 | a submission grows the ratings by exactly one and keeps the old entries |
| Reviews.ResubmissionDuplicatesRating | src/data/reviews.ts:146-160 | a second submission by the same user overwrites the same review record but adds a second rating entry |
| Reviews.AllReviewsLoaded | src/data/reviews.ts:57-109 | loading page by page until "emptied" delivers exactly the stored reviews of the course, in store order |
| Reviews.ReviewQuery | src/data/reviews.ts:57-68 | a review is in the query's result iff it is a stored review of this course, and the result keeps the store's order |
| Reviews.ReviewPage | src/data/reviews.ts:51-74 | a page holds at most `limit` reviews, all of this course, newest first |
| Reviews.ReviewFeed.constructor | src/data/reviews.ts:46-55 | the hook starts with no reviews and a fresh pagination |
| Reviews.ReviewFeed.GetReviews | src/data/reviews.ts:57-81 | the state becomes the first page of this course's reviews (cleared on failure) |
| Reviews.ReviewFeed.GetMoreReviews | src/data/reviews.ts:83-109 | the state becomes the load-more step of the same query |
| Reviews.ReviewFeed.Reload | src/data/reviews.ts:122-124 | `reload` only re-arms the effect and leaves the list as it is |
| Reviews.ReviewFeed.RunEffect | src/data/reviews.ts:115-124 | the effect fetches the first page only when not already called |
| Auth.CheckIfUserCan | src/data/auth.ts:203-210 | true iff every requested permission is in the role's list |
| Auth.CheckConjunctive | src/data/auth.ts:209 | the check of `p ++ q` is the check of `p` and of `q`; an empty request is always allowed |
| Auth.UserHasNoPermissions | src/data/auth.ts:213-217 | role "user" passes only the empty request |
| Auth.AdminPermissions | src/data/auth.ts:219-226 | "admin" holds exactly ADD_COURSE, EDIT_COURSE and DELETE_COURSE |
| Auth.SuperAdminHoldsAll | src/data/auth.ts:186-197 | "super_admin" holds all ten distinct permissions |
| Auth.RolesNested | src/data/auth.ts:212-243 | whatever "user" may do, "admin" may, and whatever "admin" may do, "super_admin" may |
| Auth.ParseCode | src/data/auth.ts:245-268 | a code is recognised iff it is one of the nine known codes |
| Auth.HandleFirebaseAuthError | src/data/auth.ts:245-268 | a known code gets its fixed message; any other code gets the default |
| Auth.MessageNotDefault | src/data/auth.ts:245-268 | no known code maps to the default message |
| Auth.CodeSignature | src/data/auth.ts:245-268 | the nine code strings, by length and a distinguishing character |
| Auth.ParseCodeComplete | src/data/auth.ts:245-268 | each known code is recognised and mapped to its message |
| Auth.DefaultIffUnknown | src/data/auth.ts:245-268 | the default message comes back iff the code is none of the known ones |
| Auth.ProviderId | src/data/auth.ts:124-134 | the provider id is "firebase" iff no provider is given |
| Auth.CreateProfile | src/data/auth.ts:111-147 | no current user is the "Please login" error; a rejected write is passed on and writes nothing; otherwise the whole record is given: the uid, role "user", name from `displayName`, then `data.name`, then "Unknown", the email or "", `photoURL` as picture, the creation and last sign-in times as timestamps, `emailVerified` defaulting to false and the provider id |
| Auth.NewProfileCannotAct | src/data/auth.ts:111-147 | a freshly created profile passes no non-empty permission check |
| Authors.UploadPath | src/data/authors.ts:86-89 | the picture is uploaded to `authors/{docId}/{fileName}` |
| Authors.UploadPathInjective | src/data/authors.ts:86-89 | for doc ids without "/", different authors or files get different paths |
| Authors.DisplayPicture | src/data/authors.ts:93-97 | the picture is the download URL after an upload, else a non-empty `image`, else "missing" |
| Authors.PictureWithoutFile | src/data/authors.ts:93-97 | without an upload the picture is never empty; it is "missing" iff no non-empty image is given or the given image is itself "missing" |
| Authors.ReferenceUid | src/data/authors.ts:103 | `reference_uid` is a truthy `userId`, else the new doc id |
| Authors.AddAuthor | src/data/authors.ts:77-113 | a rejected upload or write is passed on and writes nothing; otherwise exactly one new record, with `uid` the doc id, `averageRatings` 0, the details unchanged, the chosen picture and reference, and both timestamps `now` |
| Authors.AuthorWithoutUserRefersToItself | src/data/authors.ts:103 | an author added without a user refers to itself |
| AuthorForms.ParsePlatform | src/Authors/index.tsx:63-71 | an id is recognised iff it is one of the six platform ids |
| AuthorForms.GetSocialTitle | src/Authors/index.tsx:73-90 | "Unknown" iff the id is no platform id; otherwise that platform's title |
| AuthorForms.TitleKnown | src/Authors/index.tsx:73-90 | no platform's title is "Unknown" |
| AuthorForms.ParsePlatformComplete | src/Authors/index.tsx:63-90 | each platform id is recognised and titled |
| AuthorForms.BadIndicesSpec | src/Authors/index.tsx:107-114 | the flagged indices are exactly the socials lacking an id or a value, in ascending order |
| AuthorForms.ValidateSocials | src/Authors/index.tsx:107-119 | the loop flags exactly those indices and raises `foundError` iff there is one |
| AuthorForms.SubmitAuthorForm | src/Authors/index.tsx:107-125 | a bad social stops the submit with its indices flagged (before any write); otherwise a rejected write is passed on, and without one the author is added from the form values |
| AuthorForms.SavedAuthorIsComplete | src/Authors/index.tsx:107-125 | every social of a saved author has an id and a value |
| AuthorForms.AddSocial | src/Authors/index.tsx:219-246 | on an empty list one blank entry; on 1 to 5 entries a blank appended; at 6 nothing changes |
| AuthorForms.AddSocialTimesLength | src/Authors/index.tsx:219-246 | however often "Add Socials" is pressed, the list keeps its entries and never exceeds 6 |
| AuthorForms.EditSocialId | src/Authors/index.tsx:190-195 | picking a platform changes only entry `i`'s id; an empty pick changes nothing |
| AuthorForms.EditSocialValue | src/Authors/index.tsx:206-209 | typing changes only entry `i`'s value |
| AuthorForms.EditKeepsOthers | src/Authors/index.tsx:206-209 | an edit of entry `i` keeps the length, leaves every other entry exactly as it was, keeps the id of entry `i` and stores the new value, and leaves the bad-index status of every other entry unchanged |
| AuthorForms.AuthorsAsOptions | src/Authors/index.tsx:286-293 | one option per author, in order, with id the uid and label the name |
| AuthorForms.AuthorOptionsAreChoices | src/Authors/index.tsx:286-293 | author options are selectable choices, not headings |
| CourseForms.OnRecorded | src/Courses/index.tsx:569-573 | Recorded sets the start to exactly `{isRecorded: true}` |
| CourseForms.OnLive | src/Courses/index.tsx:593-605 | Live keeps the date and sets Live; with no prior start it is `{isLive: true}` |
| CourseForms.OnDate | src/Courses/index.tsx:541-553 | a date change stores the date, keeps `isLive` and clears Recorded; with no prior start it is `{date}` |
| CourseForms.NotRecordedAfterLiveOrDate | src/Courses/index.tsx:541-605 | after a Live or date action `isRecorded` is never true |
| CourseForms.LiveSurvivesDates | src/Courses/index.tsx:541-605 | Live followed by any dates stays Live, not Recorded |
| CourseForms.LiveThenDates | src/Courses/index.tsx:541-553 | date changes keep a Live start Live |
| CourseForms.StartSetIffClicked | src/Courses/index.tsx:541-605 | the start is set iff at least one button or date was used |
| CourseForms.AlwaysSetAfter | src/Courses/index.tsx:541-605 | once set, the start stays set |
| CourseForms.ErrorMessageNonEmpty | src/Courses/index.tsx:399-421 | every guard's message is non-empty |
| CourseForms.CanMentionAuthor | src/Courses/index.tsx:366-369 | only "super_admin" may mention another author |
| CourseForms.MentionOnlySuperAdmin | src/Courses/index.tsx:366-369 | the MENTION_OTHER_AUTHOR check passes iff the role is "super_admin" |
| CourseForms.ChosenAuthor | src/Courses/index.tsx:401-412 | "admin" is its own author: the whole record is its uid, name, `emailVerified`, `displayPicture` and its own uid as `reference_uid`; other roles use the selected author |
| CourseForms.CoursePayload | src/Courses/index.tsx:399-428 | each guard fails iff the ones before it pass and it does not (thumbnail, author uid, start, category id); if all pass, the payload carries the form values |
| CourseForms.SubmitCourse | src/Courses/index.tsx:399-428 | a failed guard writes nothing and reports its message; otherwise a rejected write is passed on, and without one the course is added with the chosen author |
| CourseForms.AdminIsOwnAuthor | src/Courses/index.tsx:401-409 | a course an admin adds names the admin as author and reference |
| CourseForms.PlainUserCannotAddCourse | src/Courses/index.tsx:366-415 | a "user" with no author picker fails on the author guard |
| CourseForms.FindAuthor | src/Courses/index.tsx:515-529 | the first author with the given uid, or -1 |
| CourseForms.PickAuthor | src/Courses/index.tsx:515-529 | the author changes only on a truthy string id that a listed author has, and then to the first listed author with that uid; an id no author has leaves the value as it was |
| CourseForms.PickerValue | src/Courses/index.tsx:510-514 | the picker shows an option iff the author has a uid, with that uid and name |
| CourseForms.PickOfferedAuthor | src/Courses/index.tsx:509-531 | with distinct uids, picking an offered author stores that author and shows it back in the picker |
| CourseForms.RatingSubmission | src/Courses/index.tsx:196-212 | a rating is sent iff the schema passes, a star is chosen and there is a uid; the payload carries the rating, title, description and the whole user: uid, `displayName` or "", `emailVerified` and `photoURL` |
| CourseForms.SentRatingIsRecorded | src/Courses/index.tsx:196-212 | a sent rating appears as the user's entry with the chosen value |
| CourseForms.StarFilled | src/Courses/index.tsx:244 | star `i` is filled iff the rating is set and at least `i` |
| CourseForms.ClickedStarFillsPrefix | src/Courses/index.tsx:244 | clicking star `i` fills exactly stars 1 to `i` |
| CoursePage.FindRatingOf | src/pages/Course.tsx:237-238 | the first rating with the user's uid (no earlier rating has it), or -1 when there is none or no user |
| CoursePage.AlreadySubmitted | src/pages/Course.tsx:237-238 | the button is hidden iff a signed-in user with a non-empty uid has a rating on the course |
| CoursePage.RatedCourseHidesButton | src/pages/Course.tsx:237-238 | after the user's rating is committed, the button is hidden for them |
| CoursePage.OnRateClick | src/pages/Course.tsx:251-258 | the form opens iff a uid is present; otherwise the sign-in error is shown |
| CoursePage.OpenFormAllowsRating | src/pages/Course.tsx:251-258 | a user who can open the form can send a valid rating |
| CoursePage.Launch | src/pages/Course.tsx:160-166 | the launch label is the date if any, else "Recorded" when recorded, else "Live"; it is "Live" iff there is neither a date nor a recorded flag |
| CoursePage.LaunchMatchesForm | src/pages/Course.tsx:160-166 | the label shows what the form's start buttons chose |
| CoursePage.NumberOfReviews | src/pages/Course.tsx:286-318 | the count is the course's ratings length, and positive iff the section shows |
| CoursePage.CountFollowsRatings | src/pages/Course.tsx:286-287 | each committed rating adds one to the count and shows the section |
| CoursePage.ShowLoadMore | src/pages/Course.tsx:404 | "Load More" is shown iff the pagination is not `emptied` |
| CoursePage.LoadMoreAfterPage | src/pages/Course.tsx:404 | after a page the button stays iff the page was full |
| CoursePage.ReviewerLabel | src/pages/Course.tsx:391 | "You" iff the review's uid is the signed-in uid; otherwise the reviewer's name |
| CoursePage.DescriptionText | src/pages/Course.tsx:396 | a non-empty description is shown as is; an empty one is replaced by "Description not available!" |
| Select.Filtered | src/components/Select.tsx:578-594 | the recursive scan outputs no more options than the input holds, plus the heading still pending when it starts |
| Select.FilterOptions | src/components/Select.tsx:578-594 | the loop computes both the recursive filter and the position-by-position definition `FilterSpec` (each matching choice, preceded by the last heading before it when no matching choice lies between them) |
| Select.LastHeading | src/components/Select.tsx:579-582 | the index of the last heading before a position, or -1; no heading lies between it and the position |
| Select.Announcer | src/components/Select.tsx:579-592 | the heading still pending at a position is always a heading |
| Select.AnnouncerStep | src/components/Select.tsx:579-592 | how the pending heading moves one option on: a heading becomes pending, a matching choice clears it, anything else keeps it |
| Select.FilteredFrom | src/components/Select.tsx:578-594 | the recursive filter splits at any position into the options emitted so far and the filter of the rest under the pending heading |
| Select.FilteredStep | src/components/Select.tsx:579-592 | one option of the recursive filter emits exactly what the position-by-position definition emits there |
| Select.FilteredIsSpec | src/components/Select.tsx:578-594 | the recursive filter equals the position-by-position definition |
| Select.EmitHeading | src/components/Select.tsx:585-588 | the only heading a position emits is its pending heading, first |
| Select.OutputHeadingAnnounces | src/components/Select.tsx:579-592 | every heading emitted up to a position announces, in the input, the matching choice shown right after it |
| Select.HeadingInOutputAnnounces | src/components/Select.tsx:579-592 | every heading in the filter's output is a heading of the input with no heading or matching choice between it and the matching choice shown right after it |
| Select.AnnouncedEmit | src/components/Select.tsx:585-590 | the position of an announced choice emits exactly its heading and then the choice |
| Select.AnnouncedHeadingIsShown | src/components/Select.tsx:579-592 | conversely, every input heading followed by a matching choice with no heading or matching choice between them is shown directly before that choice |
| Select.FilteredIsSubseq | src/components/Select.tsx:578-594 | the output is a subsequence of the input |
| Select.FilteredChoices | src/components/Select.tsx:583-590 | the choices in the output are exactly the matching choices, in order |
| Select.ChoiceInOutputIff | src/components/Select.tsx:583-590 | a choice is output iff it is in the input and its lower-cased label contains the lower-cased query |
| Select.EmptyQueryKeepsChoices | src/components/Select.tsx:584 | an empty query keeps every choice |
| Select.HeadingPrecedesMatch | src/components/Select.tsx:579-592 | every output heading is followed directly by a matching choice |
| Select.EmittedOnce | src/components/Select.tsx:592 | with distinct input options, nothing is output twice |
| Select.FilterState.constructor | src/components/Select.tsx:550-558 | the state starts with an empty query and all options shown |
| Select.FilterState.HandleQueryChange | src/components/Select.tsx:569-595 | the query is stored; an empty option list changes nothing else; otherwise the filtered list is recomputed |
| Select.IsSelected | src/components/Select.tsx:253-256 | no value selects nothing; an option is selected by its own object and by its own label |
| Select.IsSelectedCases | src/components/Select.tsx:253-256 | an object value matches on id, a string value on id or label, and no value matches nothing |
| Select.OnRadioChange | src/components/Select.tsx:278-282 | headings are never selected; a checked choice is selected and the menu closes |
| Select.MatchIndex | src/components/Select.tsx:464-470 | the first selected entry matching the option, or -1 iff none does |
| Select.FindIndex | src/components/Select.tsx:464-470 | the index the loop finds is the first match, or -1 |
| Select.Toggled | src/components/Select.tsx:488-497 | an absent option is appended; a present one is removed at its first index |
| Select.Splice | src/components/Select.tsx:492-495 | removing index `i` keeps every other entry in order |
| Select.Toggle | src/components/Select.tsx:488-497 | the toggle computes exactly that new value |
| Select.ToggleTwice | src/components/Select.tsx:488-497 | toggling an absent option twice restores the value |
| Dropdown.FilteredOptions | src/components/Dropdown.tsx:84-90 | only options from the list whose label contains the query; none when there are no options |
| Dropdown.FilteredOptionsProperties | src/components/Dropdown.tsx:84-90 | the filter keeps order, keeps exactly the matching options and keeps all on an empty query |
| Dropdown.FirstWithId | src/components/Dropdown.tsx:92-94 | the first index with that id, or -1 iff none |
| Dropdown.Find | src/components/Dropdown.tsx:92-94 | `find` returns the first option with the id, or nothing iff there is none |
| Dropdown.ExtractedValue | src/components/Dropdown.tsx:92-94 | with options and a value, nothing is found iff no option has that id; otherwise the found option is the first with that id |
| Dropdown.AtMostOneMarked | src/components/Dropdown.tsx:213 | with unique ids at most one option is marked, and it carries the value |
| Dropdown.DisplayedValue | src/components/Dropdown.tsx:146 | the input shows the query while open, else the selected label |
| FormSubmit.CaughtStatus | src/components/Form.tsx:481-487 | a thrown non-empty string or error message becomes the status; anything else clears it |
| FormSubmit.Submit | src/components/Form.tsx:463-494 | the full decision table: toast when offline before; the result on success; no-internet status when offline after; falsy errors resolve; otherwise status, field errors and rethrow |
| FormSubmit.RejectsIff | src/components/Form.tsx:489-491 | the promise rejects iff online, a truthy error was thrown and `rethrow` is set |
| FormSubmit.ErrorsComeWithMessage | src/components/Form.tsx:483-487 | field errors are set only with the thrown error's message as status |
| FormSubmit.OfflineMasksError | src/components/Form.tsx:474-477 | going offline during the handler gives the no-internet status whatever was thrown |
| FormSubmit.CourseGuardShownAsStatus | src/components/Form.tsx:483-487 | a failed add-course guard shows its message as the form status |
| Menu.Reduce | src/components/Menu.tsx:33-42 | OPEN expands, CLOSE collapses, any other action keeps the state |
| Menu.ReduceIdempotent | src/components/Menu.tsx:33-42 | dispatching an action twice is the same as once |
| Menu.Toggle | src/components/Menu.tsx:56 | toggling flips `isExpended` |
| Menu.ToggleAction | src/components/Menu.tsx:56 | toggle dispatches OPEN or CLOSE |
| Menu.ToggleFlips | src/components/Menu.tsx:56 | toggle flips the state, and twice restores it |
| Menu.LastOpenOrCloseDecides | src/components/Menu.tsx:33-42 | after any dispatches, the menu is open iff the last OPEN or CLOSE was OPEN |
| Menu.OthersKeepState | src/components/Menu.tsx:40-41 | other actions never change the state |
| Menu.ItemClick | src/components/Menu.tsx:160-178 | clicking an item or link closes the menu |
| Menu.ButtonThenItem | src/components/Menu.tsx:43-105 | the menu starts closed, the button shows the list, an item hides it |
| Tooltip.OnEvent | src/components/Tooltip.tsx:72-82 | on hover, enter opens and leave closes while clicks do nothing; on click, a click toggles while hover does nothing |
| Tooltip.HoverFollowsLastMouseEvent | src/components/Tooltip.tsx:72-77 | a hover tooltip is open iff the last mouse event was an enter |
| Tooltip.ClicksIgnoredOnHover | src/components/Tooltip.tsx:78-82 | clicks never change a hover tooltip |
| Tooltip.ClickParity | src/components/Tooltip.tsx:78-82 | from closed, a click tooltip is open iff it has had an odd number of clicks |
| Amount.DigitRun | src/common/Amount.tsx:93-114 | the length of the digit run starting at `k` |
| Amount.CommaAt | src/common/Amount.tsx:114 | the pattern matches only at a non-first position before a digit with at least three characters from there on |
| Amount.InsertFrom | src/common/Amount.tsx:114 | the global replace from position `k`: never shorter than the rest of the input |
| Amount.Format | src/common/Amount.tsx:86-116 | no number gives the empty string |
| Amount.RemoveCommas | src/common/Amount.tsx:93-115 | the result has no comma |
| Amount.RemoveInserted | src/common/Amount.tsx:104-114 | deleting the inserted commas gives back the digits |
| Amount.FormatShape | src/common/Amount.tsx:93-115 | commas go only into the integer part, and the part after "." is kept as is |
| Amount.FormatRoundTrip | src/common/Amount.tsx:93-115 | deleting every comma from the result gives back the input |
| Amount.GroupingOfDigits | src/common/Amount.tsx:104-114 | a comma comes before a digit iff 3, 5, 7, … digits remain from it |
| Amount.ShortUnchanged | src/common/Amount.tsx:114 | three digits or fewer are unchanged |
| Amount.CommasWellPlaced | src/common/Amount.tsx:114 | never two adjacent commas and never a trailing comma |
| Amount.NoLeadingComma | src/common/Amount.tsx:114 | never a leading comma |
| Amount.IndianGrouping | src/common/Amount.tsx:104-114 | 1234567 becomes 12,34,567 |
| Amount.CurrencySymbol | src/common/Amount.tsx:7-11 | each currency has a one-character symbol |
| Amount.CurrencySymbolsDistinct | src/common/Amount.tsx:7-11 | INR, USD and EUR have distinct symbols |
| Common.Values | src/common/index.tsx:113-123 | the rating values, in order |
| Common.RatingsSummary | src/common/index.tsx:113-123 | the histogram's keys are exactly the values that occur, and each count is the number of ratings with that value |
| Common.DisplayedCount | src/common/index.tsx:99-104 | an absent star value is displayed as 0 |
| Common.DisplayedCountIsCount | src/common/index.tsx:99-123 | the displayed count of every star value is its number of ratings |
| Common.StarValuesDistinct | src/common/index.tsx:99-104 | the five rows are the distinct values 1 to 5 |
| Common.FiveCountsCoverAll | src/common/index.tsx:113-123 | with values 1..5 the five counts sum to the number of ratings |
| Common.StarColorOf | src/common/index.tsx:33-50 | star `el` is coloured iff `el <= floor(rating)`: success at 5, error at 1, otherwise the rating colour |
| Common.Stars | src/common/index.tsx:26-53 | five stars, each coloured by that rule |
| Common.StarsFilledPrefix | src/common/index.tsx:33-50 | the coloured stars form a prefix of the row |
| Common.StarsExample | src/common/index.tsx:33-50 | 4.3 fills four stars |
| Helpers.EffectiveLength | src/utils/helpers.ts:4 | `length` defaults to 2 |
| Helpers.InitialsOf | src/utils/helpers.ts:6-12 | no words or a non-positive length give no initials |
| Helpers.GetInitials | src/utils/helpers.ts:3-13 | the loop computes the initials of the space-separated words |
| Helpers.InitialsOfWords | src/utils/helpers.ts:6-12 | for non-empty words, the first characters of the first `min(length, #words)` words |
| Helpers.InitialsExample | src/utils/helpers.ts:3-13 | worked cases, including the "undefined" of an empty word |
| Helpers.GetLanguageValue | src/utils/helpers.ts:15-31 | "Unknown" iff the lower-cased code is none of en, hi, fr, es, de |
| Helpers.LanguageCaseInsensitive | src/utils/helpers.ts:15-31 | the lookup ignores case |
| Helpers.GetCurrencySymbols | src/utils/helpers.ts:33-45 | "Unknown" iff the lower-cased code is none of inr, usd, eur |
| Helpers.CurrencyLookupAgrees | src/utils/helpers.ts:33-45 | the lookup ignores case and agrees with the price display's symbols |
| Helpers.ArrayGroupBy | src/utils/helpers.ts:73-83 | the keys are exactly the elements, each counted by its occurrences |
| Helpers.GroupCountsSum | src/utils/helpers.ts:73-83 | the counts sum to the array's length |
| Validators.AsList | src/utils/common-validators.ts:22-25 | a missing input is no files, and a single file is a one-element list |
| Validators.CheckFileTypes | src/utils/common-validators.ts:19-37 | valid iff every file's type is allowed |
| Validators.CheckFileSize | src/utils/common-validators.ts:39-58 | valid iff every file is at most `max` KB |
| Validators.ValidateImage | src/utils/common-validators.ts:7-17 | an image is valid iff every file is png, jpeg or jpg and at most 5000 KB |

## Left out

- Firestore, Storage and Auth SDK calls (`getDocs`, `setDoc`, `writeBatch`, `uploadBytes`, `getDownloadURL`, sign-in) are not modelled as calls. The store is a sequence or a map, the upload an opaque URL parameter, and `serverTimestamp()` a `now` parameter.
- Concurrency is not modelled. This covers the read-then-write race on a course's ratings, fetches finishing after unmount and the `setTimeout` debounce around the option filter.
- `isLoading`, `isFetchingMore` and `filtering` display flags are not modelled, apart from `filtering` in `FilterState`. React's `useEffect` re-trigger is modelled only by its net effect, through `isCalled` and `RunEffect`.
- Floating point is not modelled. The average is exact tenths, not `toFixed` of a float sum. `normalizeNumber`, the `Intl` formatting path of `Amount` and `percentageSummary` are out of scope.
- Dates, `date-fns`, the DatePicker, `pluralize` and the yup regexes for URLs, emails and names are not modelled. Only the rating schema's required fields and lengths are kept.
- Presentational components, styling, routing, the dashboard pages, `categories.ts` and the Home and AllCourses pages are UI or thin writes. `CategoryIdKeyIsIgnored` records that a `categoryId` key does not filter.
- Pagination assumes the store does not change between pages. A document added or removed between two loads shifts positions, and the model does not capture that.
- Lower-casing is ASCII only, whereas `toLowerCase` folds all of Unicode.
- `arrayGroupBy` keys are generic values, not JavaScript's stringified object keys.
- Firestore's rejection of `undefined` fields is not modelled.
- `updateProfile`, run by `useCreateProfile` beside the record write, is not modelled.
- Toasts, closing modals and `resetForm` after a successful submit are not modelled.
- Overlay dismissal of `Menu` and `Tooltip` (blur, Escape, `DismissButton`) is not modelled.
- Auth.HandleFirebaseAuthError: the nine messages are not proved pairwise distinct, only distinct from the default. Comparing nine long literals pairwise costs the solver too much.
- Helpers.InitialsOfWords: the contract covers only words separated by single spaces. An empty word adds the text "undefined", which is shown only in `InitialsExample`.
- FormSubmit.Submit: thrown values are grouped into four classes (falsy, string, object with a message, other truthy value). A truthy `Other` clears the status.
- AuthorForms.EditSocialId: the platform picker is typed with the six platform ids, but blank entries carry `""` as id at run time. The model uses strings.

=== FILE: amount.dfy ===
/** The fallback number formatter and the currency symbols of
    src/common/Amount.tsx. The number arrives already normalised and
    turned into its decimal string; the formatter puts Indian-style
    grouping commas (the last three digits, then pairs) into the part
    before the decimal point. */
module Amount {
  import opened Wrappers
  import Text
  import Courses

  predicate IsDigit(c: char) {
    '0' <= c <= '9'
  }

  /** A character of the regular-expression class `\w`. */
  predicate IsWordChar(c: char) {
    IsDigit(c) || 'a' <= c <= 'z' || 'A' <= c <= 'Z' || c == '_'
  }

  /** The length of the run of digits that starts at position `k`. */
  function DigitRun(s: string, k: nat): (n: nat)
    requires k <= |s|
    ensures k + n <= |s|
    ensures forall j :: k <= j < k + n ==> IsDigit(s[j])
    ensures k + n < |s| ==> !IsDigit(s[k + n])
    decreases |s| - k
  {
    if k == |s| || !IsDigit(s[k]) then 0 else 1 + DigitRun(s, k + 1)
  }

  /** The regular expression `\B(?=(((\d{2})+\d{3})|\d{3})(?!\d))` matches
      at position `k`: the character before is a word character (so the
      position is not a word boundary) and the digits from `k` on are an
      odd number, at least three, not followed by another digit. */
  predicate CommaAt(s: string, k: nat)
    requires k <= |s|
    ensures CommaAt(s, k) ==> 0 < k && k + 3 <= |s| && IsDigit(s[k])
  {
    0 < k < |s| && IsWordChar(s[k - 1]) && DigitRun(s, k) >= 3 && DigitRun(s, k) % 2 == 1
  }

  /** The global replace from position `k` on: a comma is put at every
      matching position. */
  function InsertFrom(s: string, k: nat): (r: string)
    requires k <= |s|
    ensures |r| >= |s| - k
    decreases |s| - k
  {
    if k == |s| then ""
    else (if CommaAt(s, k) then "," else "") + [s[k]] + InsertFrom(s, k + 1)
  }

  function InsertCommas(s: string): string {
    InsertFrom(s, 0)
  }

  /** `fallbackNumberToLocalString` on the number's string: nothing for a
      missing number; otherwise split at ".", group the first part and
      join the parts back. */
  function Format(n: Option<string>): (r: string)
    ensures n.None? ==> r == ""
  {
    match n
    case None => ""
    case Some(str) =>
      var parts := Text.Split(str, '.');
      Text.Join([InsertCommas(parts[0])] + parts[1..], '.')
  }

  function RemoveCommas(s: string): (r: string)
    ensures ',' !in r
  {
    if s == [] then [] else (if s[0] == ',' then [] else [s[0]]) + RemoveCommas(s[1..])
  }

  lemma {:induction false} RemoveCommasAppend(a: string, b: string)
    ensures RemoveCommas(a + b) == RemoveCommas(a) + RemoveCommas(b)
  {
    if a != [] {
      assert (a + b)[1..] == a[1..] + b;
      RemoveCommasAppend(a[1..], b);
    } else {
      assert a + b == b;
    }
  }

  lemma {:induction false} RemoveCommasNone(s: string)
    requires ',' !in s
    ensures RemoveCommas(s) == s
  {
    if s != [] {
      RemoveCommasNone(s[1..]);
    }
  }

  /** Deleting the inserted commas gives back the input. */
  lemma {:induction false} RemoveInserted(s: string, k: nat)
    requires k <= |s|
    ensures RemoveCommas(InsertFrom(s, k)) == RemoveCommas(s[k..])
    decreases |s| - k
  {
    if k < |s| {
      RemoveInserted(s, k + 1);
      var c: string := if CommaAt(s, k) then "," else "";
      RemoveCommasAppend(c + [s[k]], InsertFrom(s, k + 1));
      RemoveCommasAppend(c, [s[k]]);
      assert s[k..] == [s[k]] + s[k + 1..];
      RemoveCommasAppend([s[k]], s[k + 1..]);
    }
  }

  /** The formatted string is the grouped prefix before the first "."
      followed by the rest of the input unchanged. */
  lemma FormatShape(str: string)
    ensures var head := Text.Split(str, '.')[0];
      && |head| <= |str| && head == str[..|head|] && '.' !in head
      && (|head| < |str| ==> str[|head|] == '.')
      && Format(Some(str)) == InsertCommas(head) + str[|head|..]
  {
    var parts := Text.Split(str, '.');
    Text.SplitHead(str, '.');
    Text.SplitJoin(str, '.');
    Text.JoinNewHead(parts, InsertCommas(parts[0]), '.');
  }

  /** Deleting every comma from the output gives back the number string. */
  lemma FormatRoundTrip(str: string)
    requires ',' !in str
    ensures RemoveCommas(Format(Some(str))) == str
  {
    FormatShape(str);
    var head := Text.Split(str, '.')[0];
    RemoveInserted(head, 0);
    assert head[0..] == head;
    RemoveCommasAppend(InsertCommas(head), str[|head|..]);
    RemoveCommasNone(head);
    assert forall c :: c in str[|head|..] ==> c in str;
    RemoveCommasNone(str[|head|..]);
    assert head + str[|head|..] == str;
  }

  predicate AllDigits(s: string) {
    forall i :: 0 <= i < |s| ==> IsDigit(s[i])
  }

  lemma {:induction false} DigitRunOfDigits(s: string, k: nat)
    requires AllDigits(s) && k <= |s|
    ensures DigitRun(s, k) == |s| - k
    decreases |s| - k
  {
    if k < |s| {
      DigitRunOfDigits(s, k + 1);
    }
  }

  /** On a string of digits a comma goes before the digit at `k` exactly
      when 3, 5, 7, ... digits remain from it to the end. */
  lemma GroupingOfDigits(s: string, k: nat)
    requires AllDigits(s) && k <= |s|
    ensures CommaAt(s, k) <==> 0 < k && |s| - k >= 3 && (|s| - k) % 2 == 1
  {
    DigitRunOfDigits(s, k);
  }

  /** At most three digits are left unchanged. */
  lemma {:induction false} ShortUnchanged(s: string, k: nat)
    requires AllDigits(s) && |s| <= 3 && k <= |s|
    ensures InsertFrom(s, k) == s[k..]
    decreases |s| - k
  {
    if k < |s| {
      GroupingOfDigits(s, k);
      ShortUnchanged(s, k + 1);
      assert s[k..] == [s[k]] + s[k + 1..];
    }
  }

  /** The output starts with the input's first character (no leading
      comma) and, for input without commas, never holds two commas in a
      row nor ends in one. */
  lemma {:induction false} CommasWellPlaced(s: string, k: nat)
    requires ',' !in s && k <= |s|
    ensures var r := InsertFrom(s, k);
      && (k < |s| && !CommaAt(s, k) ==> r[0] == s[k])
      && (k < |s| ==> r[|r| - 1] != ',')
      && forall i :: 0 <= i < |r| - 1 ==> !(r[i] == ',' && r[i + 1] == ',')
    decreases |s| - k
  {
    if k < |s| {
      CommasWellPlaced(s, k + 1);
      var c: string := if CommaAt(s, k) then "," else "";
      var tail := InsertFrom(s, k + 1);
      var r := c + [s[k]] + tail;
      assert r == InsertFrom(s, k);
      assert s[k] != ',';
      forall i | 0 <= i < |r| - 1 ensures !(r[i] == ',' && r[i + 1] == ',') {
        if i >= |c| + 1 {
          assert r[i] == tail[i - |c| - 1] && r[i + 1] == tail[i - |c|];
        } else if i == |c| && |tail| > 0 {
          assert r[i] == s[k];
        }
      }
      if |tail| > 0 {
        assert r[|r| - 1] == tail[|tail| - 1];
      }
    }
  }

  lemma NoLeadingComma(s: string)
    requires s != []
    ensures InsertCommas(s)[0] == s[0]
  {
  }

  /** The example of the source's comment: 1234567 becomes 12,34,567. */
  lemma IndianGrouping()
    ensures InsertCommas("1234567") == "12,34,567"
  {
    var s := "1234567";
    assert AllDigits(s);
    forall k | 0 <= k <= 7 ensures CommaAt(s, k) <==> k == 2 || k == 4 {
      GroupingOfDigits(s, k);
    }
    assert InsertFrom(s, 7) == "";
    assert InsertFrom(s, 6) == "7";
    assert InsertFrom(s, 5) == "67";
    assert InsertFrom(s, 4) == ",567";
    assert InsertFrom(s, 3) == "4,567";
    assert InsertFrom(s, 2) == ",34,567";
    assert InsertFrom(s, 1) == "2,34,567";
  }

  /** `currencies_supported`. */
  function CurrencySymbol(c: Courses.Currency): (symbol: string)
    ensures |symbol| == 1
  {
    match c
    case INR => "\U{20B9}"
    case USD => "$"
    case EUR => "\U{20AC}"
  }

  lemma CurrencySymbolsDistinct(a: Courses.Currency, b: Courses.Currency)
    ensures CurrencySymbol(a) == CurrencySymbol(b) <==> a == b
  {
  }
}

=== FILE: auth.dfy ===
/** Roles, permissions, sign-in error messages and the profile record of
    src/data/auth.ts. */
module Auth {
  import opened Wrappers
  import Seqs

  datatype Permission =
    | AddCourse | EditCourse | DeleteCourse
    | AddAuthor | EditAuthor | DeleteAuthor
    | AddCategory | EditCategory | DeleteCategory
    | MentionOtherAuthor

  datatype Role = User | Admin | SuperAdmin

  /** `ROLES_AND_PERMISSIONS[role].permissions`, in the table's order. */
  function Permissions(role: Role): seq<Permission> {
    match role
    case User => []
    case Admin => [AddCourse, EditCourse, DeleteCourse]
    case SuperAdmin => [
      AddCourse, EditCourse, DeleteCourse, AddAuthor, AddCategory,
      EditAuthor, EditCategory, DeleteAuthor, DeleteCategory, MentionOtherAuthor]
  }

  /** `checkIfUserCan(role, ...ps)`: every requested permission has an
      index in the role's list. */
  function CheckIfUserCan(role: Role, ps: seq<Permission>): (can: bool)
    ensures can <==> forall i :: 0 <= i < |ps| ==> ps[i] in Permissions(role)
  {
    if ps == [] then true
    else Seqs.IndexOf(Permissions(role), ps[0]) != -1 && CheckIfUserCan(role, ps[1..])
  }

  /** The check is conjunctive over the requested permissions, and a
      request of nothing is granted to every role. */
  lemma CheckConjunctive(role: Role, p: seq<Permission>, q: seq<Permission>)
    ensures CheckIfUserCan(role, p + q) == (CheckIfUserCan(role, p) && CheckIfUserCan(role, q))
    ensures CheckIfUserCan(role, [])
  {
    if CheckIfUserCan(role, p) && CheckIfUserCan(role, q) {
      forall i | 0 <= i < |p + q| ensures (p + q)[i] in Permissions(role) {
        if i >= |p| {
          assert (p + q)[i] == q[i - |p|];
        }
      }
    }
    if CheckIfUserCan(role, p + q) {
      forall i | 0 <= i < |p| ensures p[i] in Permissions(role) {
        assert p[i] == (p + q)[i];
      }
      forall i | 0 <= i < |q| ensures q[i] in Permissions(role) {
        assert q[i] == (p + q)[|p| + i];
      }
    }
  }

  /** A plain user is refused every non-empty request. */
  lemma UserHasNoPermissions(ps: seq<Permission>)
    ensures CheckIfUserCan(User, ps) <==> ps == []
  {
    if ps != [] {
      assert ps[0] !in Permissions(User);
    }
  }

  /** An admin holds exactly the three course permissions. */
  lemma AdminPermissions(p: Permission)
    ensures CheckIfUserCan(Admin, [p]) <==> p == AddCourse || p == EditCourse || p == DeleteCourse
  {
    assert [p][0] == p;
  }

  /** A super admin holds all ten permissions, each listed once. */
  lemma SuperAdminHoldsAll(ps: seq<Permission>)
    ensures CheckIfUserCan(SuperAdmin, ps)
    ensures |Permissions(SuperAdmin)| == 10
    ensures forall i, j :: 0 <= i < j < |Permissions(SuperAdmin)| ==> Permissions(SuperAdmin)[i] != Permissions(SuperAdmin)[j]
  {
    forall i | 0 <= i < |ps| ensures ps[i] in Permissions(SuperAdmin) {
      match ps[i]
      case AddCourse =>
      case EditCourse =>
      case DeleteCourse =>
      case AddAuthor =>
      case EditAuthor =>
      case DeleteAuthor =>
      case AddCategory =>
      case EditCategory =>
      case DeleteCategory =>
      case MentionOtherAuthor =>
    }
  }

  /** The roles are nested: whatever a user may do an admin may do, and
      whatever an admin may do a super admin may do. */
  lemma RolesNested(ps: seq<Permission>)
    ensures CheckIfUserCan(User, ps) ==> CheckIfUserCan(Admin, ps)
    ensures CheckIfUserCan(Admin, ps) ==> CheckIfUserCan(SuperAdmin, ps)
  {
    SuperAdminHoldsAll(ps);
    UserHasNoPermissions(ps);
  }

  // ---------------------------------------------------------------------
  // handleFirebaseAuthError

  /** The nine error codes the handler knows. */
  datatype KnownCode =
    | WrongPassword | UserNotFound | WeakPassword | EmailAlreadyInUse
    | InvalidEmail | OperationNotAllowed | AccountExistsWithDifferentCredential
    | InvalidLoginCredentials | PopupClosedByUser

  function CodeString(k: KnownCode): string {
    match k
    case WrongPassword => "auth/wrong-password"
    case UserNotFound => "auth/user-not-found"
    case WeakPassword => "auth/weak-password"
    case EmailAlreadyInUse => "auth/email-already-in-use"
    case InvalidEmail => "auth/invalid-email"
    case OperationNotAllowed => "auth/operation-not-allowed"
    case AccountExistsWithDifferentCredential => "auth/account-exists-with-different-credential"
    case InvalidLoginCredentials => "auth/invalid-login-credentials"
    case PopupClosedByUser => "auth/popup-closed-by-user"
  }

  /** The `case` the switch takes for an error code, if any. */
  function ParseCode(code: string): (k: Option<KnownCode>)
    ensures k.Some? ==> CodeString(k.value) == code
    ensures k.None? ==> forall c :: CodeString(c) != code
  {
    if code == "auth/wrong-password" then Some(WrongPassword)
    else if code == "auth/user-not-found" then Some(UserNotFound)
    else if code == "auth/weak-password" then Some(WeakPassword)
    else if code == "auth/email-already-in-use" then Some(EmailAlreadyInUse)
    else if code == "auth/invalid-email" then Some(InvalidEmail)
    else if code == "auth/operation-not-allowed" then Some(OperationNotAllowed)
    else if code == "auth/account-exists-with-different-credential" then Some(AccountExistsWithDifferentCredential)
    else if code == "auth/invalid-login-credentials" then Some(InvalidLoginCredentials)
    else if code == "auth/popup-closed-by-user" then Some(PopupClosedByUser)
    else None
  }

  function Message(k: KnownCode): string {
    match k
    case WrongPassword => "Invalid email or password."
    case UserNotFound => "User not found. Please create an account."
    case WeakPassword => "Password is too weak. Please choose a stronger password."
    case EmailAlreadyInUse => "Email already in use. Please try a different email."
    case InvalidEmail => "Invalid email address. Please enter a valid email."
    case OperationNotAllowed => "This operation is not allowed. Please contact support."
    case AccountExistsWithDifferentCredential =>
      "An account already exists with the same email but different sign-in credentials. Sign in with the appropriate provider."
    case InvalidLoginCredentials => "Invalid credentials. Please enter a valid email & password."
    case PopupClosedByUser => "Please select a valid account in order to proceed."
  }

  const DefaultAuthMessage: string := "An error occurred. Please try again later."

  /** `handleFirebaseAuthError`: a known code gets its own message, every
      other code the default one. */
  function HandleFirebaseAuthError(code: string): (message: string)
    ensures message == DefaultAuthMessage <==> ParseCode(code).None?
    ensures ParseCode(code).Some? ==> message == Message(ParseCode(code).value)
  {
    match ParseCode(code)
    case None => DefaultAuthMessage
    case Some(k) =>
      MessageNotDefault(k);
      Message(k)
  }

  /** No known code's message is the default one. */
  lemma MessageNotDefault(k: KnownCode)
    ensures Message(k) != DefaultAuthMessage
  {
    match k {
      case WrongPassword =>
      case UserNotFound =>
      case WeakPassword =>
      case EmailAlreadyInUse =>
      case InvalidEmail =>
      case OperationNotAllowed =>
      case AccountExistsWithDifferentCredential =>
      case InvalidLoginCredentials =>
      case PopupClosedByUser =>
    }
  }

  /** The length and sixth letter of each code tell the codes apart. */
  lemma CodeSignature(k: KnownCode)
    ensures |CodeString(k)| == match k
      case WrongPassword => 19
      case UserNotFound => 19
      case WeakPassword => 18
      case EmailAlreadyInUse => 25
      case InvalidEmail => 18
      case OperationNotAllowed => 26
      case AccountExistsWithDifferentCredential => 45
      case InvalidLoginCredentials => 30
      case PopupClosedByUser => 25
    ensures |CodeString(k)| > 5 && CodeString(k)[5] == match k
      case WrongPassword => 'w'
      case UserNotFound => 'u'
      case WeakPassword => 'w'
      case EmailAlreadyInUse => 'e'
      case InvalidEmail => 'i'
      case OperationNotAllowed => 'o'
      case AccountExistsWithDifferentCredential => 'a'
      case InvalidLoginCredentials => 'i'
      case PopupClosedByUser => 'p'
  {
  }

  /** Every known code is recognised as itself and gets its message. */
  lemma ParseCodeComplete(k: KnownCode)
    ensures ParseCode(CodeString(k)) == Some(k)
    ensures HandleFirebaseAuthError(CodeString(k)) == Message(k)
  {
    var p := ParseCode(CodeString(k));
    CodeSignature(k);
    CodeSignature(p.value);
  }

  /** The default message is returned exactly for the strings that are
      not one of the nine codes. */
  lemma DefaultIffUnknown(code: string)
    ensures (forall c :: CodeString(c) != code) <==> HandleFirebaseAuthError(code) == DefaultAuthMessage
  {
    if ParseCode(code).Some? {
      MessageNotDefault(ParseCode(code).value);
    }
  }

  // ---------------------------------------------------------------------
  // useCreateProfile

  /** The signed-in Firebase user, as far as the profile reads it. */
  datatype AuthUser = AuthUser(
    uid: string, displayName: Option<string>, email: Option<string>,
    photoUrl: Option<string>, creationTime: Option<string>,
    lastSignInTime: Option<string>, emailVerified: Option<bool>)

  datatype Provider = Mail | Google

  /** The stored user profile (`TUser`). */
  datatype UserRecord = UserRecord(
    uid: string, name: string, email: string, role: Role,
    displayPicture: Option<string>, createdAt: Option<string>,
    updatedAt: Option<string>, emailVerified: bool, providerId: string)

  /** JavaScript truthiness of an optional string. */
  predicate Truthy(s: Option<string>) {
    s.Some? && s.value != ""
  }

  function ProviderId(provider: Option<Provider>): (id: string)
    ensures provider.None? <==> id == "firebase"
  {
    match provider
    case None => "firebase"
    case Some(Mail) => "mail"
    case Some(Google) => "google"
  }

  const NotSignedIn: string := "Please login to create profile"

  /** `createProfile`: with no current user it throws; otherwise the
      profile document, keyed by the uid (or "missing" for an empty uid),
      is written as a plain user, unless the write is rejected
      (`rejection`, its message), which writes nothing and is thrown on. */
  function CreateProfile(
    users: map<string, UserRecord>, current: Option<AuthUser>,
    dataName: Option<string>, provider: Option<Provider>,
    rejection: Option<string>): (r: Result<map<string, UserRecord>, string>)
    ensures r.Err? <==> current.None? || rejection.Some?
    ensures current.None? ==> r.error == NotSignedIn
    ensures current.Some? && rejection.Some? ==> r.error == rejection.value
    ensures r.Ok? ==>
      var u := current.value;
      var key := if u.uid != "" then u.uid else "missing";
      && r.value.Keys == users.Keys + {key}
      && (forall k :: k in users && k != key ==> r.value[k] == users[k])
      && r.value[key] == UserRecord(
           u.uid,
           if Truthy(u.displayName) then u.displayName.value
           else if Truthy(dataName) then dataName.value else "Unknown",
           if Truthy(u.email) then u.email.value else "",
           User, u.photoUrl, u.creationTime, u.lastSignInTime,
           u.emailVerified == Some(true), ProviderId(provider))
  {
    match current
    case None => Err(NotSignedIn)
    case Some(u) =>
      if rejection.Some? then Err(rejection.value)
      else
        var key := if u.uid != "" then u.uid else "missing";
        var name := if Truthy(u.displayName) then u.displayName.value
                    else if Truthy(dataName) then dataName.value else "Unknown";
        var record := UserRecord(
          u.uid, name, if Truthy(u.email) then u.email.value else "", User,
          u.photoUrl, u.creationTime, u.lastSignInTime,
          u.emailVerified == Some(true), ProviderId(provider));
        Ok(users[key := record])
  }

  /** A freshly created profile holds no permission at all. */
  lemma NewProfileCannotAct(users: map<string, UserRecord>, u: AuthUser, dataName: Option<string>,
                            provider: Option<Provider>, ps: seq<Permission>)
    requires ps != []
    ensures var r := CreateProfile(users, Some(u), dataName, provider, None);
      var key := if u.uid != "" then u.uid else "missing";
      !CheckIfUserCan(r.value[key].role, ps)
  {
    UserHasNoPermissions(ps);
  }
}

=== FILE: author_forms.dfy ===
/** The add-author form of src/Authors/index.tsx: platform titles, the
    socials check made on submit, the rules for adding and editing social
    entries, and the author options offered by `SelectAuthor`. */
module AuthorForms {
  import opened Wrappers
  import opened Authors
  import Validators
  import Select

  // ---------------------------------------------------------------------
  // getSocialTitle

  datatype Platform = Email | LinkedIn | Instagram | Facebook | Github | Twitter

  function PlatformId(p: Platform): string {
    match p
    case Email => "email"
    case LinkedIn => "linkedin"
    case Instagram => "instagram"
    case Facebook => "facebook"
    case Github => "github"
    case Twitter => "twitter"
  }

  /** The `case` of the switch an id falls into, if any. */
  function ParsePlatform(id: string): (p: Option<Platform>)
    ensures p.Some? ==> PlatformId(p.value) == id
    ensures p.None? ==> forall q :: PlatformId(q) != id
  {
    if id == "email" then Some(Email)
    else if id == "facebook" then Some(Facebook)
    else if id == "github" then Some(Github)
    else if id == "instagram" then Some(Instagram)
    else if id == "linkedin" then Some(LinkedIn)
    else if id == "twitter" then Some(Twitter)
    else None
  }

  function Title(p: Platform): string {
    match p
    case Email => "Email"
    case LinkedIn => "LinkedIn"
    case Instagram => "Instagram"
    case Facebook => "Facebook"
    case Github => "Github"
    case Twitter => "Twitter"
  }

  const UnknownTitle: string := "Unknown"

  /** `getSocialTitle`: a platform id gets its title, anything else
      (including the blank id "") gets "Unknown". */
  function GetSocialTitle(id: string): (title: string)
    ensures title == UnknownTitle <==> ParsePlatform(id).None?
    ensures ParsePlatform(id).Some? ==> title == Title(ParsePlatform(id).value)
  {
    match ParsePlatform(id)
    case None => UnknownTitle
    case Some(p) =>
      TitleKnown(p);
      Title(p)
  }

  lemma TitleKnown(p: Platform)
    ensures Title(p) != UnknownTitle
  {
    match p {
      case Email =>
      case LinkedIn =>
      case Instagram =>
      case Facebook =>
      case Github =>
      case Twitter =>
    }
  }

  /** Every platform id is recognised as its own platform. */
  lemma ParsePlatformComplete(p: Platform)
    ensures ParsePlatform(PlatformId(p)) == Some(p)
    ensures GetSocialTitle(PlatformId(p)) == Title(p)
  {
    var q := ParsePlatform(PlatformId(p));
    match p {
      case Email => assert q == Some(Email);
      case LinkedIn => assert PlatformId(p)[0] == 'l';
      case Instagram => assert PlatformId(p)[0] == 'i';
      case Facebook => assert PlatformId(p)[0] == 'f';
      case Github => assert PlatformId(p)[0] == 'g';
      case Twitter => assert PlatformId(p)[0] == 't';
    }
  }

  /** `social_constants`: the platform choices in the order shown. */
  const SocialConstants: seq<Platform> := [Email, LinkedIn, Instagram, Facebook, Github, Twitter]

  // ---------------------------------------------------------------------
  // Socials check on submit

  /** `!social.id || !social.value?.length`. */
  predicate BadSocial(s: AuthorSocial) {
    s.id == "" || s.value == ""
  }

  /** The indices flagged as `social_i`, in ascending order. */
  function BadIndices(socials: seq<AuthorSocial>): seq<nat>
    decreases |socials|
  {
    if socials == [] then []
    else
      var n := |socials| - 1;
      BadIndices(socials[..n]) + (if BadSocial(socials[n]) then [n] else [])
  }

  /** The flagged indices are exactly the bad entries, in strictly
      ascending order. */
  lemma {:induction false} BadIndicesSpec(socials: seq<AuthorSocial>)
    ensures forall k :: k in BadIndices(socials) <==> 0 <= k < |socials| && BadSocial(socials[k])
    ensures forall i, j :: 0 <= i < j < |BadIndices(socials)| ==> BadIndices(socials)[i] < BadIndices(socials)[j]
    decreases |socials|
  {
    if socials != [] {
      var n := |socials| - 1;
      var front := socials[..n];
      BadIndicesSpec(front);
      assert forall k :: 0 <= k < n ==> front[k] == socials[k];
      var b := BadIndices(front);
      forall i | 0 <= i < |b| ensures b[i] < n {
        assert b[i] in b;
      }
    }
  }

  /** The `forEach` over the socials: every bad entry `i` is flagged as
      `social_i` (the loop does not stop at the first one) and
      `foundError` is set exactly when one was flagged. */
  method ValidateSocials(socials: seq<AuthorSocial>) returns (flagged: seq<nat>, foundError: bool)
    ensures flagged == BadIndices(socials)
    ensures foundError <==> exists k :: 0 <= k < |socials| && BadSocial(socials[k])
  {
    flagged := [];
    foundError := false;
    var i := 0;
    while i < |socials|
      invariant 0 <= i <= |socials|
      invariant flagged == BadIndices(socials[..i])
      invariant foundError <==> flagged != []
    {
      assert socials[..i + 1][..i] == socials[..i];
      if BadSocial(socials[i]) {
        flagged := flagged + [i];
        foundError := true;
      }
      i := i + 1;
    }
    assert socials[..i] == socials;
    BadIndicesSpec(socials);
    if foundError {
      assert flagged[0] in flagged;
    }
  }

  /** The form values of the add-author form. */
  datatype AuthorFormValues = AuthorFormValues(
    name: string, socials: seq<AuthorSocial>, description: Option<string>,
    image: Option<Validators.File>)

  /** How the add-author submit stops: field errors on the flagged
      socials (the handler returns normally), or a rejected write that is
      thrown on. */
  datatype SubmitStop = FieldErrors(indices: seq<nat>) | Rejected(message: string)

  /** `onSubmit`: with a bad social the field errors are returned and
      nothing is saved; otherwise `addAuthor` is called with the name,
      socials, description and picture file, and no user id or URL. */
  function SubmitAuthorForm(
    db: map<string, Author>, docId: string, values: AuthorFormValues,
    downloadUrl: string, now: int, rejection: Option<string>): (r: Result<map<string, Author>, SubmitStop>)
    ensures (r.Err? && r.error.FieldErrors?) <==> exists k :: 0 <= k < |values.socials| && BadSocial(values.socials[k])
    ensures r.Err? && r.error.FieldErrors? ==> r.error.indices == BadIndices(values.socials) && r.error.indices != []
    ensures r.Err? && r.error.Rejected? ==> rejection == Some(r.error.message)
    ensures r.Ok? ==> rejection.None? && Ok(r.value) == AddAuthor(db, docId,
      AddAuthorPayload(AuthorDetails(values.name, values.socials, values.description), None, values.image, None),
      downloadUrl, now, rejection)
    ensures BadIndices(values.socials) == [] && rejection.Some? ==> r == Err(Rejected(rejection.value))
  {
    BadIndicesSpec(values.socials);
    var flagged := BadIndices(values.socials);
    if flagged != [] then
      assert flagged[0] in flagged;
      Err(FieldErrors(flagged))
    else if rejection.Some? then Err(Rejected(rejection.value))
    else
      assert forall k :: 0 <= k < |values.socials| ==> !BadSocial(values.socials[k]) by {
        forall k | 0 <= k < |values.socials| ensures !BadSocial(values.socials[k]) {
          assert k !in flagged;
        }
      }
      Ok(AddAuthor(db, docId,
        AddAuthorPayload(AuthorDetails(values.name, values.socials, values.description), None, values.image, None),
        downloadUrl, now, None).value)
  }

  /** An author saved through the form has complete socials, refers to
      itself, and shows "missing" when no picture file was chosen. */
  lemma SavedAuthorIsComplete(
    db: map<string, Author>, docId: string, values: AuthorFormValues, downloadUrl: string, now: int,
    rejection: Option<string>)
    requires SubmitAuthorForm(db, docId, values, downloadUrl, now, rejection).Ok?
    ensures var a := SubmitAuthorForm(db, docId, values, downloadUrl, now, rejection).value[docId];
      && a.referenceUid == docId
      && (forall k :: 0 <= k < |a.details.socials| ==> a.details.socials[k].id != "" && a.details.socials[k].value != "")
      && (values.image.None? ==> a.displayPicture == MissingPicture)
  {
    var a := SubmitAuthorForm(db, docId, values, downloadUrl, now, rejection).value[docId];
    forall k | 0 <= k < |a.details.socials|
      ensures a.details.socials[k].id != "" && a.details.socials[k].value != ""
    {
      assert !BadSocial(values.socials[k]);
    }
  }

  // ---------------------------------------------------------------------
  // Adding and editing socials

  const BlankSocial: AuthorSocial := AuthorSocial("", "")
  const MaxSocials: nat := 6

  /** An "Add Socials" button is shown: the one under the empty list, or
      the one under a list of 1 to 5 entries. */
  predicate AddSocialsShown(socials: seq<AuthorSocial>) {
    |socials| == 0 || (|socials| < MaxSocials && |socials| > 0)
  }

  /** Clicking "Add Socials": `[blank]` on the empty list, the list with a
      blank appended on 1 to 5 entries; with 6 or more there is no button
      and the list stays as it is. */
  function AddSocial(socials: seq<AuthorSocial>): (r: seq<AuthorSocial>)
    ensures socials == [] ==> r == [BlankSocial]
    ensures AddSocialsShown(socials) ==> |r| == |socials| + 1 && r[..|socials|] == socials && r[|socials|] == BlankSocial
    ensures !AddSocialsShown(socials) ==> r == socials
  {
    if |socials| == 0 then [BlankSocial]
    else if |socials| < MaxSocials && |socials| > 0 then socials + [BlankSocial]
    else socials
  }

  /** Clicking "Add Socials" `n` times on a list. */
  function AddSocialTimes(socials: seq<AuthorSocial>, n: nat): seq<AuthorSocial>
    decreases n
  {
    if n == 0 then socials else AddSocialTimes(AddSocial(socials), n - 1)
  }

  /** Starting from a list of at most 6, any number of clicks gives
      `min(|socials| + n, 6)` entries: the form never shows more than 6. */
  lemma {:induction false} AddSocialTimesLength(socials: seq<AuthorSocial>, n: nat)
    requires |socials| <= MaxSocials
    ensures |AddSocialTimes(socials, n)| == if |socials| + n <= MaxSocials then |socials| + n else MaxSocials
    ensures AddSocialTimes(socials, n)[..|socials|] == socials
    decreases n
  {
    if n > 0 {
      var next := AddSocial(socials);
      AddSocialTimesLength(next, n - 1);
      if AddSocialsShown(socials) {
        assert AddSocialTimes(next, n - 1)[..|next|][..|socials|] == AddSocialTimes(next, n - 1)[..|socials|];
      }
    }
  }

  /** Choosing platform `e` for entry `i`: only a truthy id is written,
      into entry `i` of the list itself. */
  method EditSocialId(socials: array<AuthorSocial>, i: nat, e: Option<string>)
    requires i < socials.Length
    modifies socials
    ensures e.Some? && e.value != "" ==> socials[..] == old(socials[..])[i := old(socials[i]).(id := e.value)]
    ensures e.None? || e.value == "" ==> socials[..] == old(socials[..])
  {
    if e.Some? && e.value != "" {
      socials[i] := socials[i].(id := e.value);
    }
  }

  /** Typing into the field of entry `i` writes its value in place. */
  method EditSocialValue(socials: array<AuthorSocial>, i: nat, value: string)
    requires i < socials.Length
    modifies socials
    ensures socials[..] == old(socials[..])[i := old(socials[i]).(value := value)]
  {
    socials[i] := socials[i].(value := value);
  }

  /** An edit of entry `i` leaves the length and every other entry as they
      were, keeps entry `i`'s id, and so changes no other entry's bad flag. */
  lemma EditKeepsOthers(socials: seq<AuthorSocial>, i: nat, value: string, k: nat)
    requires i < |socials| && k < |socials| && k != i
    ensures var after := socials[i := socials[i].(value := value)];
      && |after| == |socials|
      && after[k] == socials[k]
      && after[i].id == socials[i].id && after[i].value == value
      && (k in BadIndices(after) <==> k in BadIndices(socials))
  {
    var after := socials[i := socials[i].(value := value)];
    BadIndicesSpec(after);
    BadIndicesSpec(socials);
  }

  // ---------------------------------------------------------------------
  // SelectAuthor

  /** `authorsAsOptions`: each author as the option `{id: uid, label: name}`,
      in the same order. */
  function AuthorsAsOptions(authors: seq<Author>): (opts: seq<Select.SelectOption>)
    ensures |opts| == |authors|
    ensures forall i :: 0 <= i < |authors| ==>
      opts[i] == Select.SelectOption(Select.Str(authors[i].uid), authors[i].details.name, false)
  {
    seq(|authors|, i requires 0 <= i < |authors| => Select.SelectOption(Select.Str(authors[i].uid), authors[i].details.name, false))
  }

  /** No author option is a heading, so every one of them can be chosen. */
  lemma AuthorOptionsAreChoices(authors: seq<Author>, i: nat)
    requires i < |authors|
    ensures Select.IsChoice(AuthorsAsOptions(authors)[i])
  {
  }
}

=== FILE: authors.dfy ===
/** The author record written by `useAddAuthor` in src/data/authors.ts.
    The Authors collection is a map from document id to record; the new
    document id, the download URL of an uploaded picture and the server
    time are parameters. */
module Authors {
  import opened Wrappers
  import Validators

  /** One social link; `id` is one of the platform ids, or "" while the
      entry is still blank in the form. */
  datatype AuthorSocial = AuthorSocial(id: string, value: string)

  /** The payload fields stored as given. */
  datatype AuthorDetails = AuthorDetails(
    name: string, socials: seq<AuthorSocial>, description: Option<string>)

  datatype Author = Author(
    uid: string, details: AuthorDetails, displayPicture: string,
    averageRatings: int, referenceUid: string, createdAt: int, updatedAt: int)

  /** `AddAuthorPayload`: the details, an optional picture URL, an optional
      picture file and an optional id of the user the author stands for. */
  datatype AddAuthorPayload = AddAuthorPayload(
    details: AuthorDetails, image: Option<string>,
    imageFile: Option<Validators.File>, userId: Option<string>)

  const MissingPicture: string := "missing"

  /** The storage path `authors/{docId}/{fileName}`: it splits back into
      the prefix, the document id, a slash and the file name. */
  function UploadPath(docId: string, fileName: string): (path: string)
    ensures |path| == 9 + |docId| + |fileName|
    ensures path[..8] == "authors/" && path[8..8 + |docId|] == docId
    ensures path[8 + |docId|] == '/' && path[9 + |docId|..] == fileName
  {
    "authors/" + docId + "/" + fileName
  }

  /** Two uploads land on the same path only for the same document and
      file name when document ids hold no slash. */
  lemma UploadPathInjective(d1: string, f1: string, d2: string, f2: string)
    requires '/' !in d1 && '/' !in d2
    requires UploadPath(d1, f1) == UploadPath(d2, f2)
    ensures d1 == d2 && f1 == f2
  {
    var p := UploadPath(d1, f1);
    if |d1| != |d2| {
      assert false;
    }
    assert d1 == p[8..8 + |d1|];
  }

  /** The stored picture: the download URL when a file was uploaded,
      otherwise the given URL when it is non-empty, otherwise "missing". */
  function DisplayPicture(imageFile: Option<Validators.File>, image: Option<string>, downloadUrl: string): (pic: string)
    ensures imageFile.Some? ==> pic == downloadUrl
    ensures imageFile.None? && image.Some? && image.value != "" ==> pic == image.value
    ensures imageFile.None? && (image.None? || image.value == "") ==> pic == MissingPicture
  {
    if imageFile.Some? then downloadUrl
    else if image.Some? && image.value != "" then image.value
    else MissingPicture
  }

  /** Without a file the stored picture is never empty; it is "missing"
      exactly when no non-empty URL was given. */
  lemma PictureWithoutFile(image: Option<string>, downloadUrl: string)
    ensures DisplayPicture(None, image, downloadUrl) != ""
    ensures DisplayPicture(None, image, downloadUrl) == MissingPicture <==>
      image.None? || image.value == "" || image.value == MissingPicture
  {
  }

  /** `userId || docId`: an empty or absent user id falls back to the
      author's own document id. */
  function ReferenceUid(userId: Option<string>, docId: string): (r: string)
    ensures userId.Some? && userId.value != "" ==> r == userId.value
    ensures userId.None? || userId.value == "" ==> r == docId
  {
    if userId.Some? && userId.value != "" then userId.value else docId
  }

  /** `addAuthor`: a rejected upload or write (`rejection`, its message)
      writes nothing and is rethrown. Otherwise document `docId` is
      (over)written with the details as given, its own id as `uid`, the
      chosen picture, an average of 0, the reference id and `now` as both
      timestamps; every other author is unchanged. */
  function AddAuthor(
    db: map<string, Author>, docId: string, payload: AddAuthorPayload,
    downloadUrl: string, now: int, rejection: Option<string>): (r: Result<map<string, Author>, string>)
    ensures r.Err? <==> rejection.Some?
    ensures r.Err? ==> r.error == rejection.value
    ensures r.Ok? ==>
      && r.value.Keys == db.Keys + {docId}
      && r.value[docId].uid == docId && r.value[docId].averageRatings == 0
      && r.value[docId].details == payload.details
      && r.value[docId].displayPicture == DisplayPicture(payload.imageFile, payload.image, downloadUrl)
      && r.value[docId].referenceUid == ReferenceUid(payload.userId, docId)
      && r.value[docId].createdAt == now && r.value[docId].updatedAt == now
      && (forall k :: k in db && k != docId ==> r.value[k] == db[k])
  {
    if rejection.Some? then Err(rejection.value)
    else
      var record := Author(
        docId, payload.details, DisplayPicture(payload.imageFile, payload.image, downloadUrl),
        0, ReferenceUid(payload.userId, docId), now, now);
      Ok(db[docId := record])
  }

  /** An author saved without a user id refers to itself, so looking up
      its reference finds the author just written. */
  lemma AuthorWithoutUserRefersToItself(
    db: map<string, Author>, docId: string, payload: AddAuthorPayload, downloadUrl: string, now: int)
    requires payload.userId.None? || payload.userId.value == ""
    ensures var r := AddAuthor(db, docId, payload, downloadUrl, now, None).value;
      r[docId].referenceUid in r && r[r[docId].referenceUid] == r[docId]
  {
  }
}

=== FILE: common.dfy ===
/** The ratings histogram and the star row of src/common/index.tsx. */
module Common {
  import opened Seqs
  import Courses

  /** The rating values of a course's ratings list. */
  function Values(ratings: seq<Courses.RatingEntry>): (vs: seq<nat>)
    ensures |vs| == |ratings|
    ensures forall i :: 0 <= i < |ratings| ==> vs[i] == ratings[i].value
  {
    if ratings == [] then [] else [ratings[0].value] + Values(ratings[1..])
  }

  /** `getRatingsSummary`: one pass over the ratings, counting each value
      into a dictionary. Its keys are exactly the values that occur. */
  method RatingsSummary(ratings: seq<Courses.RatingEntry>) returns (summary: map<nat, nat>)
    ensures forall v :: v in summary <==> v in Values(ratings)
    ensures forall v :: v in summary ==> summary[v] == Count(Values(ratings), v) && summary[v] >= 1
  {
    var vs := Values(ratings);
    summary := map[];
    var k := 0;
    while k < |vs|
      invariant 0 <= k <= |vs|
      invariant forall v :: v in summary <==> v in vs[..k]
      invariant forall v :: v in summary ==> summary[v] == Count(vs[..k], v)
    {
      var v := ratings[k].value;
      assert vs[..k + 1] == vs[..k] + [v];
      var next := if v in summary && summary[v] > 0 then summary[v := summary[v] + 1] else summary[v := 1];
      SummaryStep(vs[..k], v, summary, next);
      summary := next;
      k := k + 1;
    }
    assert vs[..k] == vs;
  }

  /** One counting step: adding `v` to a map that counts `pre` counts
      `pre + [v]`. */
  lemma SummaryStep(pre: seq<nat>, v: nat, summary: map<nat, nat>, next: map<nat, nat>)
    requires forall w :: w in summary <==> w in pre
    requires forall w :: w in summary ==> summary[w] == Count(pre, w)
    requires next == if v in summary && summary[v] > 0 then summary[v := summary[v] + 1] else summary[v := 1]
    ensures forall w :: w in next <==> w in pre + [v]
    ensures forall w :: w in next ==> next[w] == Count(pre + [v], w)
  {
    CountAppend(pre, [v], v);
    forall w | w in next
      ensures next[w] == Count(pre + [v], w)
    {
      CountAppend(pre, [v], w);
    }
  }

  /** `summary[i] || 0`: an absent value shows as 0. */
  function DisplayedCount(summary: map<nat, nat>, i: nat): (n: nat)
    ensures i !in summary ==> n == 0
    ensures i in summary ==> n == summary[i]
  {
    if i in summary && summary[i] != 0 then summary[i] else 0
  }

  /** The displayed count of a star value is the number of ratings with
      that value. */
  lemma DisplayedCountIsCount(ratings: seq<Courses.RatingEntry>, summary: map<nat, nat>, v: nat)
    requires forall w :: w in summary <==> w in Values(ratings)
    requires forall w :: w in summary ==> summary[w] == Count(Values(ratings), w)
    ensures DisplayedCount(summary, v) == Count(Values(ratings), v)
  {
  }

  /** The star values the histogram shows, from 1 to 5. */
  const StarValues: seq<nat> := [1, 2, 3, 4, 5]

  lemma StarValuesDistinct()
    ensures Distinct(StarValues)
    ensures forall v :: v in StarValues <==> 1 <= v <= 5
  {
    assert forall i :: 0 <= i < 5 ==> StarValues[i] == i + 1;
  }

  /** When every value is between 1 and 5 the counts of the five star
      values add up to the number of ratings. */
  lemma FiveCountsCoverAll(ratings: seq<Courses.RatingEntry>)
    requires forall i :: 0 <= i < |ratings| ==> 1 <= ratings[i].value <= 5
    ensures SumCounts(Values(ratings), StarValues) == |ratings|
  {
    var vs := Values(ratings);
    StarValuesDistinct();
    assert forall i :: 0 <= i < |vs| ==> vs[i] == ratings[i].value;
    CountsCoverLength(vs, StarValues);
  }

  // ---------------------------------------------------------------------
  // Stars

  datatype StarColor = IconSuccess | IconError | RatingColor | IconLow

  /** The colour of star `el` for a rating: filled up to the rating's
      floor, in green for a floor of 5, red for 1, the rating colour
      otherwise; the remaining stars are dimmed. */
  function StarColorOf(el: int, rating: real): (c: StarColor)
    ensures c != IconLow <==> el <= rating.Floor
    ensures c == IconSuccess <==> el <= rating.Floor && rating.Floor == 5
    ensures c == IconError <==> el <= rating.Floor && rating.Floor == 1
  {
    var filled := rating.Floor;
    if el <= filled then
      (if filled == 5 then IconSuccess else if filled == 1 then IconError else RatingColor)
    else IconLow
  }

  /** The row of five stars. */
  function Stars(rating: real): (row: seq<StarColor>)
    ensures |row| == 5
    ensures forall i :: 0 <= i < 5 ==> row[i] == StarColorOf(i + 1, rating)
  {
    seq(5, i => StarColorOf(i + 1, rating))
  }

  /** The filled stars are a prefix of the row, as many as the rating's
      floor clamped to 0..5, and all of them share one colour. */
  lemma StarsFilledPrefix(rating: real)
    ensures var row := Stars(rating);
      var n := if rating.Floor < 0 then 0 else if rating.Floor > 5 then 5 else rating.Floor;
      && (forall i :: 0 <= i < 5 ==> (row[i] != IconLow <==> i < n))
      && (forall i, j :: 0 <= i < j < 5 && row[j] != IconLow ==> row[i] == row[j])
  {
  }

  /** A 4.3 rating fills four stars in the rating colour and dims the
      fifth. */
  lemma StarsExample()
    ensures Stars(4.3) == [RatingColor, RatingColor, RatingColor, RatingColor, IconLow]
  {
    assert (4.3).Floor == 4;
  }
}

=== FILE: course_forms.dfy ===
/** The course forms of src/Courses/index.tsx: the start-descriptor
    buttons, the guards of the add-course submit and its choice of author,
    the author picker, and the rate-and-review form with its stars. */
module CourseForms {
  import opened Wrappers
  import opened Courses
  import Authors
  import AuthorForms
  import Auth
  import Reviews
  import Select
  import Seqs
  import Validators

  // ---------------------------------------------------------------------
  // The start descriptor

  /** Clicking "Recorded": exactly `{isRecorded: true}`. */
  function OnRecorded(start: Option<StartInfo>): (r: StartInfo)
    ensures r.isRecorded == Some(true) && r.date.None? && r.isLive.None?
  {
    StartInfo(None, Some(true), None)
  }

  /** Clicking "Live": the previous descriptor with `isRecorded: false`
      and `isLive: true` (its date kept), or `{isLive: true}`. */
  function OnLive(start: Option<StartInfo>): (r: StartInfo)
    ensures r.isLive == Some(true)
    ensures start.Some? ==> r.date == start.value.date && r.isRecorded == Some(false)
    ensures start.None? ==> r.date.None? && r.isRecorded.None?
  {
    match start
    case None => StartInfo(None, None, Some(true))
    case Some(s) => s.(isRecorded := Some(false), isLive := Some(true))
  }

  /** Picking a date: the previous descriptor with `isRecorded: false` and
      the new date (its `isLive` kept), or `{date}`. */
  function OnDate(start: Option<StartInfo>, date: int): (r: StartInfo)
    ensures r.date == Some(date)
    ensures start.Some? ==> r.isLive == start.value.isLive && r.isRecorded == Some(false)
    ensures start.None? ==> r.isLive.None? && r.isRecorded.None?
  {
    match start
    case None => StartInfo(Some(date), None, None)
    case Some(s) => s.(isRecorded := Some(false), date := Some(date))
  }

  datatype StartAction = RecordedClicked | LiveClicked | DateChanged(date: int)

  function StartStep(start: Option<StartInfo>, a: StartAction): StartInfo {
    match a
    case RecordedClicked => OnRecorded(start)
    case LiveClicked => OnLive(start)
    case DateChanged(d) => OnDate(start, d)
  }

  /** The descriptor after a sequence of clicks, starting from the form's
      initial `undefined`. */
  function ApplyStart(start: Option<StartInfo>, acts: seq<StartAction>): Option<StartInfo>
    decreases |acts|
  {
    if acts == [] then start else ApplyStart(Some(StartStep(start, acts[0])), acts[1..])
  }

  /** After a "Live" click or a date change the course is never marked
      recorded. */
  lemma NotRecordedAfterLiveOrDate(start: Option<StartInfo>, a: StartAction)
    requires !a.RecordedClicked?
    ensures StartStep(start, a).isRecorded != Some(true)
  {
  }

  /** Once "Live" is clicked, later date changes keep it live and not
      recorded, and the last date picked is the one stored. */
  lemma {:induction false} LiveSurvivesDates(start: Option<StartInfo>, acts: seq<StartAction>)
    requires acts != [] && acts[0].LiveClicked?
    requires forall i :: 0 < i < |acts| ==> acts[i].DateChanged?
    ensures var r := ApplyStart(start, acts);
      && r.Some? && r.value.isLive == Some(true) && r.value.isRecorded != Some(true)
      && (|acts| > 1 ==> r.value.date == Some(acts[|acts| - 1].date))
    decreases |acts|
  {
    LiveThenDates(OnLive(start), acts[1..]);
  }

  lemma {:induction false} LiveThenDates(s: StartInfo, dates: seq<StartAction>)
    requires s.isLive == Some(true) && s.isRecorded != Some(true)
    requires forall i :: 0 <= i < |dates| ==> dates[i].DateChanged?
    ensures var r := ApplyStart(Some(s), dates);
      && r.Some? && r.value.isLive == Some(true) && r.value.isRecorded != Some(true)
      && (dates == [] ==> r.value.date == s.date)
      && (dates != [] ==> r.value.date == Some(dates[|dates| - 1].date))
    decreases |dates|
  {
    if dates != [] {
      var next := OnDate(Some(s), dates[0].date);
      LiveThenDates(next, dates[1..]);
      if |dates| > 1 {
        assert dates[1..][|dates[1..]| - 1] == dates[|dates| - 1];
      }
    }
  }

  /** Some click has been made exactly when the descriptor is set, which
      is what the submit guard on `start` asks for. */
  lemma {:induction false} StartSetIffClicked(acts: seq<StartAction>)
    ensures ApplyStart(None, acts).Some? <==> acts != []
  {
    if acts != [] {
      AlwaysSetAfter(StartStep(None, acts[0]), acts[1..]);
    }
  }

  lemma {:induction false} AlwaysSetAfter(s: StartInfo, acts: seq<StartAction>)
    ensures ApplyStart(Some(s), acts).Some?
    decreases |acts|
  {
    if acts != [] {
      AlwaysSetAfter(StartStep(Some(s), acts[0]), acts[1..]);
    }
  }

  // ---------------------------------------------------------------------
  // AddNewCourseForm

  /** The add-course form values. */
  datatype CourseFormValues = CourseFormValues(
    language: string, contentUrl: string, currency: Currency,
    description: string, price: int, thumbnail: Option<Validators.File>,
    title: string, category: Option<Category>, author: Option<CourseAuthor>,
    start: Option<StartInfo>)

  const InitialCourseForm: CourseFormValues :=
    CourseFormValues("", "", INR, "", 0, None, "", None, None, None)

  /** The four guards of the submit handler, in the order they run. */
  datatype CourseFormError = NoThumbnail | NoAuthor | NoStart | NoCategory

  function ErrorMessage(e: CourseFormError): string {
    match e
    case NoThumbnail => "Please upload a valid image!"
    case NoAuthor => "Please select a valid author for the course!"
    case NoStart => "Please select a start period for the course!"
    case NoCategory => "Please select a category for the course!"
  }

  lemma ErrorMessageNonEmpty(e: CourseFormError)
    ensures |ErrorMessage(e)| > 0
  {
    match e {
      case NoThumbnail =>
      case NoAuthor =>
      case NoStart =>
      case NoCategory =>
    }
  }

  /** Only roles that may mention other authors see the author picker. */
  function CanMentionAuthor(role: Auth.Role): (can: bool)
    ensures can <==> role == Auth.SuperAdmin
  {
    MentionOnlySuperAdmin(role);
    Auth.CheckIfUserCan(role, [Auth.MentionOtherAuthor])
  }

  /** MENTION_OTHER_AUTHOR is in the permission list of super_admin only. */
  lemma MentionOnlySuperAdmin(role: Auth.Role)
    ensures Auth.CheckIfUserCan(role, [Auth.MentionOtherAuthor]) <==> role == Auth.SuperAdmin
  {
    var ps := [Auth.MentionOtherAuthor];
    assert Auth.CheckIfUserCan(role, ps) <==> ps[0] in Auth.Permissions(role);
    if role == Auth.SuperAdmin {
      assert Auth.Permissions(role)[9] == ps[0];
    }
  }

  /** The author of the new course: an admin is always its own author,
      referring to itself; every other role uses the picked author. */
  function ChosenAuthor(user: Auth.UserRecord, values: CourseFormValues): (a: Option<CourseAuthor>)
    ensures user.role == Auth.Admin ==>
      a == Some(CourseAuthor(user.uid, user.name, Some(user.emailVerified), user.displayPicture, Some(user.uid)))
    ensures user.role != Auth.Admin ==> a == values.author
  {
    if user.role == Auth.Admin then
      Some(CourseAuthor(user.uid, user.name, Some(user.emailVerified), user.displayPicture, Some(user.uid)))
    else values.author
  }

  /** `!author?.uid`. */
  predicate MissingUid(a: Option<CourseAuthor>) {
    a.None? || a.value.uid == ""
  }

  /** `!values.category?.id`. */
  predicate MissingCategory(c: Option<Category>) {
    c.None? || c.value.id == ""
  }

  /** The guards of `onSubmit`: the first one that fails decides the error;
      when all pass, the details handed to `addNewCourse` and the file. */
  function CoursePayload(user: Auth.UserRecord, values: CourseFormValues): (r: Result<(CourseDetails, Validators.File), CourseFormError>)
    ensures r == Err(NoThumbnail) <==> values.thumbnail.None?
    ensures r == Err(NoAuthor) <==> values.thumbnail.Some? && MissingUid(ChosenAuthor(user, values))
    ensures r == Err(NoStart) <==> values.thumbnail.Some? && !MissingUid(ChosenAuthor(user, values)) && values.start.None?
    ensures r == Err(NoCategory) <==>
      values.thumbnail.Some? && !MissingUid(ChosenAuthor(user, values)) && values.start.Some? && MissingCategory(values.category)
    ensures r.Ok? ==>
      var (d, f) := r.value;
      && Some(f) == values.thumbnail
      && Some(d.author) == ChosenAuthor(user, values) && d.author.uid != ""
      && Some(d.start) == values.start
      && Some(d.category) == values.category && d.category.id != ""
      && d.title == values.title && d.description == values.description
      && d.contentUrl == values.contentUrl && d.price == values.price
      && d.currency == values.currency && d.language == values.language
  {
    var author := ChosenAuthor(user, values);
    if values.thumbnail.None? then Err(NoThumbnail)
    else if MissingUid(author) then Err(NoAuthor)
    else if values.start.None? then Err(NoStart)
    else if MissingCategory(values.category) then Err(NoCategory)
    else
      Ok((CourseDetails(values.title, values.description, values.contentUrl, values.price,
        values.currency, values.language, values.category.value, author.value,
        values.start.value), values.thumbnail.value))
  }

  /** The whole submit: a failed guard throws its message before anything
      is written; otherwise the course is added under `docId`, unless the
      remote write is rejected, in which case nothing is written and the
      rejection is thrown on. */
  function SubmitCourse(
    db: map<string, Course>, user: Auth.UserRecord, values: CourseFormValues,
    docId: string, downloadUrl: string, now: int, rejection: Option<string>): (r: Result<map<string, Course>, string>)
    ensures r.Err? <==> CoursePayload(user, values).Err? || rejection.Some?
    ensures CoursePayload(user, values).Err? ==> r.error == ErrorMessage(CoursePayload(user, values).error)
    ensures CoursePayload(user, values).Ok? && rejection.Some? ==> r.error == rejection.value
    ensures r.Ok? ==>
      && r.value.Keys == db.Keys + {docId}
      && r.value[docId].averageRatings == 0 && r.value[docId].id == docId
      && Some(r.value[docId].details.author) == ChosenAuthor(user, values)
  {
    match CoursePayload(user, values)
    case Err(e) => Err(ErrorMessage(e))
    case Ok((details, file)) => AddNewCourse(db, docId, Some(file), details, downloadUrl, now, rejection)
  }

  /** A course submitted by an admin names the admin as author, with the
      admin's own uid as reference, whatever author was in the form. */
  lemma AdminIsOwnAuthor(
    db: map<string, Course>, user: Auth.UserRecord, values: CourseFormValues,
    docId: string, downloadUrl: string, now: int, rejection: Option<string>)
    requires user.role == Auth.Admin
    requires SubmitCourse(db, user, values, docId, downloadUrl, now, rejection).Ok?
    ensures var a := SubmitCourse(db, user, values, docId, downloadUrl, now, rejection).value[docId].details.author;
      a.uid == user.uid && a.referenceUid == Some(user.uid)
  {
  }

  /** A plain user never sees the author picker, so the author stays
      unset and submitting with a thumbnail always fails on the author. */
  lemma PlainUserCannotAddCourse(user: Auth.UserRecord, values: CourseFormValues)
    requires user.role == Auth.User && values.author == InitialCourseForm.author
    requires values.thumbnail.Some?
    ensures !CanMentionAuthor(user.role)
    ensures CoursePayload(user, values) == Err(NoAuthor)
  {
  }

  // ---------------------------------------------------------------------
  // The author picker

  /** `option?.id` is truthy. */
  predicate IdTruthy(id: Select.OptionId) {
    match id
    case Str(s) => s != ""
    case Num(n) => n != 0
  }

  /** `authors.find(author => author.uid === id)`, as an index (-1 when
      there is none). */
  function FindAuthor(authors: seq<Authors.Author>, uid: string): (i: int)
    ensures -1 <= i < |authors|
    ensures i == -1 <==> forall k :: 0 <= k < |authors| ==> authors[k].uid != uid
    ensures i >= 0 ==> authors[i].uid == uid && forall k :: 0 <= k < i ==> authors[k].uid != uid
  {
    Seqs.FirstIndex(authors, (a: Authors.Author) => a.uid == uid)
  }

  /** The course author recorded for a picked author. */
  function AsCourseAuthor(a: Authors.Author): CourseAuthor {
    CourseAuthor(a.uid, a.details.name, Some(true), Some(a.displayPicture), Some(a.referenceUid))
  }

  /** `onChange` of `SelectAuthor`: a truthy string id that names an author
      sets that author (marked verified); anything else leaves the
      current value. */
  function PickAuthor(current: Option<CourseAuthor>, authors: seq<Authors.Author>, option: Option<Select.SelectOption>): (r: Option<CourseAuthor>)
    ensures r != current ==> option.Some? && option.value.id.Str? && IdTruthy(option.value.id)
    ensures option.Some? && option.value.id.Str? && IdTruthy(option.value.id) && FindAuthor(authors, option.value.id.s) >= 0 ==>
      r == Some(AsCourseAuthor(authors[FindAuthor(authors, option.value.id.s)]))
    ensures option.Some? && option.value.id.Str? && FindAuthor(authors, option.value.id.s) < 0 ==> r == current
  {
    if option.Some? && IdTruthy(option.value.id) && option.value.id.Str? then
      var i := FindAuthor(authors, option.value.id.s);
      if i >= 0 then Some(AsCourseAuthor(authors[i])) else current
    else current
  }

  /** The picker's value: `{id: uid, label: name}` when an author with a
      uid is set. */
  function PickerValue(a: Option<CourseAuthor>): (v: Option<Select.SelectOption>)
    ensures v.Some? <==> !MissingUid(a)
    ensures v.Some? ==> v.value.id == Select.Str(a.value.uid) && v.value.labelText == a.value.name
  {
    if a.Some? && a.value.uid != "" then Some(Select.SelectOption(Select.Str(a.value.uid), a.value.name, false))
    else None
  }

  /** Picking the `i`-th offered option, for authors with distinct
      non-empty uids, records exactly that author, and the picker then
      shows that same option. */
  lemma PickOfferedAuthor(current: Option<CourseAuthor>, authors: seq<Authors.Author>, i: nat)
    requires i < |authors| && authors[i].uid != ""
    requires forall j, k :: 0 <= j < k < |authors| ==> authors[j].uid != authors[k].uid
    ensures var opt := AuthorForms.AuthorsAsOptions(authors)[i];
      && PickAuthor(current, authors, Some(opt)) == Some(AsCourseAuthor(authors[i]))
      && PickerValue(PickAuthor(current, authors, Some(opt))) == Some(opt)
  {
    var j := FindAuthor(authors, authors[i].uid);
    assert j >= 0;
    if j != i {
      assert false;
    }
  }

  // ---------------------------------------------------------------------
  // RateAndReviewCourseForm

  const MaxDescription: nat := 500
  const MinTitle: nat := 4
  const MaxTitle: nat := 100

  datatype RatingFormValues = RatingFormValues(ratingValue: Option<nat>, title: string, description: string)

  /** The validation schema: a rating, a title of 4 to 100 characters and
      a description of at most 500. */
  predicate RatingFormValid(v: RatingFormValues) {
    v.ratingValue.Some? && MinTitle <= |v.title| <= MaxTitle && |v.description| <= MaxDescription
  }

  /** What the form sends: nothing when the schema rejects the values, when
      the rating is falsy or when nobody with a uid is signed in; otherwise
      the payload naming the user (`displayName || ""`). */
  function RatingSubmission(v: RatingFormValues, user: Option<Auth.AuthUser>): (p: Option<Reviews.RatingsPayload>)
    ensures p.Some? <==> RatingFormValid(v) && v.ratingValue.value != 0 && user.Some? && user.value.uid != ""
    ensures p.Some? ==>
      && p.value.rating == v.ratingValue.value && p.value.title == v.title
      && p.value.description == v.description
      && p.value.user == Reviews.ReviewUser(user.value.uid, user.value.displayName.GetOr(""),
                                            user.value.emailVerified, user.value.photoUrl)
  {
    if RatingFormValid(v) && v.ratingValue.value != 0 && user.Some? && user.value.uid != "" then
      var u := user.value;
      Some(Reviews.RatingsPayload(
        v.ratingValue.value, v.title, v.description,
        Reviews.ReviewUser(u.uid, u.displayName.GetOr(""), u.emailVerified, u.photoUrl)))
    else None
  }

  /** A rating that is sent and committed ends the course's ratings list
      with the user's entry. */
  lemma SentRatingIsRecorded(
    v: RatingFormValues, user: Option<Auth.AuthUser>, db: Reviews.Db, courseId: string, now: int)
    requires RatingSubmission(v, user).Some? && courseId in db.courses
    ensures var r := Reviews.SubmitReview(db, courseId, RatingSubmission(v, user).value, now, false);
      && r.Ok?
      && var ratings := r.value.courses[courseId].ratings.value;
      |ratings| > 0 && ratings[|ratings| - 1] == RatingEntry(user.value.uid, v.ratingValue.value)
  {
  }

  /** Star `i` of the form is drawn filled unless `!ratingValue ||
      ratingValue < i`. */
  function StarFilled(ratingValue: Option<nat>, i: nat): (filled: bool)
    ensures filled <==> ratingValue.Some? && ratingValue.value != 0 && ratingValue.value >= i
  {
    !(ratingValue.None? || ratingValue.value == 0 || ratingValue.value < i)
  }

  /** After clicking star `i` (1 to 5) exactly stars 1..i are filled. */
  lemma ClickedStarFillsPrefix(i: nat, j: nat)
    requires 1 <= i <= 5 && 1 <= j <= 5
    ensures StarFilled(Some(i), j) <==> j <= i
  {
  }
}

=== FILE: course_page.dfy ===
/** The rendering decisions of the course page, src/pages/Course.tsx:
    the rate button's already-rated gate and sign-in check, the launch
    label, and what the ratings and reviews section shows. */
module CoursePage {
  import opened Wrappers
  import opened Courses
  import Reviews
  import Paging
  import Seqs
  import CourseForms
  import Auth

  // ---------------------------------------------------------------------
  // RateButton

  /** `ratings?.find(el => el.uid === user?.uid)`, as an index (-1 when
      there is no such entry or no user). */
  function FindRatingOf(ratings: Option<seq<RatingEntry>>, uid: Option<string>): (i: int)
    ensures ratings.None? || uid.None? ==> i == -1
    ensures ratings.Some? && uid.Some? ==>
      && -1 <= i < |ratings.value|
      && (i == -1 <==> forall k :: 0 <= k < |ratings.value| ==> ratings.value[k].uid != uid.value)
      && (i >= 0 ==> ratings.value[i].uid == uid.value)
      && (i >= 0 ==> forall k :: 0 <= k < i ==> ratings.value[k].uid != uid.value)
  {
    if ratings.None? || uid.None? then -1
    else Seqs.FirstIndex(ratings.value, (e: RatingEntry) => e.uid == uid.value)
  }

  /** `isAlreadySubmitted`: the uid of the found entry is truthy, so the
      button is hidden exactly when the signed-in user has a non-empty uid
      and some rating carries it. */
  function AlreadySubmitted(ratings: Option<seq<RatingEntry>>, uid: Option<string>): (hidden: bool)
    ensures hidden <==>
      && ratings.Some? && uid.Some? && uid.value != ""
      && exists k :: 0 <= k < |ratings.value| && ratings.value[k].uid == uid.value
  {
    var i := FindRatingOf(ratings, uid);
    i >= 0 && ratings.value[i].uid != ""
  }

  /** Once the signed-in user's rating has been committed, the rate
      button is hidden for that user on the updated course. */
  lemma RatedCourseHidesButton(
    db: Reviews.Db, courseId: string, payload: Reviews.RatingsPayload, now: int)
    requires courseId in db.courses && payload.user.uid != ""
    ensures var r := Reviews.SubmitReview(db, courseId, payload, now, false);
      AlreadySubmitted(r.value.courses[courseId].ratings, Some(payload.user.uid))
  {
    var r := Reviews.SubmitReview(db, courseId, payload, now, false);
    var ratings := r.value.courses[courseId].ratings.value;
    assert ratings[|ratings| - 1].uid == payload.user.uid;
  }

  const SignInFirst: string := "You can rate & review only when you are logged in!"

  datatype RateClick = ShowError(message: string) | OpenForm

  /** Clicking the button: without a signed-in uid an error toast and no
      form; otherwise the form opens. */
  function OnRateClick(uid: Option<string>): (r: RateClick)
    ensures r.OpenForm? <==> uid.Some? && uid.value != ""
    ensures r.ShowError? ==> r.message == SignInFirst
  {
    if uid.None? || uid.value == "" then ShowError(SignInFirst) else OpenForm
  }

  /** A user who can open the form is one the form can send a rating for,
      once the values pass the schema and name a star. */
  lemma OpenFormAllowsRating(u: Auth.AuthUser, v: CourseForms.RatingFormValues)
    requires OnRateClick(Some(u.uid)).OpenForm?
    requires CourseForms.RatingFormValid(v) && v.ratingValue.value != 0
    ensures CourseForms.RatingSubmission(v, Some(u)).Some?
  {
  }

  // ---------------------------------------------------------------------
  // Launch details

  datatype LaunchLabel = LaunchDate(date: int) | RecordedLabel | LiveLabel

  /** "Launch Details": the date when there is one, else "Recorded" when
      the course is recorded, else "Live". */
  function Launch(start: Option<StartInfo>): (l: LaunchLabel)
    ensures start.Some? && start.value.date.Some? ==> l == LaunchDate(start.value.date.value)
    ensures l == RecordedLabel <==> (start.Some? && start.value.date.None? && start.value.isRecorded == Some(true))
    ensures l == LiveLabel <==> !(start.Some? && (start.value.date.Some? || start.value.isRecorded == Some(true)))
  {
    if start.Some? && start.value.date.Some? then LaunchDate(start.value.date.value)
    else if start.Some? && start.value.isRecorded == Some(true) then RecordedLabel
    else LiveLabel
  }

  /** The page shows what the form's buttons chose: "Recorded" after the
      Recorded button, the date after a date was picked, and "Live" after
      the Live button on an undated descriptor. */
  lemma LaunchMatchesForm(start: Option<StartInfo>, date: int)
    ensures Launch(Some(CourseForms.OnRecorded(start))) == RecordedLabel
    ensures Launch(Some(CourseForms.OnDate(start, date))) == LaunchDate(date)
    ensures (start.None? || start.value.date.None?) ==> Launch(Some(CourseForms.OnLive(start))) == LiveLabel
  {
  }

  // ---------------------------------------------------------------------
  // Reviews section

  /** `course.ratings?.length` is truthy. */
  predicate RatingsShown(ratings: Option<seq<RatingEntry>>) {
    ratings.Some? && |ratings.value| > 0
  }

  /** The displayed number of reviews: the length of the course's
      ratings list, not the number of loaded reviews. */
  function NumberOfReviews(ratings: Option<seq<RatingEntry>>): (n: nat)
    ensures RatingsShown(ratings) <==> n > 0
    ensures ratings.Some? ==> n == |ratings.value|
  {
    if ratings.Some? then |ratings.value| else 0
  }

  /** Each committed rating raises the displayed count by one, however
      many reviews have been loaded, and shows the section. */
  lemma CountFollowsRatings(db: Reviews.Db, courseId: string, payload: Reviews.RatingsPayload, now: int)
    requires courseId in db.courses
    ensures var r := Reviews.SubmitReview(db, courseId, payload, now, false);
      && NumberOfReviews(r.value.courses[courseId].ratings) == NumberOfReviews(db.courses[courseId].ratings) + 1
      && RatingsShown(r.value.courses[courseId].ratings)
  {
    Reviews.SubmitGrowsRatings(db, courseId, payload, now);
  }

  /** "Load More" is shown unless the pagination says `emptied`; before
      the first page `emptied` is undefined, which counts as not emptied.
      Only this test is modelled here; the enclosing `reviews?.length` and
      `ratings?.length` checks around the button are not part of it. */
  function ShowLoadMore(p: Paging.Pagination): (shown: bool)
    ensures shown <==> p.emptied != Some(true)
  {
    !(p.emptied.Some? && p.emptied.value)
  }

  /** After a short page the button disappears; after a full one it stays. */
  lemma LoadMoreAfterPage(p: Paging.Pagination, lo: nat, got: nat)
    ensures ShowLoadMore(Paging.Advance(p, lo, got)) <==> got >= p.limit
  {
  }

  /** A review's author line: "You" for the signed-in user's own review,
      the reviewer's name otherwise. */
  function ReviewerLabel(authUid: Option<string>, review: Reviews.Review): (shown: string)
    ensures authUid == Some(review.user.uid) ==> shown == "You"
    ensures authUid != Some(review.user.uid) ==> shown == review.user.name
  {
    if authUid.Some? && authUid.value == review.user.uid then "You" else review.user.name
  }

  const NoDescription: string := "Description not available!"

  /** The description line falls back to a fixed text when empty. */
  function DescriptionText(review: Reviews.Review): (text: string)
    ensures text != ""
    ensures review.description != "" ==> text == review.description
    ensures review.description == "" ==> text == NoDescription
  {
    if review.description != "" then review.description else NoDescription
  }
}

=== FILE: courses.dfy ===
/** The course data layer of src/data/courses.ts: the course record, the
    query parameters of `useCoursesByCategory` and the sort and category
    predicate they select, the paginated course list, the top and popular
    rails, and the record written by `useAddNewCourse`.

    The Courses collection is an ordered sequence: the store hands it over
    in the order the query asks for (a precondition of the lemmas below). */
module Courses {
  import opened Wrappers
  import opened Seqs
  import opened Paging
  import Validators

  datatype Currency = INR | USD | EUR

  /** One entry of a course's `ratings` list. */
  datatype RatingEntry = RatingEntry(uid: string, value: nat)

  datatype Category = Category(id: string, title: string)

  datatype CourseAuthor = CourseAuthor(
    uid: string, name: string, isVerified: Option<bool>,
    photoUrl: Option<string>, referenceUid: Option<string>)

  /** The start descriptor: a date, or the flags "recorded" / "live".
      Timestamps are integers. */
  datatype StartInfo = StartInfo(date: Option<int>, isRecorded: Option<bool>, isLive: Option<bool>)

  /** The fields a course is created with and that are stored unchanged. */
  datatype CourseDetails = CourseDetails(
    title: string, description: string, contentUrl: string, price: int,
    currency: Currency, language: string, category: Category,
    author: CourseAuthor, start: StartInfo)

  /** A stored course; `averageRatings` is kept in tenths (4.3 is 43) and a
      missing `ratings` list is `None`. */
  datatype Course = Course(
    id: string, details: CourseDetails, thumbnail: string,
    averageRatings: int, ratings: Option<seq<RatingEntry>>,
    createdAt: int, updatedAt: int)

  // ---------------------------------------------------------------------
  // Sort orders

  datatype SortKey = AverageRatings | UpdatedAt | CreatedAt
  datatype Direction = Asc | Desc

  /** A compound `orderBy`: the first key decides, ties go to the next. */
  type Ordering = seq<(SortKey, Direction)>

  function KeyOf(c: Course, k: SortKey): int {
    match k
    case AverageRatings => c.averageRatings
    case UpdatedAt => c.updatedAt
    case CreatedAt => c.createdAt
  }

  /** `a` may come before `b` under the ordering. */
  predicate Precedes(a: Course, b: Course, ord: Ordering)
    decreases |ord|
  {
    if ord == [] then true
    else
      var (k, d) := ord[0];
      if KeyOf(a, k) == KeyOf(b, k) then Precedes(a, b, ord[1..])
      else if d == Asc then KeyOf(a, k) < KeyOf(b, k)
      else KeyOf(a, k) > KeyOf(b, k)
  }

  ghost predicate OrderedBy(s: seq<Course>, ord: Ordering) {
    Chain(s, (a, b) => Precedes(a, b, ord))
  }

  // ---------------------------------------------------------------------
  // Query parameters of useCoursesByCategory

  datatype OrderDateBy = Latest | Oldest
  datatype RatingsFilter = HighToLow | LowToHigh

  datatype CourseParams = CourseParams(
    q: Option<string>, category: Category,
    orderDateBy: Option<OrderDateBy>, ratings: Option<RatingsFilter>)

  const AllCategory: Category := Category("all", "All")

  const InitialParams: CourseParams :=
    CourseParams(None, AllCategory, Some(Latest), Some(HighToLow))

  /** The props the hook is called with; a field left out keeps its
      initial value. */
  datatype ParamsProps = ParamsProps(
    q: Option<string>, category: Option<Category>,
    orderDateBy: Option<OrderDateBy>, ratings: Option<RatingsFilter>)

  /** `initialSearchParams`: the initial parameters overridden by the
      fields the props supply; no props gives the initial parameters. */
  function InitialSearchParams(props: Option<ParamsProps>): (p: CourseParams)
    ensures props.None? ==> p == InitialParams
    ensures props.Some? && props.value.category.Some? ==> p.category == props.value.category.value
    ensures props.Some? && props.value.category.None? ==> p.category == AllCategory
    ensures props.Some? && props.value.ratings.None? ==> p.ratings == Some(HighToLow)
    ensures props.Some? && props.value.orderDateBy.None? ==> p.orderDateBy == Some(Latest)
    ensures props.Some? && props.value.ratings.Some? ==> p.ratings == props.value.ratings
    ensures props.Some? && props.value.orderDateBy.Some? ==> p.orderDateBy == props.value.orderDateBy
  {
    match props
    case None => InitialParams
    case Some(pr) =>
      CourseParams(
        if pr.q.Some? then pr.q else InitialParams.q,
        pr.category.GetOr(InitialParams.category),
        if pr.orderDateBy.Some? then pr.orderDateBy else InitialParams.orderDateBy,
        if pr.ratings.Some? then pr.ratings else InitialParams.ratings)
  }

  /** The direction of the primary key, `averageRatings`. */
  function RatingDirection(p: CourseParams): (d: Direction)
    ensures d == Desc <==> p.ratings == Some(HighToLow)
  {
    if p.ratings == Some(HighToLow) then Desc else Asc
  }

  /** The direction of the secondary key, `updated_at`. */
  function DateDirection(p: CourseParams): (d: Direction)
    ensures d == Asc <==> p.orderDateBy == Some(Oldest)
  {
    if p.orderDateBy == Some(Oldest) then Asc else Desc
  }

  function CourseOrdering(p: CourseParams): Ordering {
    [(AverageRatings, RatingDirection(p)), (UpdatedAt, DateDirection(p))]
  }

  /** The `where("category.id", "==", id)` clause, absent for "all". */
  function CategoryClause(p: CourseParams): (c: Option<string>)
    ensures c.None? <==> p.category.id == "all"
    ensures c.Some? ==> c.value == p.category.id
  {
    if p.category.id == "all" then None else Some(p.category.id)
  }

  predicate InCategory(c: Course, id: string) {
    c.details.category.id == id
  }

  /** The documents the category query selects, in store order. */
  function QueryResults(store: seq<Course>, p: CourseParams): seq<Course> {
    match CategoryClause(p)
    case None => store
    case Some(id) => Filter(store, c => InCategory(c, id))
  }

  lemma QueryResultsOrdered(store: seq<Course>, p: CourseParams)
    requires OrderedBy(store, CourseOrdering(p))
    ensures OrderedBy(QueryResults(store, p), CourseOrdering(p))
  {
    var id := p.category.id;
    if id != "all" {
      FilterKeepsChain(store, c => InCategory(c, id), (a, b) => Precedes(a, b, CourseOrdering(p)));
    }
  }

  /** "all" applies no filter; any other id keeps exactly the courses of
      that category, in store order. */
  lemma QueryResultsCategory(store: seq<Course>, p: CourseParams, c: Course)
    ensures p.category.id == "all" ==> QueryResults(store, p) == store
    ensures p.category.id != "all" ==>
      (c in QueryResults(store, p) <==> c in store && InCategory(c, p.category.id))
    ensures IsSubseq(QueryResults(store, p), store)
  {
    var id := p.category.id;
    if id == "all" {
      SubseqRefl(store);
    } else {
      FilterMembership(store, c => InCategory(c, id), c);
      FilterIsSubseq(store, c => InCategory(c, id));
    }
  }

  /** The "all" listing is the union of the per-category listings: every
      course of it appears in the listing of its own category and in no
      other. */
  lemma AllIsUnionOfCategories(store: seq<Course>, all: CourseParams, c: Course, id: string)
    requires all.category.id == "all" && id != "all"
    ensures var p := all.(category := Category(id, ""));
      c in QueryResults(store, p) <==> c in QueryResults(store, all) && InCategory(c, id)
  {
    FilterMembership(store, c => InCategory(c, id), c);
  }

  /** Every page of the category query is ordered, holds at most `limit`
      courses, and holds only courses of the chosen category. */
  lemma PageOfQuery(store: seq<Course>, p: CourseParams, cursor: Option<nat>, limit: nat)
    requires OrderedBy(store, CourseOrdering(p))
    ensures var page := Page(QueryResults(store, p), cursor, limit);
      && |page| <= limit
      && OrderedBy(page, CourseOrdering(p))
      && (p.category.id != "all" ==> forall c :: c in page ==> InCategory(c, p.category.id))
  {
    var results := QueryResults(store, p);
    QueryResultsOrdered(store, p);
    var page := Page(results, cursor, limit);
    PageKeepsChain(results, cursor, limit, (a, b) => Precedes(a, b, CourseOrdering(p)));
    forall c | c in page && p.category.id != "all" ensures InCategory(c, p.category.id) {
      QueryResultsCategory(store, p, c);
    }
  }

  // ---------------------------------------------------------------------
  // useCoursesByCategory

  /** A call of `setFieldValue(key, value)`; keys the hook does not read
      (such as "categoryId") are `SetOther`. */
  datatype ParamUpdate =
    | SetQ(q: string)
    | SetCategory(category: Category)
    | SetOrderDateBy(orderDateBy: OrderDateBy)
    | SetRatings(ratings: RatingsFilter)
    | SetOther(key: string)

  function ApplyUpdate(p: CourseParams, u: ParamUpdate): (r: CourseParams)
    ensures u.SetOther? ==> r == p
    ensures u.SetCategory? ==> r == p.(category := u.category)
    ensures u.SetRatings? ==> r == p.(ratings := Some(u.ratings))
    ensures u.SetOrderDateBy? ==> r == p.(orderDateBy := Some(u.orderDateBy))
    ensures u.SetQ? ==> r == p.(q := Some(u.q))
  {
    match u
    case SetQ(q) => p.(q := Some(q))
    case SetCategory(c) => p.(category := c)
    case SetOrderDateBy(o) => p.(orderDateBy := Some(o))
    case SetRatings(r) => p.(ratings := Some(r))
    case SetOther(_) => p
  }

  /** The state of one `useCoursesByCategory` hook. */
  class CourseCatalog {
    var params: CourseParams
    var courses: seq<Course>
    var pagination: Pagination
    var isCalled: bool

    ghost function State(): Feed<Course>
      reads this
    {
      Feed(courses, pagination)
    }

    constructor (props: Option<ParamsProps>)
      ensures params == InitialSearchParams(props)
      ensures courses == [] && pagination == InitialPagination && !isCalled
    {
      params := InitialSearchParams(props);
      courses := [];
      pagination := InitialPagination;
      isCalled := false;
    }

    /** `getCoursesByCategory`: the first page replaces `courses`; a failed
        fetch empties `courses` and is rethrown. */
    method GetCoursesByCategory(store: seq<Course>, fails: bool) returns (thrown: bool)
      modifies this
      ensures State() == FirstPage(old(State()), QueryResults(store, params), fails)
      ensures params == old(params) && isCalled == old(isCalled)
      ensures thrown == fails
    {
      if fails {
        courses := [];
        return true;
      }
      var results := QueryResults(store, params);
      var page := Page(results, None, pagination.limit);
      pagination := Advance(pagination, 0, |page|);
      courses := page;
      thrown := false;
    }

    /** `getMoreCourses`: the page after `lastItem` is appended; a failed
        fetch leaves everything as it was. */
    method GetMoreCourses(store: seq<Course>, fails: bool) returns (thrown: bool)
      modifies this
      ensures State() == MoreItems(old(State()), QueryResults(store, params), fails)
      ensures params == old(params) && isCalled == old(isCalled)
      ensures thrown == fails
    {
      if fails {
        return true;
      }
      var results := QueryResults(store, params);
      var lo := Start(pagination.lastItem);
      var page := Page(results, pagination.lastItem, pagination.limit);
      pagination := Advance(pagination, lo, |page|);
      courses := courses + page;
      thrown := false;
    }

    /** `setFieldValue` as returned by the hook: update the parameter and
        ask for the first page again. */
    method HandleParamChange(u: ParamUpdate)
      modifies this
      ensures params == ApplyUpdate(old(params), u)
      ensures !isCalled
      ensures courses == old(courses) && pagination == old(pagination)
    {
      params := ApplyUpdate(params, u);
      isCalled := false;
    }

    /** The mount / re-run effect: when not yet called, fetch the first
        page. */
    method RunEffect(store: seq<Course>, fails: bool) returns (thrown: bool)
      modifies this
      ensures isCalled
      ensures old(isCalled) ==> State() == old(State()) && !thrown
      ensures !old(isCalled) ==> State() == FirstPage(old(State()), QueryResults(store, params), fails) && thrown == fails
      ensures params == old(params)
    {
      thrown := false;
      if !isCalled {
        isCalled := true;
        thrown := GetCoursesByCategory(store, fails);
      }
    }

    /** A parameter change followed by the effect it re-arms: the list
        becomes the first page of the query under the new parameters, read
        without a cursor, whatever was loaded before. */
    method ParamChangeRestarts(u: ParamUpdate, store: seq<Course>) returns (thrown: bool)
      modifies this
      ensures params == ApplyUpdate(old(params), u)
      ensures courses == Page(QueryResults(store, ApplyUpdate(old(params), u)), None, old(pagination).limit)
      ensures pagination == Advance(old(pagination), 0, |courses|)
      ensures isCalled && !thrown
    {
      HandleParamChange(u);
      thrown := RunEffect(store, false);
    }
  }


  /** The "categoryId" key the pages set is not read by the hook, so it
      leaves the listing unfiltered. */
  lemma CategoryIdKeyIsIgnored(store: seq<Course>, p: CourseParams)
    requires p.category.id == "all"
    ensures QueryResults(store, ApplyUpdate(p, SetOther("categoryId"))) == store
  {
  }

  // ---------------------------------------------------------------------
  // useTopCourses and usePopularCourses

  const TopOrdering: Ordering := [(AverageRatings, Desc), (UpdatedAt, Desc)]
  const TopLimit: nat := 5
  const PopularOrdering: Ordering := [(AverageRatings, Desc)]
  const PopularLimit: nat := 10

  /** One load of a rail: the first `limit` documents, or nothing when the
      fetch fails. */
  function LoadRail(store: seq<Course>, limit: nat, fails: bool): (r: seq<Course>)
    ensures fails ==> r == []
    ensures |r| <= limit
    ensures !fails ==> |r| == Min(limit, |store|) && r == store[..|r|]
  {
    if fails then [] else Page(store, None, limit)
  }

  /** Top courses: at most five, by average descending then most recently
      updated, even when more exist. */
  lemma TopCoursesBounded(store: seq<Course>, fails: bool)
    requires OrderedBy(store, TopOrdering)
    ensures |LoadRail(store, TopLimit, fails)| <= 5
    ensures |store| >= 5 && !fails ==> |LoadRail(store, TopLimit, fails)| == 5
    ensures OrderedBy(LoadRail(store, TopLimit, fails), TopOrdering)
  {
    var r := LoadRail(store, TopLimit, fails);
    SliceKeepsChain(store, 0, |r|, (a, b) => Precedes(a, b, TopOrdering));
  }

  /** Popular courses: at most ten, by average descending only. */
  lemma PopularCoursesBounded(store: seq<Course>, fails: bool)
    requires OrderedBy(store, PopularOrdering)
    ensures |LoadRail(store, PopularLimit, fails)| <= 10
    ensures OrderedBy(LoadRail(store, PopularLimit, fails), PopularOrdering)
    ensures forall i, j :: 0 <= i < j < |LoadRail(store, PopularLimit, fails)| ==>
      LoadRail(store, PopularLimit, fails)[i].averageRatings >= LoadRail(store, PopularLimit, fails)[j].averageRatings
  {
    var r := LoadRail(store, PopularLimit, fails);
    SliceKeepsChain(store, 0, |r|, (a, b) => Precedes(a, b, PopularOrdering));
    forall i, j | 0 <= i < j < |r| ensures r[i].averageRatings >= r[j].averageRatings {
      assert Precedes(r[i], r[j], PopularOrdering);
    }
  }

  // ---------------------------------------------------------------------
  // useAddNewCourse

  /** The storage path of the thumbnail: `courses/{docId}/{fileName}`. */
  function ThumbnailPath(docId: string, fileName: string): (path: string)
    ensures |path| > |"courses/"| && path[..8] == "courses/"
  {
    "courses/" + docId + "/" + fileName
  }

  /** `addNewCourse`: with no image it returns before any remote call and
      nothing is written. Otherwise a rejected upload or write (`rejection`,
      its message) writes nothing and is rethrown; on success the new
      document `docId` holds the details unchanged, its own id, an average
      of 0, the download URL (or the storage path when the URL is empty) as
      thumbnail and `now` as both timestamps. */
  function AddNewCourse(
    db: map<string, Course>, docId: string, image: Option<Validators.File>,
    details: CourseDetails, downloadUrl: string, now: int,
    rejection: Option<string>): (r: Result<map<string, Course>, string>)
    ensures image.None? ==> r == Ok(db)
    ensures r.Err? <==> image.Some? && rejection.Some?
    ensures r.Err? ==> r.error == rejection.value
    ensures r.Ok? && image.Some? ==>
      && r.value.Keys == db.Keys + {docId}
      && r.value[docId].id == docId && r.value[docId].averageRatings == 0
      && r.value[docId].details == details && r.value[docId].ratings.None?
      && r.value[docId].createdAt == now && r.value[docId].updatedAt == now
      && r.value[docId].thumbnail != ""
      && r.value[docId].thumbnail == (if downloadUrl != "" then downloadUrl else ThumbnailPath(docId, image.value.name))
      && (forall k :: k in db && k != docId ==> r.value[k] == db[k])
  {
    match image
    case None => Ok(db)
    case Some(file) =>
      if rejection.Some? then Err(rejection.value)
      else
        var path := ThumbnailPath(docId, file.name);
        var thumbnail := if downloadUrl != "" then downloadUrl else path;
        Ok(db[docId := Course(docId, details, thumbnail, 0, None, now, now)])
  }
}

=== FILE: dropdown.dfy ===
/** The dropdown of src/components/Dropdown.tsx: its substring filter, the
    option found for the current value, and what is marked and shown. */
module Dropdown {
  import opened Wrappers
  import opened Seqs
  import opened Select
  import Text

  predicate Matches(o: SelectOption, q: string) {
    LabelMatches(o.labelText, q)
  }

  /** `options?.filter(...) || []`: the options whose lower-cased label
      includes the lower-cased query. */
  function FilteredOptions(options: Option<seq<SelectOption>>, q: string): (r: seq<SelectOption>)
    ensures options.None? ==> r == []
    ensures options.Some? ==> |r| <= |options.value|
    ensures forall x :: x in r ==> options.Some? && x in options.value && Matches(x, q)
  {
    match options
    case None => []
    case Some(opts) => Filter(opts, o => Matches(o, q))
  }

  /** The filter keeps the original order, keeps every matching option and
      with an empty query keeps all of them. */
  lemma FilteredOptionsProperties(opts: seq<SelectOption>, q: string, x: SelectOption)
    ensures IsSubseq(FilteredOptions(Some(opts), q), opts)
    ensures x in FilteredOptions(Some(opts), q) <==> x in opts && Matches(x, q)
    ensures FilteredOptions(Some(opts), "") == opts
  {
    FilterIsSubseq(opts, o => Matches(o, q));
    FilterMembership(opts, o => Matches(o, q), x);
    forall o | o in opts ensures Matches(o, "") {
      Text.IncludesEmpty(Text.ToLower(o.labelText));
    }
    FilterKeepsAll(opts, o => Matches(o, ""));
  }

  /** The position of the first option with id `value`, or -1. */
  function FirstWithId(opts: seq<SelectOption>, value: OptionId): (i: int)
    ensures i == -1 <==> forall k :: 0 <= k < |opts| ==> opts[k].id != value
    ensures i != -1 ==> 0 <= i < |opts| && opts[i].id == value
    ensures i != -1 ==> forall k :: 0 <= k < i ==> opts[k].id != value
  {
    Seqs.FirstIndex(opts, (o: SelectOption) => o.id == value)
  }

  /** `options.find(option => option.id === value)`. */
  function Find(opts: seq<SelectOption>, value: OptionId): (r: Option<SelectOption>)
    ensures r.None? <==> forall k :: 0 <= k < |opts| ==> opts[k].id != value
    ensures r.Some? ==> r.value == opts[FirstWithId(opts, value)]
  {
    var i := FirstWithId(opts, value);
    if i == -1 then None else Some(opts[i])
  }

  /** `extractedValue`: the first option with the value as id; no options
      or no value find nothing. */
  function ExtractedValue(options: Option<seq<SelectOption>>, value: Option<OptionId>): (r: Option<SelectOption>)
    ensures options.None? || value.None? ==> r.None?
    ensures r.Some? ==> r.value in options.value && Some(r.value.id) == value
    ensures options.Some? && value.Some? ==>
      (r.None? <==> forall k :: 0 <= k < |options.value| ==> options.value[k].id != value.value)
    ensures r.Some? ==> r.value == options.value[FirstWithId(options.value, value.value)]
  {
    if options.None? || value.None? then None else Find(options.value, value.value)
  }

  /** `isSelected` of a listed option. */
  predicate IsMarked(extracted: Option<SelectOption>, option: SelectOption) {
    extracted.Some? && extracted.value.id == option.id
  }

  predicate UniqueIds(opts: seq<SelectOption>) {
    forall i, j :: 0 <= i < j < |opts| ==> opts[i].id != opts[j].id
  }

  /** With unique ids at most one option is marked, and it is the one with
      the value as id. */
  lemma AtMostOneMarked(opts: seq<SelectOption>, value: Option<OptionId>, i: nat, j: nat)
    requires UniqueIds(opts) && i < |opts| && j < |opts|
    requires IsMarked(ExtractedValue(Some(opts), value), opts[i])
    requires IsMarked(ExtractedValue(Some(opts), value), opts[j])
    ensures i == j && Some(opts[i].id) == value
  {
  }

  /** The text in the input: the query while the menu is open, otherwise
      the label of the found option (nothing when none is found). */
  function DisplayedValue(isOpen: bool, q: string, extracted: Option<SelectOption>): (shown: Option<string>)
    ensures isOpen ==> shown == Some(q)
    ensures !isOpen ==> (shown.Some? <==> extracted.Some?)
    ensures !isOpen && extracted.Some? ==> shown.value == extracted.value.labelText
  {
    if isOpen then Some(q)
    else if extracted.Some? then Some(extracted.value.labelText)
    else None
  }
}

=== FILE: form.dfy ===
/** `formikOnSubmitWithErrorHandling` of src/components/Form.tsx as a
    decision table: from the connectivity before and after the handler,
    what the handler did and the `rethrow` flag, it yields whether the
    handler ran, the final form status, the field errors set and how the
    returned promise settles. The browser's `navigator.onLine` readings
    are parameters. */
module FormSubmit {
  import opened Wrappers
  import CourseForms

  /** The field errors a thrown error may carry (`formikErrors`). */
  type FieldErrors = map<string, string>

  /** A value the handler throws. `Falsy` stands for every falsy value
      (`undefined`, `null`, `false`, `0`, `""`); `Other` for a truthy value
      that is neither a string nor an object with a message. */
  datatype Thrown =
    | Falsy
    | Str(s: string)
    | ErrorObj(message: string, formikErrors: Option<FieldErrors>)
    | Other

  predicate Truthy(e: Thrown) {
    match e
    case Falsy => false
    case Str(s) => s != ""
    case ErrorObj(_, _) => true
    case Other => true
  }

  datatype HandlerResult<T> = Returned(value: T) | Threw(error: Thrown)

  /** The status after the submit: never touched (offline before the
      handler), cleared by `setStatus()`, or set to a message. */
  datatype Status = Untouched | Cleared | SetTo(message: string)

  /** How the returned promise settles: the no-internet toast, a value
      (`None` for `undefined`) or a rejection with the original error. */
  datatype Settled<T> = ToastShown | Resolved(value: Option<T>) | Rejected(error: Thrown)

  datatype Outcome<T> = Outcome(handlerRan: bool, status: Status, errors: Option<FieldErrors>, result: Settled<T>)

  const NoInternet: string := "No internet available. Please try again later!"

  /** The status a caught error sets (after the no-internet check). */
  function CaughtStatus(e: Thrown): (s: Status)
    ensures s.SetTo? <==> (e.Str? && e.s != "") || (e.ErrorObj? && e.message != "")
    ensures s.SetTo? && e.Str? ==> s.message == e.s
    ensures s.SetTo? && e.ErrorObj? ==> s.message == e.message
    ensures !s.SetTo? ==> s == Cleared
  {
    match e
    case Str(msg) => if msg != "" then SetTo(msg) else Cleared
    case ErrorObj(msg, _) => if msg != "" then SetTo(msg) else Cleared
    case _ => Cleared
  }

  /** The wrapper, branch by branch. */
  function Submit<T>(onlineBefore: bool, handler: HandlerResult<T>, onlineAfter: bool, rethrow: bool): (o: Outcome<T>)
    ensures !onlineBefore ==> o == Outcome(false, Untouched, None, ToastShown)
    ensures onlineBefore ==> o.handlerRan && o.status != Untouched
    ensures onlineBefore && handler.Returned? ==> o == Outcome(true, Cleared, None, Resolved(Some(handler.value)))
    ensures onlineBefore && handler.Threw? && !onlineAfter ==> o == Outcome(true, SetTo(NoInternet), None, Resolved(None))
    ensures onlineBefore && handler.Threw? && onlineAfter && !Truthy(handler.error) ==> o == Outcome(true, Cleared, None, Resolved(None))
    ensures onlineBefore && handler.Threw? && onlineAfter && Truthy(handler.error) ==>
      && o.status == CaughtStatus(handler.error)
      && o.errors == (if handler.error.ErrorObj? && handler.error.message != "" then handler.error.formikErrors else None)
      && o.result == (if rethrow then Rejected(handler.error) else Resolved(None))
  {
    if !onlineBefore then Outcome(false, Untouched, None, ToastShown)
    else
      match handler
      case Returned(v) => Outcome(true, Cleared, None, Resolved(Some(v)))
      case Threw(e) =>
        if !onlineAfter then Outcome(true, SetTo(NoInternet), None, Resolved(None))
        else if !Truthy(e) then Outcome(true, Cleared, None, Resolved(None))
        else
          var errors := if e.ErrorObj? && e.message != "" then e.formikErrors else None;
          Outcome(true, CaughtStatus(e), errors, if rethrow then Rejected(e) else Resolved(None))
  }

  /** The promise rejects exactly when `rethrow` is set, the handler threw a
      truthy error and the browser is still online. */
  lemma RejectsIff<T>(onlineBefore: bool, handler: HandlerResult<T>, onlineAfter: bool, rethrow: bool)
    ensures Submit(onlineBefore, handler, onlineAfter, rethrow).result.Rejected? <==>
      onlineBefore && handler.Threw? && onlineAfter && Truthy(handler.error) && rethrow
  {
  }

  /** Field errors are only ever set together with the error's message as
      status. */
  lemma ErrorsComeWithMessage<T>(onlineBefore: bool, handler: HandlerResult<T>, onlineAfter: bool, rethrow: bool)
    ensures var o := Submit(onlineBefore, handler, onlineAfter, rethrow);
      o.errors.Some? ==> handler.Threw? && handler.error.ErrorObj? && o.status == SetTo(handler.error.message)
  {
  }

  /** Going offline during the handler hides whatever was thrown behind the
      no-internet status, and never rejects. */
  lemma OfflineMasksError<T>(e1: Thrown, e2: Thrown, rethrow: bool)
    ensures Submit<T>(true, Threw(e1), false, rethrow) == Submit<T>(true, Threw(e2), false, rethrow)
    ensures Submit<T>(true, Threw(e1), false, rethrow).status == SetTo(NoInternet)
  {
  }

  /** A failed guard of the add-course form, thrown as an `Error`, shows
      its message as the form status. */
  lemma CourseGuardShownAsStatus(e: CourseForms.CourseFormError, rethrow: bool)
    ensures Submit<()>(true, Threw(ErrorObj(CourseForms.ErrorMessage(e), None)), true, rethrow).status
      == SetTo(CourseForms.ErrorMessage(e))
  {
    CourseForms.ErrorMessageNonEmpty(e);
  }
}

=== FILE: helpers.dfy ===
/** The string and counting helpers of src/utils/helpers.ts. */
module Helpers {
  import opened Wrappers
  import opened Seqs
  import Text
  import Amount
  import Courses

  // ---------------------------------------------------------------------
  // getInitials

  /** `length || 2`: a missing or zero length means 2. */
  function EffectiveLength(length: Option<int>): (n: int)
    ensures length.None? || length.value == 0 ==> n == 2
    ensures length.Some? && length.value != 0 ==> n == length.value
  {
    if length.None? || length.value == 0 then 2 else length.value
  }

  /** `word[0]` appended to a string: an empty word contributes the text
      "undefined". */
  function FirstChar(word: string): string {
    if word == "" then "undefined" else [word[0]]
  }

  /** The initials of the first `n` words. */
  function InitialsOf(words: seq<string>, n: int): (r: string)
    ensures n <= 0 || words == [] ==> r == ""
    decreases |words|
  {
    if n <= 0 || words == [] then "" else FirstChar(words[0]) + InitialsOf(words[1..], n - 1)
  }

  /** `getInitials(str, length)`: the loop over the words of
      `str.split(" ")`. */
  method GetInitials(str: string, length: Option<int>) returns (initials: string)
    ensures initials == InitialsOf(Text.Split(str, ' '), EffectiveLength(length))
  {
    var n := EffectiveLength(length);
    var words := Text.Split(str, ' ');
    initials := "";
    var i := 0;
    assert words[0..] == words;
    while i < n && i < |words|
      invariant 0 <= i <= |words|
      invariant i <= n || i == 0
      invariant initials + InitialsOf(words[i..], n - i) == InitialsOf(words, n)
    {
      InitialsStep(words, i, n, initials);
      initials := initials + FirstChar(words[i]);
      i := i + 1;
    }
    assert InitialsOf(words[i..], n - i) == "";
  }

  /** One step of the loop: the word at `i` moves from the rest into the
      initials collected so far. */
  lemma InitialsStep(words: seq<string>, i: nat, n: int, acc: string)
    requires i < |words| && i < n
    ensures acc + InitialsOf(words[i..], n - i) == (acc + FirstChar(words[i])) + InitialsOf(words[i + 1..], n - (i + 1))
  {
    assert words[i..][1..] == words[i + 1..];
  }

  /** With non-empty words the initials are the first letters of the first
      `min(n, #words)` words, in order. */
  lemma {:induction false} InitialsOfWords(words: seq<string>, n: int)
    requires forall i :: 0 <= i < |words| ==> words[i] != ""
    ensures var k := if n <= 0 then 0 else if n < |words| then n else |words|;
      && |InitialsOf(words, n)| == k
      && forall i :: 0 <= i < k ==> InitialsOf(words, n)[i] == words[i][0]
    decreases |words|
  {
    if n > 0 && words != [] {
      InitialsOfWords(words[1..], n - 1);
      var rest := InitialsOf(words[1..], n - 1);
      assert InitialsOf(words, n) == [words[0][0]] + rest;
      forall i | 1 <= i < |InitialsOf(words, n)| ensures InitialsOf(words, n)[i] == words[i][0] {
        assert InitialsOf(words, n)[i] == rest[i - 1];
        assert words[1..][i - 1] == words[i];
      }
    }
  }

  /** The words "Al", "Bo", "Cy" give "AB" by default and "ABC" for
      length 3; an empty word, as a double space leaves, gives the text
      "undefined". */
  lemma InitialsExample()
    ensures InitialsOf(["Al", "Bo", "Cy"], EffectiveLength(None)) == "AB"
    ensures InitialsOf(["Al", "Bo", "Cy"], 3) == "ABC"
    ensures InitialsOf(["A", "", "B"], 2) == "Aundefined"
  {
    assert ["Al", "Bo", "Cy"][1..] == ["Bo", "Cy"];
    assert ["Bo", "Cy"][1..] == ["Cy"];
    assert ["A", "", "B"][1..] == ["", "B"];
  }

  // ---------------------------------------------------------------------
  // Language and currency lookups

  const LanguageCodes: seq<string> := ["en", "hi", "fr", "es", "de"]

  function LanguageOfCode(code: string): string {
    match code
    case "en" => "English"
    case "hi" => "Hindi"
    case "fr" => "French"
    case "es" => "Spanish"
    case "de" => "German"
    case _ => "Unknown"
  }

  /** `getLanguageValue`: the language name of a two-letter code, in any
      letter case; "Unknown" for any other string. */
  function GetLanguageValue(str: string): (name: string)
    ensures name == "Unknown" <==> Text.ToLower(str) !in LanguageCodes
  {
    LanguageOfCode(Text.ToLower(str))
  }

  /** The lookup ignores letter case. */
  lemma LanguageCaseInsensitive(str: string)
    ensures GetLanguageValue(Text.ToLower(str)) == GetLanguageValue(str)
    ensures GetLanguageValue("EN") == "English" && GetLanguageValue("De") == "German"
  {
    Text.ToLowerIdempotent(str);
    assert Text.ToLower("EN") == "en";
    assert Text.ToLower("De") == "de";
  }

  const CurrencyCodes: seq<string> := ["inr", "usd", "eur"]

  function SymbolOfCode(code: string): string {
    match code
    case "inr" => "\U{20B9}"
    case "usd" => "$"
    case "eur" => "\U{20AC}"
    case _ => "Unknown"
  }

  /** `getCurrencySymbols`: the symbol of a currency code in any letter
      case; "Unknown" for any other string. */
  function GetCurrencySymbols(str: string): (symbol: string)
    ensures symbol == "Unknown" <==> Text.ToLower(str) !in CurrencyCodes
  {
    SymbolOfCode(Text.ToLower(str))
  }

  /** The lookup ignores letter case and agrees with the symbols the amount
      display uses. */
  lemma CurrencyLookupAgrees(str: string)
    ensures GetCurrencySymbols(Text.ToLower(str)) == GetCurrencySymbols(str)
    ensures GetCurrencySymbols("INR") == Amount.CurrencySymbol(Courses.INR)
    ensures GetCurrencySymbols("USD") == Amount.CurrencySymbol(Courses.USD)
    ensures GetCurrencySymbols("EUR") == Amount.CurrencySymbol(Courses.EUR)
  {
    Text.ToLowerIdempotent(str);
    assert Text.ToLower("INR") == "inr";
    assert Text.ToLower("USD") == "usd";
    assert Text.ToLower("EUR") == "eur";
  }

  // ---------------------------------------------------------------------
  // arrayGroupBy

  /** `arrayGroupBy`: counts each item into a dictionary. */
  method ArrayGroupBy<T(==)>(arr: seq<T>) returns (obj: map<T, nat>)
    ensures forall x :: x in obj <==> x in arr
    ensures forall x :: x in obj ==> obj[x] == Count(arr, x) && obj[x] >= 1
  {
    obj := map[];
    var k := 0;
    while k < |arr|
      invariant 0 <= k <= |arr|
      invariant forall x :: x in obj <==> x in arr[..k]
      invariant forall x :: x in obj ==> obj[x] == Count(arr[..k], x)
    {
      var item := arr[k];
      assert arr[..k + 1] == arr[..k] + [item];
      CountAppend(arr[..k], [item], item);
      forall w | w in obj && w != item
        ensures Count(arr[..k + 1], w) == Count(arr[..k], w)
      {
        CountAppend(arr[..k], [item], w);
      }
      if item in obj && obj[item] > 0 {
        obj := obj[item := obj[item] + 1];
      } else {
        obj := obj[item := 1];
      }
      k := k + 1;
    }
    assert arr[..k] == arr;
  }

  /** Listing the keys once each, the counts add up to the array's
      length. */
  lemma GroupCountsSum<T>(arr: seq<T>, obj: map<T, nat>, keys: seq<T>)
    requires forall x :: x in obj <==> x in arr
    requires Distinct(keys) && forall x :: x in obj <==> x in keys
    ensures SumCounts(arr, keys) == |arr|
  {
    assert forall i :: 0 <= i < |arr| ==> arr[i] in obj;
    CountsCoverLength(arr, keys);
  }
}

=== FILE: menu.dfy ===
/** The open/close state of `Menu` in src/components/Menu.tsx: its
    reducer, `toggle`, the items that close the menu and the list that
    renders only while open. */
module Menu {
  datatype MenuState = MenuState(isExpended: bool)

  /** `OPEN`, `CLOSE`, or any other action type the reducer may see. */
  datatype Action = Open | Close | OtherAction(kind: string)

  const InitialState: MenuState := MenuState(false)

  /** The reducer: OPEN expands, CLOSE collapses, anything else returns
      the state unchanged. */
  function Reduce(s: MenuState, a: Action): (r: MenuState)
    ensures a.Open? ==> r.isExpended
    ensures a.Close? ==> !r.isExpended
    ensures a.OtherAction? ==> r == s
  {
    match a
    case Open => s.(isExpended := true)
    case Close => s.(isExpended := false)
    case OtherAction(_) => s
  }

  /** Dispatching the same action twice is the same as once. */
  lemma ReduceIdempotent(s: MenuState, a: Action)
    ensures Reduce(Reduce(s, a), a) == Reduce(s, a)
  {
  }

  /** `toggle`: close when expanded, open otherwise. */
  function ToggleAction(s: MenuState): (a: Action)
    ensures a.Open? || a.Close?
  {
    if s.isExpended then Close else Open
  }

  /** `toggle`: dispatches the action that flips the state. */
  function Toggle(s: MenuState): (r: MenuState)
    ensures r.isExpended == !s.isExpended
  {
    Reduce(s, ToggleAction(s))
  }

  /** Toggling flips the state, and toggling twice restores it. */
  lemma ToggleFlips(s: MenuState)
    ensures Toggle(s).isExpended == !s.isExpended
    ensures Toggle(Toggle(s)) == s
  {
  }

  /** The state after a sequence of dispatches. */
  function Run(s: MenuState, acts: seq<Action>): MenuState
    decreases |acts|
  {
    if acts == [] then s else Run(Reduce(s, acts[0]), acts[1..])
  }

  /** After any dispatches the menu is open exactly when the last OPEN or
      CLOSE among them was an OPEN, or, when there was none, when it was
      open before. */
  lemma {:induction false} LastOpenOrCloseDecides(s: MenuState, acts: seq<Action>, k: nat)
    requires k < |acts| && !acts[k].OtherAction?
    requires forall j :: k < j < |acts| ==> acts[j].OtherAction?
    ensures Run(s, acts).isExpended <==> acts[k].Open?
    decreases |acts|
  {
    if k == 0 {
      OthersKeepState(Reduce(s, acts[0]), acts[1..]);
    } else {
      LastOpenOrCloseDecides(Reduce(s, acts[0]), acts[1..], k - 1);
    }
  }

  lemma {:induction false} OthersKeepState(s: MenuState, acts: seq<Action>)
    requires forall j :: 0 <= j < |acts| ==> acts[j].OtherAction?
    ensures Run(s, acts) == s
    decreases |acts|
  {
    if acts != [] {
      OthersKeepState(Reduce(s, acts[0]), acts[1..]);
    }
  }

  /** Clicking a `MenuItem` or `MenuLink` dispatches CLOSE. */
  function ItemClick(s: MenuState): (r: MenuState)
    ensures !r.isExpended
  {
    Reduce(s, Close)
  }

  /** `MenuList` renders its items only while the menu is expanded. */
  predicate ListRendered(s: MenuState) {
    s.isExpended
  }

  /** The menu starts with no list shown; the menu button opens it, and a
      click on an item hides it again. */
  lemma ButtonThenItem()
    ensures !ListRendered(InitialState)
    ensures ListRendered(Toggle(InitialState))
    ensures !ListRendered(ItemClick(Toggle(InitialState)))
  {
  }
}

=== FILE: paging.dfy ===
/** Cursor pagination as both paginated hooks do it (`useCoursesByCategory`
    in src/data/courses.ts and `useReviews` in src/data/reviews.ts).

    The store's answer to a query is an ordered sequence `results`; the
    cursor `lastItem` is the position in `results` of the last document
    delivered, and `startAfter(lastItem)` resumes right after it. */
module Paging {
  import opened Wrappers
  import opened Seqs

  /** The page size both hooks start with and never change. */
  const PageLimit: nat := 20

  /** `{ lastItem, emptied?, limit }`; `emptied` is undefined until a page
      has come back. */
  datatype Pagination = Pagination(lastItem: Option<nat>, emptied: Option<bool>, limit: nat)

  const InitialPagination: Pagination := Pagination(None, None, PageLimit)

  /** The accumulated items of a hook together with its pagination state. */
  datatype Feed<T> = Feed(items: seq<T>, pagination: Pagination)

  function Min(a: int, b: int): int { if a <= b then a else b }

  /** Where a query with this cursor starts reading; no cursor reads from
      the beginning. */
  function Start(cursor: Option<nat>): nat {
    match cursor
    case None => 0
    case Some(i) => i + 1
  }

  /** `query(..., startAfter(cursor), limit(limit))`: the documents strictly
      after the cursor, at most `limit` of them, in the query's order. */
  function Page<T>(results: seq<T>, cursor: Option<nat>, limit: nat): (page: seq<T>)
    ensures |page| <= limit
    ensures |page| == if Start(cursor) >= |results| then 0 else Min(limit, |results| - Start(cursor))
    ensures forall k :: 0 <= k < |page| ==> Start(cursor) + k < |results| && page[k] == results[Start(cursor) + k]
  {
    var lo := Start(cursor);
    if lo >= |results| then [] else results[lo..lo + Min(limit, |results| - lo)]
  }

  /** A page of an ordered query is ordered the same way. */
  lemma PageKeepsChain<T>(results: seq<T>, cursor: Option<nat>, limit: nat, before: (T, T) -> bool)
    requires Chain(results, before)
    ensures Chain(Page(results, cursor, limit), before)
  {
    var page := Page(results, cursor, limit);
    var lo := Start(cursor);
    if lo < |results| {
      assert page == results[lo..lo + |page|];
      SliceKeepsChain(results, lo, lo + |page|, before);
    }
  }

  /** The pagination update after a page of `got` documents starting at
      position `lo` came back. */
  function Advance(p: Pagination, lo: nat, got: nat): (q: Pagination)
    ensures q.limit == p.limit
    ensures q.emptied == Some(got < p.limit)
    ensures got == 0 <==> q.lastItem == None
    ensures got > 0 ==> q.lastItem == Some(lo + got - 1)
  {
    p.(emptied := Some(got < p.limit), lastItem := if got == 0 then None else Some(lo + got - 1))
  }

  /** The first-page fetch: on success the page replaces the items; on
      failure the items are cleared and the pagination is left alone. */
  function FirstPage<T>(f: Feed<T>, results: seq<T>, fails: bool): (g: Feed<T>)
    ensures fails ==> g == Feed([], f.pagination)
    ensures !fails ==> g.items == Page(results, None, f.pagination.limit)
    ensures !fails ==> g.pagination == Advance(f.pagination, 0, |g.items|)
  {
    if fails then Feed([], f.pagination)
    else
      var page := Page(results, None, f.pagination.limit);
      Feed(page, Advance(f.pagination, 0, |page|))
  }

  /** "Load more": on success the page after the cursor is appended to the
      items; on failure nothing changes. */
  function MoreItems<T>(f: Feed<T>, results: seq<T>, fails: bool): (g: Feed<T>)
    ensures fails ==> g == f
    ensures !fails ==> g.items == f.items + Page(results, f.pagination.lastItem, f.pagination.limit)
    ensures !fails ==> g.pagination == Advance(f.pagination, Start(f.pagination.lastItem), |g.items| - |f.items|)
  {
    if fails then f
    else
      var page := Page(results, f.pagination.lastItem, f.pagination.limit);
      Feed(f.items + page, Advance(f.pagination, Start(f.pagination.lastItem), |page|))
  }

  /** What the hooks keep true between fetches: the items are the first
      documents of the query, "emptied" means all of them, and otherwise
      the cursor sits on the last item. */
  ghost predicate Consistent<T>(f: Feed<T>, results: seq<T>) {
    && f.pagination.limit > 0
    && |f.items| <= |results|
    && f.items == results[..|f.items|]
    && (f.pagination.emptied == Some(true) ==> f.items == results)
    && (f.pagination.emptied == Some(false) ==> |f.items| > 0 && f.pagination.lastItem == Some(|f.items| - 1))
  }

  lemma FirstPageConsistent<T>(f: Feed<T>, results: seq<T>)
    requires f.pagination.limit > 0
    ensures Consistent(FirstPage(f, results, false), results)
  {
    var g := FirstPage(f, results, false);
    assert g.items == results[..|g.items|];
  }

  /** Loading more from a state that is not emptied keeps the state
      consistent and either fills a whole page or reaches the end. */
  lemma MoreItemsConsistent<T>(f: Feed<T>, results: seq<T>)
    requires Consistent(f, results) && f.pagination.emptied == Some(false)
    ensures Consistent(MoreItems(f, results, false), results)
    ensures var g := MoreItems(f, results, false);
      g.pagination.emptied == Some(false) ==> |g.items| == |f.items| + f.pagination.limit
    ensures |f.items| < |results| ==> |MoreItems(f, results, false).items| > |f.items|
  {
    var g := MoreItems(f, results, false);
    var page := Page(results, f.pagination.lastItem, f.pagination.limit);
    assert Start(f.pagination.lastItem) == |f.items|;
    assert g.items == results[..|g.items|] by {
      forall k | 0 <= k < |g.items| ensures g.items[k] == results[k] {
        if k >= |f.items| {
          assert g.items[k] == page[k - |f.items|];
        }
      }
    }
  }

  /** Loading more until "emptied" is set. */
  ghost function Drain<T>(f: Feed<T>, results: seq<T>): (g: Feed<T>)
    requires Consistent(f, results) && f.pagination.emptied.Some?
    ensures g.items == results
    ensures g.pagination.emptied == Some(true)
    decreases |results| - |f.items|, if f.pagination.emptied == Some(true) then 0 else 1
  {
    if f.pagination.emptied.value then f
    else
      MoreItemsConsistent(f, results);
      var g := MoreItems(f, results, false);
      assert |g.items| > |f.items| || g.pagination.emptied == Some(true) by {
        if |f.items| == |results| {
          assert Page(results, f.pagination.lastItem, f.pagination.limit) == [];
        }
      }
      Drain(g, results)
  }

  /** Pagination completeness: the first page followed by "load more" until
      emptied yields exactly the query's documents, once each, in order. */
  lemma Completeness<T>(f: Feed<T>, results: seq<T>)
    requires f.pagination.limit > 0
    ensures FirstPage(f, results, false).pagination.emptied.Some?
    ensures Consistent(FirstPage(f, results, false), results)
    ensures Drain(FirstPage(f, results, false), results).items == results
  {
    FirstPageConsistent(f, results);
  }

  /** A full page does not set "emptied", so one more fetch is needed to
      find the end; a short page sets it. */
  lemma ExhaustionFlag<T>(f: Feed<T>, results: seq<T>)
    ensures var g := FirstPage(f, results, false);
      g.pagination.emptied == Some(|g.items| < f.pagination.limit)
  {
  }

  /** Five courses in order of rating, two per page: [5, 4], then [3, 2],
      then [1] with "emptied" set. */
  lemma ThreePagesOfTwo()
    ensures var f0 := Feed([], Pagination(None, None, 2));
      var f1 := FirstPage(f0, [5, 4, 3, 2, 1], false);
      var f2 := MoreItems(f1, [5, 4, 3, 2, 1], false);
      var f3 := MoreItems(f2, [5, 4, 3, 2, 1], false);
      && f1.items == [5, 4] && f1.pagination.emptied == Some(false)
      && f2.items == [5, 4, 3, 2] && f2.pagination.emptied == Some(false)
      && f3.items == [5, 4, 3, 2, 1] && f3.pagination.emptied == Some(true)
  {
    var r := [5, 4, 3, 2, 1];
    var f1 := FirstPage(Feed([], Pagination(None, None, 2)), r, false);
    assert Page(r, None, 2) == [5, 4];
    assert f1.pagination.lastItem == Some(1);
    var f2 := MoreItems(f1, r, false);
    assert Page(r, Some(1), 2) == [3, 2];
    assert f2.pagination.lastItem == Some(3);
    assert Page(r, Some(3), 2) == [1];
  }
}

=== FILE: reviews.dfy ===
/** Reviews and rating aggregation, after src/data/reviews.ts: the review
    record, the batch written by `useAddRatingAndReview`, and the paginated
    review list of `useReviews`. */
module Reviews {
  import opened Wrappers
  import opened Seqs
  import opened Paging
  import opened Courses

  datatype ReviewUser = ReviewUser(
    uid: string, name: string, isVerified: Option<bool>, photoUrl: Option<string>)

  datatype Review = Review(
    id: string, courseId: string, user: ReviewUser, rating: nat,
    title: string, description: string, createdAt: int, updatedAt: int)

  /** What the rating form hands to `useAddRatingAndReview`. */
  datatype RatingsPayload = RatingsPayload(
    rating: nat, title: string, description: string, user: ReviewUser)

  // ---------------------------------------------------------------------
  // Review id, ratings list and average

  /** The review document id `{uid}_{courseId}`. */
  function ReviewId(uid: string, courseId: string): (id: string)
    ensures |id| == |uid| + 1 + |courseId|
    ensures id[..|uid|] == uid && id[|uid|] == '_' && id[|uid| + 1..] == courseId
  {
    uid + "_" + courseId
  }

  /** The id is deterministic: for a fixed course, two reviewers share a
      review document exactly when they have the same uid. */
  lemma ReviewIdInjective(u1: string, u2: string, courseId: string)
    ensures ReviewId(u1, courseId) == ReviewId(u2, courseId) <==> u1 == u2
  {
  }

  /** The new ratings list: the old one with the entry appended, or just
      the entry when the course has no ratings (missing or empty). */
  function AppendRating(ratings: Option<seq<RatingEntry>>, entry: RatingEntry): (r: seq<RatingEntry>)
    ensures |r| >= 1 && r[|r| - 1] == entry
    ensures ratings.Some? ==> r == ratings.value + [entry]
    ensures ratings.None? || ratings.value == [] ==> r == [entry]
  {
    if ratings.Some? && |ratings.value| > 0 then ratings.value + [entry] else [entry]
  }

  /** Sum of the rating values. */
  function Sum(ratings: seq<RatingEntry>): (s: nat)
    ensures ratings == [] ==> s == 0
  {
    if ratings == [] then 0 else Sum(ratings[..|ratings| - 1]) + ratings[|ratings| - 1].value
  }

  lemma {:induction false} SumAppend(ratings: seq<RatingEntry>, e: RatingEntry)
    ensures Sum(ratings + [e]) == Sum(ratings) + e.value
  {
    assert (ratings + [e])[..|ratings + [e]| - 1] == ratings;
  }

  /** `averageRatings` in tenths: the mean rounded to one decimal, halves
      upward; an empty list averages 0. */
  function AverageTenths(ratings: seq<RatingEntry>): (r: int)
    ensures ratings == [] ==> r == 0
    ensures |ratings| > 0 ==>
      20 * Sum(ratings) - |ratings| < 2 * |ratings| * r <= 20 * Sum(ratings) + |ratings|
  {
    var n := |ratings|;
    if n == 0 then 0
    else
      var a := 20 * Sum(ratings) + n;
      var q := a / (2 * n);
      assert a == 2 * n * q + a % (2 * n);
      q
  }

  predicate ValidValues(ratings: seq<RatingEntry>) {
    forall i :: 0 <= i < |ratings| ==> 1 <= ratings[i].value <= 5
  }

  lemma {:induction false} SumBounds(ratings: seq<RatingEntry>)
    requires ValidValues(ratings)
    ensures |ratings| <= Sum(ratings) <= 5 * |ratings|
  {
    if ratings != [] {
      var init := ratings[..|ratings| - 1];
      assert ValidValues(init) by {
        forall i | 0 <= i < |init| ensures 1 <= init[i].value <= 5 {
          assert init[i] == ratings[i];
        }
      }
      SumBounds(init);
    }
  }

  lemma MulLe(a: int, b: int, n: nat)
    requires a <= b
    ensures n * a <= n * b
  {
  }

  /** With every value between 1 and 5 the average lies between 1.0 and
      5.0. */
  lemma AverageBounds(ratings: seq<RatingEntry>)
    requires |ratings| > 0 && ValidValues(ratings)
    ensures 10 <= AverageTenths(ratings) <= 50
  {
    var n := |ratings|;
    var r := AverageTenths(ratings);
    SumBounds(ratings);
    if r < 10 {
      MulLe(r, 9, 2 * n);
      assert false;
    }
    if r > 50 {
      MulLe(51, r, 2 * n);
      assert false;
    }
  }

  /** The course of the scenario: [5, 4, 3] averages 4.0; rating it 2
      gives [5, 4, 3, 2], which averages 3.5. */
  lemma AverageScenario()
    ensures AverageTenths([RatingEntry("a", 5), RatingEntry("b", 4), RatingEntry("c", 3)]) == 40
    ensures AverageTenths(AppendRating(Some([RatingEntry("a", 5), RatingEntry("b", 4), RatingEntry("c", 3)]), RatingEntry("d", 2))) == 35
  {
    var three := [RatingEntry("a", 5), RatingEntry("b", 4), RatingEntry("c", 3)];
    assert three[..2] == [RatingEntry("a", 5), RatingEntry("b", 4)];
    assert three[..2][..1] == [RatingEntry("a", 5)];
    assert Sum(three) == 12;
    var four := AppendRating(Some(three), RatingEntry("d", 2));
    SumAppend(three, RatingEntry("d", 2));
    assert Sum(four) == 14;
  }

  // ---------------------------------------------------------------------
  // The submission batch

  /** The two collections the batch touches. */
  datatype Db = Db(courses: map<string, Course>, reviews: map<string, Review>)

  datatype SubmitError = CommitFailed | CourseMissing

  /** The course after the rating: `ratings`, `averageRatings` and the
      update time change, nothing else. */
  function RatedCourse(c: Course, entry: RatingEntry, now: int): (r: Course)
    ensures r.ratings == Some(AppendRating(c.ratings, entry))
    ensures r.averageRatings == AverageTenths(AppendRating(c.ratings, entry))
    ensures r == c.(ratings := r.ratings, averageRatings := r.averageRatings, updatedAt := now)
  {
    var ratings := AppendRating(c.ratings, entry);
    c.(ratings := Some(ratings), averageRatings := AverageTenths(ratings), updatedAt := now)
  }

  /** `addRateAndReview`: one batch that sets the review document and
      updates the course. The batch fails as a whole when the commit fails
      or when there is no course document to update; then nothing is
      written. */
  function SubmitReview(db: Db, courseId: string, payload: RatingsPayload, now: int, commitFails: bool): (r: Result<Db, SubmitError>)
    ensures r.Err? <==> commitFails || courseId !in db.courses
    ensures r.Ok? ==>
      var id := ReviewId(payload.user.uid, courseId);
      && r.value.reviews.Keys == db.reviews.Keys + {id}
      && r.value.reviews[id] == Review(id, courseId, payload.user, payload.rating, payload.title, payload.description, now, now)
      && (forall k :: k in db.reviews && k != id ==> r.value.reviews[k] == db.reviews[k])
      && r.value.courses == db.courses[courseId := RatedCourse(db.courses[courseId], RatingEntry(payload.user.uid, payload.rating), now)]
  {
    if commitFails then Err(CommitFailed)
    else if courseId !in db.courses then Err(CourseMissing)
    else
      var id := ReviewId(payload.user.uid, courseId);
      var review := Review(id, courseId, payload.user, payload.rating, payload.title, payload.description, now, now);
      var course := RatedCourse(db.courses[courseId], RatingEntry(payload.user.uid, payload.rating), now);
      Ok(Db(db.courses[courseId := course], db.reviews[id := review]))
  }

  /** A successful submission grows the course's ratings list by exactly
      one entry, keeping the earlier entries in order. */
  lemma SubmitGrowsRatings(db: Db, courseId: string, payload: RatingsPayload, now: int)
    requires courseId in db.courses
    ensures var r := SubmitReview(db, courseId, payload, now, false);
      var old_ := db.courses[courseId].ratings;
      var new_ := r.value.courses[courseId].ratings.value;
      && |new_| == (if old_.Some? then |old_.value| else 0) + 1
      && (old_.Some? ==> new_[..|old_.value|] == old_.value)
  {
    var old_ := db.courses[courseId].ratings;
    if old_.Some? {
      var new_ := AppendRating(old_, RatingEntry(payload.user.uid, payload.rating));
      assert new_[..|old_.value|] == old_.value;
    }
  }

  /** A second submission by the same reviewer overwrites the same review
      document, but the ratings list gets a second entry for that uid:
      there is no de-duplication. */
  lemma ResubmissionDuplicatesRating(db: Db, courseId: string, p1: RatingsPayload, p2: RatingsPayload, t1: int, t2: int)
    requires courseId in db.courses && p1.user.uid == p2.user.uid
    ensures var d1 := SubmitReview(db, courseId, p1, t1, false).value;
      var d2 := SubmitReview(d1, courseId, p2, t2, false).value;
      var uid := p1.user.uid;
      && d2.reviews.Keys == d1.reviews.Keys
      && d2.reviews[ReviewId(uid, courseId)].rating == p2.rating
      && Count(d2.courses[courseId].ratings.value, RatingEntry(uid, p2.rating)) >= 1
      && |d2.courses[courseId].ratings.value| == |d1.courses[courseId].ratings.value| + 1
      && d2.courses[courseId].ratings.value[|d2.courses[courseId].ratings.value| - 2] == RatingEntry(uid, p1.rating)
  {
    var d1 := SubmitReview(db, courseId, p1, t1, false).value;
    var d2 := SubmitReview(d1, courseId, p2, t2, false).value;
    var l2 := d2.courses[courseId].ratings.value;
    assert RatingEntry(p1.user.uid, p2.rating) in l2;
  }

  // ---------------------------------------------------------------------
  // useReviews

  /** The store's Reviews collection is kept newest first. */
  ghost predicate NewestFirst(store: seq<Review>) {
    Chain(store, (a: Review, b: Review) => a.createdAt >= b.createdAt)
  }

  predicate OfCourse(r: Review, courseId: string) {
    r.courseId == courseId
  }

  /** `where("courseId", "==", courseId)` over the store, in store order. */
  function ReviewQuery(store: seq<Review>, courseId: string): (r: seq<Review>)
    ensures forall x :: x in r <==> x in store && OfCourse(x, courseId)
    ensures IsSubseq(r, store)
  {
    var r := Filter(store, x => OfCourse(x, courseId));
    forall x ensures x in r <==> x in store && OfCourse(x, courseId) {
      FilterMembership(store, x => OfCourse(x, courseId), x);
    }
    FilterIsSubseq(store, x => OfCourse(x, courseId));
    r
  }

  /** Every page of reviews holds only reviews of the course, newest first,
      at most `limit` of them. */
  lemma ReviewPage(store: seq<Review>, courseId: string, cursor: Option<nat>, limit: nat)
    requires NewestFirst(store)
    ensures var page := Page(ReviewQuery(store, courseId), cursor, limit);
      && |page| <= limit
      && NewestFirst(page)
      && forall x :: x in page ==> OfCourse(x, courseId)
  {
    var before := (a: Review, b: Review) => a.createdAt >= b.createdAt;
    var results := ReviewQuery(store, courseId);
    FilterKeepsChain(store, x => OfCourse(x, courseId), before);
    PageKeepsChain(results, cursor, limit, before);
  }

  /** Loading the course's reviews page by page until "emptied" delivers
      every stored review of the course, and only those, in store order. */
  lemma AllReviewsLoaded(f: Feed<Review>, store: seq<Review>, courseId: string)
    requires f.pagination.limit > 0
    ensures var items := Drain(FirstPage(f, ReviewQuery(store, courseId), false), ReviewQuery(store, courseId)).items;
      && IsSubseq(items, store)
      && forall x :: x in items <==> x in store && OfCourse(x, courseId)
  {
    Completeness(f, ReviewQuery(store, courseId));
  }

  /** The state of one `useReviews(courseId)` hook. */
  class ReviewFeed {
    const courseId: string
    var reviews: seq<Review>
    var pagination: Pagination
    var isCalled: bool

    ghost function State(): Feed<Review>
      reads this
    {
      Feed(reviews, pagination)
    }

    constructor (courseId: string)
      ensures this.courseId == courseId
      ensures reviews == [] && pagination == InitialPagination && !isCalled
    {
      this.courseId := courseId;
      reviews := [];
      pagination := InitialPagination;
      isCalled := false;
    }

    /** `getReviews`: the first page replaces the list; on failure the list
        is reset to empty and the error is rethrown. */
    method GetReviews(store: seq<Review>, fails: bool) returns (thrown: bool)
      modifies this
      ensures State() == FirstPage(old(State()), ReviewQuery(store, courseId), fails)
      ensures isCalled == old(isCalled)
      ensures thrown == fails
    {
      if fails {
        reviews := [];
        return true;
      }
      var page := Page(ReviewQuery(store, courseId), None, pagination.limit);
      pagination := Advance(pagination, 0, |page|);
      reviews := page;
      thrown := false;
    }

    /** `getMoreReviews`: the reviews after `lastItem` are appended; on
        failure nothing changes. */
    method GetMoreReviews(store: seq<Review>, fails: bool) returns (thrown: bool)
      modifies this
      ensures State() == MoreItems(old(State()), ReviewQuery(store, courseId), fails)
      ensures isCalled == old(isCalled)
      ensures thrown == fails
    {
      if fails {
        return true;
      }
      var lo := Start(pagination.lastItem);
      var page := Page(ReviewQuery(store, courseId), pagination.lastItem, pagination.limit);
      pagination := Advance(pagination, lo, |page|);
      reviews := reviews + page;
      thrown := false;
    }

    /** `reload`: marks the hook as not called, so the effect fetches the
        first page again. */
    method Reload()
      modifies this
      ensures !isCalled && State() == old(State())
    {
      isCalled := false;
    }

    /** The effect: when not yet called, mark called and fetch the first
        page. */
    method RunEffect(store: seq<Review>, fails: bool) returns (thrown: bool)
      modifies this
      ensures isCalled
      ensures old(isCalled) ==> State() == old(State()) && !thrown
      ensures !old(isCalled) ==> State() == FirstPage(old(State()), ReviewQuery(store, courseId), fails) && thrown == fails
    {
      thrown := false;
      if !isCalled {
        isCalled := true;
        thrown := GetReviews(store, fails);
      }
    }
  }
}

=== FILE: select.dfy ===
/** The search-select component of src/components/Select.tsx: the option
    filter of `useFilteredOptions` and its state, the single-select
    `isSelected` test and radio change, and the multi-select toggle. */
module Select {
  import opened Wrappers
  import opened Seqs
  import Text

  /** An option id is a string or a number; `===` never equates the two. */
  datatype OptionId = Str(s: string) | Num(n: int)

  /** `TSelectableBaseOption`; a heading is a group title, not a choice. */
  datatype SelectOption = SelectOption(id: OptionId, labelText: string, heading: bool)

  /** `option.label.toLowerCase().indexOf(q.toLowerCase()) !== -1`. */
  predicate LabelMatches(text: string, q: string) {
    Text.Includes(Text.ToLower(text), Text.ToLower(q))
  }

  predicate IsChoice(o: SelectOption) {
    !o.heading
  }

  predicate MatchingChoice(o: SelectOption, q: string) {
    !o.heading && LabelMatches(o.labelText, q)
  }

  // ---------------------------------------------------------------------
  // The option filter

  function HeaderPrefix(pending: Option<SelectOption>): seq<SelectOption> {
    if pending.Some? then [pending.value] else []
  }

  /** What the filter loop emits for `opts` when `pending` is the heading
      still waiting to be included: a heading becomes the pending one; a
      matching option is emitted after the pending heading, which is then
      dropped; a non-matching option is skipped. */
  function Filtered(opts: seq<SelectOption>, q: string, pending: Option<SelectOption>): (r: seq<SelectOption>)
    ensures |r| <= |opts| + (if pending.Some? then 1 else 0)
  {
    if opts == [] then []
    else
      var o := opts[0];
      if o.heading then Filtered(opts[1..], q, Some(o))
      else if LabelMatches(o.labelText, q) then HeaderPrefix(pending) + [o] + Filtered(opts[1..], q, None)
      else Filtered(opts[1..], q, pending)
  }

  /** The loop of `handleQueryChange` over `allOptions`. */
  method FilterOptions(allOptions: seq<SelectOption>, q: string) returns (filtered: seq<SelectOption>)
    ensures filtered == FilterSpec(allOptions, q)
    ensures filtered == Filtered(allOptions, q, None)
  {
    filtered := [];
    var lastHeader: Option<SelectOption> := None;
    var i := 0;
    while i < |allOptions|
      invariant 0 <= i <= |allOptions|
      invariant filtered == EmitRange(allOptions, q, 0, i)
      invariant lastHeader == Announcer(allOptions, q, i)
    {
      var option := allOptions[i];
      ghost var before := filtered;
      FilterStep(allOptions, q, i);
      if option.heading {
        lastHeader := Some(option);
      } else if LabelMatches(option.labelText, q) {
        if lastHeader.Some? {
          filtered := filtered + [lastHeader.value];
        }
        filtered := filtered + [option];
        assert filtered == before + HeaderPrefix(lastHeader) + [option];
        lastHeader := None;
      }
      i := i + 1;
    }
    FilteredIsSpec(allOptions, q);
  }

  /** The output keeps the input's order: it is a subsequence of the
      pending heading followed by the input. */
  lemma {:induction false} FilteredIsSubseq(opts: seq<SelectOption>, q: string, pending: Option<SelectOption>)
    ensures IsSubseq(Filtered(opts, q, pending), HeaderPrefix(pending) + opts)
  {
    if opts == [] {
      if pending.Some? {
        assert Filtered(opts, q, pending) == [];
      }
    } else {
      var o := opts[0];
      var rest := opts[1..];
      assert opts == [o] + rest;
      if o.heading {
        FilteredIsSubseq(rest, q, Some(o));
        assert Filtered(opts, q, pending) == Filtered(rest, q, Some(o));
        assert HeaderPrefix(Some(o)) + rest == opts;
        if pending.Some? {
          var b := HeaderPrefix(pending) + opts;
          assert b[1..] == opts;
          SubseqKeepTail(Filtered(rest, q, Some(o)), b);
        } else {
          assert HeaderPrefix(pending) + opts == opts;
        }
      } else if LabelMatches(o.labelText, q) {
        FilteredIsSubseq(rest, q, None);
        assert HeaderPrefix(None) + rest == rest;
        SubseqCons(o, Filtered(rest, q, None), rest);
        if pending.Some? {
          SubseqCons(pending.value, [o] + Filtered(rest, q, None), opts);
          assert HeaderPrefix(pending) + [o] + Filtered(rest, q, None) == [pending.value] + ([o] + Filtered(rest, q, None));
        } else {
          assert HeaderPrefix(pending) + [o] + Filtered(rest, q, None) == [o] + Filtered(rest, q, None);
          assert HeaderPrefix(pending) + opts == opts;
        }
      } else {
        FilteredIsSubseq(rest, q, pending);
        if pending.Some? {
          SubseqInsertSecond(Filtered(rest, q, pending), pending.value, o, rest);
          assert [pending.value, o] + rest == HeaderPrefix(pending) + opts;
        } else {
          assert HeaderPrefix(None) + rest == rest;
          SubseqKeepTail(Filtered(rest, q, pending), opts);
          assert HeaderPrefix(pending) + opts == opts;
        }
      }
    }
  }

  /** Leaving the headings aside, the output is exactly the options whose
      label contains the query, in input order. */
  lemma {:induction false} FilteredChoices(opts: seq<SelectOption>, q: string, pending: Option<SelectOption>)
    requires pending.None? || pending.value.heading
    ensures Filter(Filtered(opts, q, pending), IsChoice) == Filter(opts, o => MatchingChoice(o, q))
  {
    if opts != [] {
      var o := opts[0];
      var rest := opts[1..];
      if o.heading {
        FilteredChoices(rest, q, Some(o));
      } else if LabelMatches(o.labelText, q) {
        FilteredChoices(rest, q, None);
        var tail := Filtered(rest, q, None);
        FilterAppend(HeaderPrefix(pending) + [o], tail, IsChoice);
        FilterAppend(HeaderPrefix(pending), [o], IsChoice);
      } else {
        FilteredChoices(rest, q, pending);
      }
    }
  }

  /** Membership form: an option that is not a heading is in the output iff
      it is in the input and its label contains the query. */
  lemma ChoiceInOutputIff(allOptions: seq<SelectOption>, q: string, x: SelectOption)
    requires !x.heading
    ensures x in Filtered(allOptions, q, None) <==> x in allOptions && LabelMatches(x.labelText, q)
  {
    FilteredChoices(allOptions, q, None);
    FilterMembership(Filtered(allOptions, q, None), IsChoice, x);
    FilterMembership(allOptions, o => MatchingChoice(o, q), x);
  }

  /** An empty query keeps every option that is not a heading. */
  lemma EmptyQueryKeepsChoices(allOptions: seq<SelectOption>)
    ensures Filter(Filtered(allOptions, "", None), IsChoice) == Filter(allOptions, IsChoice)
  {
    FilteredChoices(allOptions, "", None);
    forall o | o in allOptions ensures MatchingChoice(o, "") == IsChoice(o) {
      Text.IncludesEmpty(Text.ToLower(o.labelText));
    }
    FilterSamePredicate(allOptions, o => MatchingChoice(o, ""), IsChoice);
  }

  lemma {:induction false} FilterSamePredicate(s: seq<SelectOption>, p: SelectOption -> bool, p2: SelectOption -> bool)
    requires forall x :: x in s ==> p(x) == p2(x)
    ensures Filter(s, p) == Filter(s, p2)
  {
    if s != [] {
      FilterSamePredicate(s[1..], p, p2);
    }
  }

  /** Every heading in `r` is immediately followed by an option that is
      not a heading and whose label matches. */
  predicate HeadingsAnnounceMatches(r: seq<SelectOption>, q: string) {
    forall i :: 0 <= i < |r| && r[i].heading ==> i + 1 < |r| && MatchingChoice(r[i + 1], q)
  }

  /** A heading is emitted only right before a matching option. */
  lemma {:induction false} HeadingPrecedesMatch(opts: seq<SelectOption>, q: string, pending: Option<SelectOption>)
    ensures HeadingsAnnounceMatches(Filtered(opts, q, pending), q)
  {
    if opts != [] {
      var o := opts[0];
      var rest := opts[1..];
      if o.heading {
        HeadingPrecedesMatch(rest, q, Some(o));
        assert Filtered(opts, q, pending) == Filtered(rest, q, Some(o));
      } else if LabelMatches(o.labelText, q) {
        HeadingPrecedesMatch(rest, q, None);
        var tail := Filtered(rest, q, None);
        var r := HeaderPrefix(pending) + [o] + tail;
        assert r == Filtered(opts, q, pending);
        var h := |HeaderPrefix(pending)|;
        assert |r| == h + 1 + |tail| && r[h] == o;
        forall i | 0 <= i < |r| && r[i].heading ensures i + 1 < |r| && MatchingChoice(r[i + 1], q) {
          if i < h {
            assert r[i + 1] == o;
            assert MatchingChoice(o, q);
          } else {
            assert i > h;
            assert r[i] == tail[i - h - 1];
            assert tail[i - h - 1].heading;
            assert i - h < |tail|;
            assert r[i + 1] == tail[i - h];
          }
        }
      } else {
        HeadingPrecedesMatch(rest, q, pending);
        assert Filtered(opts, q, pending) == Filtered(rest, q, pending);
      }
    }
  }

  /** With distinct input options, each heading (and each option) is
      emitted at most once. */
  lemma EmittedOnce(allOptions: seq<SelectOption>, q: string)
    requires Distinct(allOptions)
    ensures Distinct(Filtered(allOptions, q, None))
  {
    FilteredIsSubseq(allOptions, q, None);
    assert HeaderPrefix(None) + allOptions == allOptions;
    SubseqDistinct(Filtered(allOptions, q, None), allOptions);
  }

  // ---------------------------------------------------------------------
  // The heading rule, position by position

  /** The position of the last heading before position `b`, or -1. */
  function LastHeading(opts: seq<SelectOption>, b: nat): (a: int)
    requires b <= |opts|
    ensures -1 <= a < b
    ensures a >= 0 ==> opts[a].heading
    ensures forall j :: a < j < b ==> !opts[j].heading
  {
    if b == 0 then -1
    else if opts[b - 1].heading then b - 1
    else LastHeading(opts, b - 1)
  }

  /** No option strictly between positions `a` and `b` is a matching
      choice. */
  predicate NoMatchBetween(opts: seq<SelectOption>, q: string, a: int, b: nat)
    requires -1 <= a && b <= |opts|
  {
    forall j :: a < j < b ==> !MatchingChoice(opts[j], q)
  }

  /** The heading at `a` announces the matching choice at `b`: no other
      heading and no other matching choice lies between them. */
  predicate Announces(opts: seq<SelectOption>, q: string, a: nat, b: nat) {
    && a < b < |opts|
    && opts[a].heading && MatchingChoice(opts[b], q)
    && forall j :: a < j < b ==> !opts[j].heading && !MatchingChoice(opts[j], q)
  }

  /** The heading still to be shown when the scan reaches position `b`:
      the last heading before `b`, unless a matching choice has already
      followed it. */
  function Announcer(opts: seq<SelectOption>, q: string, b: nat): (h: Option<SelectOption>)
    requires b <= |opts|
    ensures h.Some? ==> h.value.heading
  {
    var a := LastHeading(opts, b);
    if a >= 0 && NoMatchBetween(opts, q, a, b) then Some(opts[a]) else None
  }

  /** What position `b` contributes to the output: nothing unless it is a
      matching choice, and then its announcing heading, if any, and itself. */
  function Emit(opts: seq<SelectOption>, q: string, b: nat): seq<SelectOption>
    requires b < |opts|
  {
    if MatchingChoice(opts[b], q) then HeaderPrefix(Announcer(opts, q, b)) + [opts[b]] else []
  }

  /** The contributions of positions `m` up to `n`, in order. */
  function EmitRange(opts: seq<SelectOption>, q: string, m: nat, n: nat): seq<SelectOption>
    requires m <= n <= |opts|
    decreases n - m
  {
    if m == n then [] else EmitRange(opts, q, m, n - 1) + Emit(opts, q, n - 1)
  }

  /** The filter's output, defined position by position. */
  function FilterSpec(opts: seq<SelectOption>, q: string): seq<SelectOption> {
    EmitRange(opts, q, 0, |opts|)
  }

  /** How the pending heading moves when the scan passes position `i`. */
  lemma AnnouncerStep(opts: seq<SelectOption>, q: string, i: nat)
    requires i < |opts|
    ensures Announcer(opts, q, i + 1) ==
      if opts[i].heading then Some(opts[i])
      else if MatchingChoice(opts[i], q) then None
      else Announcer(opts, q, i)
  {
    var a := LastHeading(opts, i);
    if !opts[i].heading {
      assert LastHeading(opts, i + 1) == a;
      if MatchingChoice(opts[i], q) {
        assert !NoMatchBetween(opts, q, a, i + 1);
      } else if a >= 0 {
        assert NoMatchBetween(opts, q, a, i + 1) == NoMatchBetween(opts, q, a, i);
      }
    }
  }

  /** The recursive filter, split at position `i`: what the positions
      before `i` emit, then the filter of the rest with the pending
      heading at `i`. */
  lemma {:induction false} FilteredFrom(opts: seq<SelectOption>, q: string, i: nat)
    requires i <= |opts|
    ensures Filtered(opts, q, None) == EmitRange(opts, q, 0, i) + Filtered(opts[i..], q, Announcer(opts, q, i))
  {
    if i == 0 {
      FilteredFromStart(opts, q);
    } else {
      var k := i - 1;
      FilteredFrom(opts, q, k);
      FilteredStep(opts, q, k);
      EmitRangeLast(opts, q, i);
      Regroup(EmitRange(opts, q, 0, k), Emit(opts, q, k), Filtered(opts[i..], q, Announcer(opts, q, i)));
    }
  }

  /** One position of the filter loop: what it appends and which heading
      is pending afterwards. */
  lemma FilterStep(opts: seq<SelectOption>, q: string, i: nat)
    requires i < |opts|
    ensures EmitRange(opts, q, 0, i + 1) ==
      if !opts[i].heading && LabelMatches(opts[i].labelText, q)
      then EmitRange(opts, q, 0, i) + HeaderPrefix(Announcer(opts, q, i)) + [opts[i]]
      else EmitRange(opts, q, 0, i)
    ensures Announcer(opts, q, i + 1) ==
      if opts[i].heading then Some(opts[i])
      else if LabelMatches(opts[i].labelText, q) then None
      else Announcer(opts, q, i)
  {
    AnnouncerStep(opts, q, i);
    EmitRangeLast(opts, q, i + 1);
  }

  lemma EmitRangeLast(opts: seq<SelectOption>, q: string, i: nat)
    requires 0 < i <= |opts|
    ensures EmitRange(opts, q, 0, i) == EmitRange(opts, q, 0, i - 1) + Emit(opts, q, i - 1)
  {
  }

  lemma Regroup(a: seq<SelectOption>, b: seq<SelectOption>, c: seq<SelectOption>)
    ensures a + (b + c) == (a + b) + c
  {
  }

  lemma FilteredFromStart(opts: seq<SelectOption>, q: string)
    ensures Filtered(opts, q, None) == EmitRange(opts, q, 0, 0) + Filtered(opts[0..], q, Announcer(opts, q, 0))
  {
    assert opts[0..] == opts;
  }

  /** One step of the scan: the filter from position `i` with the pending
      heading there is what `i` emits, then the filter from `i + 1`. */
  lemma FilteredStep(opts: seq<SelectOption>, q: string, i: nat)
    requires i < |opts|
    ensures Filtered(opts[i..], q, Announcer(opts, q, i))
         == Emit(opts, q, i) + Filtered(opts[i + 1..], q, Announcer(opts, q, i + 1))
  {
    AnnouncerStep(opts, q, i);
    var rest := opts[i..];
    assert rest[0] == opts[i] && rest[1..] == opts[i + 1..];
  }

  /** The scan equals the position-by-position definition. */
  lemma FilteredIsSpec(opts: seq<SelectOption>, q: string)
    ensures Filtered(opts, q, None) == FilterSpec(opts, q)
  {
    FilteredFrom(opts, q, |opts|);
    assert opts[|opts|..] == [];
  }

  lemma {:induction false} EmitRangeSplit(opts: seq<SelectOption>, q: string, m: nat, p: nat, n: nat)
    requires m <= p <= n <= |opts|
    ensures EmitRange(opts, q, m, n) == EmitRange(opts, q, m, p) + EmitRange(opts, q, p, n)
    decreases n - p
  {
    if p < n {
      EmitRangeSplit(opts, q, m, p, n - 1);
    }
  }

  /** Every heading in the output stands directly before a matching choice
      that it announces in the input. */
  lemma {:induction false} OutputHeadingAnnounces(opts: seq<SelectOption>, q: string, n: nat, k: nat)
    requires n <= |opts| && k < |EmitRange(opts, q, 0, n)| && EmitRange(opts, q, 0, n)[k].heading
    ensures var r := EmitRange(opts, q, 0, n);
      && k + 1 < |r|
      && exists a: nat, b: nat :: b < n && Announces(opts, q, a, b) && r[k] == opts[a] && r[k + 1] == opts[b]
  {
    EmitRangeLast(opts, q, n);
    var prefix := EmitRange(opts, q, 0, n - 1);
    var e := Emit(opts, q, n - 1);
    var r := EmitRange(opts, q, 0, n);
    if k < |prefix| {
      OutputHeadingAnnounces(opts, q, n - 1, k);
      var a: nat, b: nat :| b < n - 1 && Announces(opts, q, a, b) && prefix[k] == opts[a] && prefix[k + 1] == opts[b];
      assert r[k] == opts[a] && r[k + 1] == opts[b];
    } else {
      var b := n - 1;
      EmitHeading(opts, q, b, k - |prefix|);
      var a := LastHeading(opts, b);
      assert r[k] == e[0] == opts[a] && r[k + 1] == e[1] == opts[b];
    }
  }

  /** The filter's output in particular: each heading it shows is one that
      announces, in the input, the matching choice shown right after it. */
  lemma HeadingInOutputAnnounces(opts: seq<SelectOption>, q: string, k: nat)
    requires k < |Filtered(opts, q, None)| && Filtered(opts, q, None)[k].heading
    ensures var r := Filtered(opts, q, None);
      && k + 1 < |r|
      && exists a: nat, b: nat :: Announces(opts, q, a, b) && r[k] == opts[a] && r[k + 1] == opts[b]
  {
    FilteredIsSpec(opts, q);
    OutputHeadingAnnounces(opts, q, |opts|, k);
  }

  /** The only heading a position can emit is its announcer, first. */
  lemma EmitHeading(opts: seq<SelectOption>, q: string, b: nat, j: nat)
    requires b < |opts| && j < |Emit(opts, q, b)| && Emit(opts, q, b)[j].heading
    ensures var a := LastHeading(opts, b);
      && j == 0 && a >= 0 && Announces(opts, q, a, b)
      && Emit(opts, q, b) == [opts[a], opts[b]]
  {
  }

  lemma PairAt(pre: seq<SelectOption>, x: SelectOption, y: SelectOption, post: seq<SelectOption>)
    ensures var r := pre + ([x, y] + post);
      |pre| + 1 < |r| && r[|pre|] == x && r[|pre| + 1] == y
  {
  }

  /** Two options that one position emits stand side by side in the
      filter's output. */
  lemma EmitPairShown(opts: seq<SelectOption>, q: string, b: nat, x: SelectOption, y: SelectOption)
    requires b < |opts| && Emit(opts, q, b) == [x, y]
    ensures var r := Filtered(opts, q, None);
      exists k :: 0 <= k && k + 1 < |r| && r[k] == x && r[k + 1] == y
  {
    FilteredIsSpec(opts, q);
    var n := |opts|;
    EmitRangeSplit(opts, q, 0, b, n);
    EmitRangeSplit(opts, q, b, b + 1, n);
    var pre := EmitRange(opts, q, 0, b);
    var post := EmitRange(opts, q, b + 1, n);
    assert EmitRange(opts, q, b, b + 1) == [x, y];
    assert EmitRange(opts, q, b, n) == [x, y] + post;
    var r := Filtered(opts, q, None);
    assert r == pre + ([x, y] + post);
    PairAt(pre, x, y, post);
    var k := |pre|;
    assert k + 1 < |r| && r[k] == x && r[k + 1] == y;
  }

  /** The announced choice's position emits its heading and itself. */
  lemma AnnouncedEmit(opts: seq<SelectOption>, q: string, a: nat, b: nat)
    requires Announces(opts, q, a, b)
    ensures Emit(opts, q, b) == [opts[a], opts[b]]
  {
    assert LastHeading(opts, b) == a;
  }

  /** Conversely, a heading that announces a matching choice is output
      directly before it. */
  lemma AnnouncedHeadingIsShown(opts: seq<SelectOption>, q: string, a: nat, b: nat)
    requires Announces(opts, q, a, b)
    ensures var r := Filtered(opts, q, None);
      exists k :: 0 <= k && k + 1 < |r| && r[k] == opts[a] && r[k + 1] == opts[b]
  {
    AnnouncedEmit(opts, q, a, b);
    EmitPairShown(opts, q, b, opts[a], opts[b]);
  }

  /** The state of `useFilteredOptions`. */
  class FilterState {
    var q: string
    var allOptions: seq<SelectOption>
    var filteredOptions: seq<SelectOption>
    var filtering: bool

    constructor (options: Option<seq<SelectOption>>)
      ensures q == "" && !filtering
      ensures allOptions == options.GetOr([]) && filteredOptions == options.GetOr([])
    {
      q := "";
      allOptions := options.GetOr([]);
      filteredOptions := options.GetOr([]);
      filtering := false;
    }

    /** `handleQueryChange(q)` once its timer fires. `fetched` is the answer
        of `fetchOptions(q)` when the component has one; otherwise the
        static `options` are filtered. An empty option list updates
        nothing after the query: the previous `filteredOptions` stay, and
        `filtering` stays as set at the start. */
    method HandleQueryChange(newQ: string, options: Option<seq<SelectOption>>, fetched: Option<seq<SelectOption>>)
      modifies this
      ensures q == newQ
      ensures var all := if fetched.Some? then fetched.value else options.GetOr([]);
        if all == [] then
          filteredOptions == old(filteredOptions) && allOptions == old(allOptions) && filtering == fetched.Some?
        else
          filteredOptions == Filtered(all, newQ, None) && allOptions == all && !filtering
    {
      q := newQ;
      filtering := fetched.Some?;
      var all := if fetched.Some? then fetched.value else options.GetOr([]);
      if |all| == 0 {
        return;
      }
      var f := FilterOptions(all, newQ);
      filteredOptions := f;
      filtering := false;
      allOptions := all;
    }
  }

  // ---------------------------------------------------------------------
  // Selection

  /** The current value: nothing, a plain string, or an option object. */
  datatype SelectValue = NoValue | StrValue(s: string) | OptValue(option: SelectOption)

  /** `isSelected`: a string matches the option's id or its label; an
      object matches on the id; no value matches nothing. */
  predicate IsSelected(value: SelectValue, option: SelectOption): (b: bool)
    ensures value.NoValue? ==> !b
    ensures value == OptValue(option) || value == StrValue(option.labelText) ==> b
  {
    match value
    case NoValue => false
    case StrValue(s) => option.id == Str(s) || s == option.labelText
    case OptValue(v) => v.id == option.id
  }

  lemma IsSelectedCases(value: SelectValue, option: SelectOption)
    ensures value.NoValue? ==> !IsSelected(value, option)
    ensures value.OptValue? ==> (IsSelected(value, option) <==> value.option.id == option.id)
    ensures value.StrValue? && option.id.Num? ==> (IsSelected(value, option) <==> value.s == option.labelText)
    ensures IsSelected(OptValue(option), option)
  {
  }

  /** What a radio change does. */
  datatype RadioEffect = RadioEffect(selected: Option<SelectOption>, closes: bool)

  /** The radio `onChange`: a heading does nothing; otherwise a checked
      radio reports its option, and the menu closes. */
  function OnRadioChange(option: SelectOption, checked: bool): (e: RadioEffect)
    ensures option.heading ==> e == RadioEffect(None, false)
    ensures !option.heading ==> e.closes
    ensures e.selected.Some? <==> !option.heading && checked
    ensures e.selected.Some? ==> e.selected.value == option
  {
    if option.heading then RadioEffect(None, false)
    else RadioEffect(if checked then Some(option) else None, true)
  }

  // ---------------------------------------------------------------------
  // Multi-select toggle

  /** The first index in `value` of an entry selecting `option`, or -1. */
  function MatchIndex(value: seq<SelectValue>, option: SelectOption): (i: int)
    ensures i == -1 <==> forall k :: 0 <= k < |value| ==> !IsSelected(value[k], option)
    ensures i != -1 ==> 0 <= i < |value| && IsSelected(value[i], option)
    ensures i != -1 ==> forall k :: 0 <= k < i ==> !IsSelected(value[k], option)
  {
    FirstIndex(value, (v: SelectValue) => IsSelected(v, option))
  }

  /** `value.findIndex(...)`, a loop over the entries. */
  method FindIndex(value: Option<seq<SelectValue>>, option: SelectOption) returns (index: int)
    ensures value.None? ==> index == -1
    ensures value.Some? ==> index == MatchIndex(value.value, option)
  {
    if value.None? {
      return -1;
    }
    var v := value.value;
    var k := 0;
    while k < |v|
      invariant 0 <= k <= |v|
      invariant forall j :: 0 <= j < k ==> !IsSelected(v[j], option)
    {
      if IsSelected(v[k], option) {
        return k;
      }
      k := k + 1;
    }
    index := -1;
  }

  /** The new value after a checkbox change: an unselected option is
      appended; a selected one is removed at its first index. */
  function Toggled(value: Option<seq<SelectValue>>, option: SelectOption): (r: seq<SelectValue>)
    ensures value.None? ==> r == [OptValue(option)]
    ensures value.Some? && MatchIndex(value.value, option) == -1 ==> r == value.value + [OptValue(option)]
    ensures value.Some? && MatchIndex(value.value, option) != -1 ==>
      var i := MatchIndex(value.value, option);
      |r| == |value.value| - 1 && r == value.value[..i] + value.value[i + 1..]
  {
    if value.None? then [OptValue(option)]
    else
      var i := MatchIndex(value.value, option);
      if i == -1 then value.value + [OptValue(option)]
      else value.value[..i] + value.value[i + 1..]
  }

  /** Removing position `i` from a copy of `value` (`splice(i, 1)`). */
  method Splice(value: seq<SelectValue>, i: nat) returns (r: seq<SelectValue>)
    requires i < |value|
    ensures r == value[..i] + value[i + 1..]
  {
    r := [];
    var k := 0;
    while k < |value|
      invariant 0 <= k <= |value|
      invariant k <= i ==> r == value[..k]
      invariant k > i ==> r == value[..i] + value[i + 1..k]
    {
      if k != i {
        r := r + [value[k]];
      }
      k := k + 1;
    }
  }

  /** The checkbox `onChange` of `MultiSearchMenu`. */
  method Toggle(value: Option<seq<SelectValue>>, option: SelectOption) returns (newValue: seq<SelectValue>)
    ensures newValue == Toggled(value, option)
  {
    var index := FindIndex(value, option);
    if index == -1 {
      newValue := if value.Some? then value.value + [OptValue(option)] else [OptValue(option)];
    } else {
      newValue := Splice(value.value, index);
    }
  }

  /** Toggling an option that is not selected and then toggling it again
      gives back the original value. */
  lemma ToggleTwice(value: seq<SelectValue>, option: SelectOption)
    requires MatchIndex(value, option) == -1
    ensures Toggled(Some(Toggled(Some(value), option)), option) == value
  {
    var once := value + [OptValue(option)];
    assert once[|value|] == OptValue(option);
    assert forall k :: 0 <= k < |value| ==> once[k] == value[k];
    assert once[..|value|] == value;
  }
}

=== FILE: seqs.dfy ===
/** Sequence facts used by every list operation of the model: `filter`,
    order-preserving subsequences and occurrence counts. */
module Seqs {

  /** `Array.prototype.filter`. */
  function Filter<T>(s: seq<T>, p: T -> bool): (r: seq<T>)
    ensures |r| <= |s|
    ensures forall x :: x in r ==> x in s && p(x)
  {
    if s == [] then [] else (if p(s[0]) then [s[0]] else []) + Filter(s[1..], p)
  }

  lemma {:induction false} FilterMembership<T>(s: seq<T>, p: T -> bool, x: T)
    ensures x in Filter(s, p) <==> x in s && p(x)
  {
    if s != [] {
      FilterMembership(s[1..], p, x);
    }
  }

  lemma {:induction false} FilterKeepsAll<T>(s: seq<T>, p: T -> bool)
    requires forall x :: x in s ==> p(x)
    ensures Filter(s, p) == s
  {
    if s != [] {
      FilterKeepsAll(s[1..], p);
    }
  }

  lemma {:induction false} FilterAppend<T>(a: seq<T>, b: seq<T>, p: T -> bool)
    ensures Filter(a + b, p) == Filter(a, p) + Filter(b, p)
  {
    if a == [] {
      assert a + b == b;
    } else {
      assert (a + b)[1..] == a[1..] + b;
      FilterAppend(a[1..], b, p);
    }
  }

  /** `a` is obtained from `b` by deleting elements: order is preserved. */
  predicate IsSubseq<T(==)>(a: seq<T>, b: seq<T>)
    decreases |b|
  {
    if a == [] then true
    else if b == [] then false
    else (a[0] == b[0] && IsSubseq(a[1..], b[1..])) || IsSubseq(a, b[1..])
  }

  lemma {:induction false} SubseqRefl<T>(s: seq<T>)
    ensures IsSubseq(s, s)
  {
    if s != [] {
      SubseqRefl(s[1..]);
    }
  }

  lemma SubseqKeepTail<T>(a: seq<T>, b: seq<T>)
    requires b != [] && IsSubseq(a, b[1..])
    ensures IsSubseq(a, b)
  {
  }

  lemma SubseqCons<T>(x: T, a: seq<T>, b: seq<T>)
    requires IsSubseq(a, b)
    ensures IsSubseq([x] + a, [x] + b)
  {
    assert ([x] + a)[1..] == a;
    assert ([x] + b)[1..] == b;
  }

  /** Inserting an element after the head of `b` keeps `a` a subsequence. */
  lemma SubseqInsertSecond<T>(a: seq<T>, h: T, o: T, rest: seq<T>)
    requires IsSubseq(a, [h] + rest)
    ensures IsSubseq(a, [h, o] + rest)
  {
    assert ([h] + rest)[1..] == rest;
    assert ([h, o] + rest)[1..] == [o] + rest;
    assert ([o] + rest)[1..] == rest;
    if a != [] && a[0] == h && IsSubseq(a[1..], rest) {
      SubseqKeepTail(a[1..], [o] + rest);
    } else if a != [] {
      SubseqKeepTail(a, [o] + rest);
    }
  }

  lemma {:induction false} SubseqMembers<T>(a: seq<T>, b: seq<T>, x: T)
    requires IsSubseq(a, b) && x in a
    ensures x in b
    decreases |b|
  {
    if a[0] == b[0] && IsSubseq(a[1..], b[1..]) {
      if x != a[0] {
        SubseqMembers(a[1..], b[1..], x);
      }
    } else {
      SubseqMembers(a, b[1..], x);
    }
  }

  /** No element occurs twice. */
  predicate Distinct<T(==)>(s: seq<T>) {
    forall i, j :: 0 <= i < j < |s| ==> s[i] != s[j]
  }

  lemma {:induction false} SubseqDistinct<T>(a: seq<T>, b: seq<T>)
    requires IsSubseq(a, b) && Distinct(b)
    ensures Distinct(a)
    decreases |b|
  {
    if a != [] {
      assert Distinct(b[1..]) by {
        forall i, j | 0 <= i < j < |b[1..]| ensures b[1..][i] != b[1..][j] {
          assert b[1..][i] == b[i + 1] && b[1..][j] == b[j + 1];
        }
      }
      if a[0] == b[0] && IsSubseq(a[1..], b[1..]) {
        SubseqDistinct(a[1..], b[1..]);
        forall j | 1 <= j < |a| ensures a[0] != a[j] {
          assert a[j] == a[1..][j - 1];
          SubseqMembers(a[1..], b[1..], a[j]);
          var k :| 0 <= k < |b[1..]| && b[1..][k] == a[j];
          assert b[k + 1] == a[j];
        }
        forall i, j | 0 <= i < j < |a| ensures a[i] != a[j] {
          if i > 0 {
            assert a[i] == a[1..][i - 1] && a[j] == a[1..][j - 1];
          }
        }
      } else {
        SubseqDistinct(a, b[1..]);
      }
    }
  }

  lemma {:induction false} FilterIsSubseq<T>(s: seq<T>, p: T -> bool)
    ensures IsSubseq(Filter(s, p), s)
  {
    if s != [] {
      FilterIsSubseq(s[1..], p);
      if p(s[0]) {
        SubseqCons(s[0], Filter(s[1..], p), s[1..]);
        assert [s[0]] + s[1..] == s;
      } else {
        assert Filter(s, p) == Filter(s[1..], p);
        SubseqKeepTail(Filter(s[1..], p), s);
      }
    }
  }

  /** A pairwise relation that holds between every earlier and later
      element of `s`. */
  ghost predicate Chain<T>(s: seq<T>, before: (T, T) -> bool) {
    forall i, j :: 0 <= i < j < |s| ==> before(s[i], s[j])
  }

  lemma {:induction false} FilterKeepsChain<T>(s: seq<T>, p: T -> bool, before: (T, T) -> bool)
    requires Chain(s, before)
    ensures Chain(Filter(s, p), before)
  {
    if s != [] {
      FilterKeepsChain(s[1..], p, before);
      var rest := Filter(s[1..], p);
      if p(s[0]) {
        forall j | 0 <= j < |rest| ensures before(s[0], rest[j]) {
          assert rest[j] in s[1..];
          var k :| 0 <= k < |s[1..]| && s[1..][k] == rest[j];
          assert s[k + 1] == rest[j];
        }
        assert Filter(s, p) == [s[0]] + rest;
      }
    }
  }

  lemma SliceKeepsChain<T>(s: seq<T>, lo: nat, hi: nat, before: (T, T) -> bool)
    requires lo <= hi <= |s| && Chain(s, before)
    ensures Chain(s[lo..hi], before)
  {
    forall i, j | 0 <= i < j < hi - lo ensures before(s[lo..hi][i], s[lo..hi][j]) {
      assert s[lo..hi][i] == s[lo + i] && s[lo..hi][j] == s[lo + j];
    }
  }

  /** The number of occurrences of `x` in `s`. */
  function Count<T(==)>(s: seq<T>, x: T): (n: nat)
    ensures n <= |s|
    ensures n > 0 <==> x in s
  {
    if s == [] then 0 else (if s[0] == x then 1 else 0) + Count(s[1..], x)
  }

  lemma {:induction false} CountAppend<T>(a: seq<T>, b: seq<T>, x: T)
    ensures Count(a + b, x) == Count(a, x) + Count(b, x)
  {
    if a == [] {
      assert a + b == b;
    } else {
      assert (a + b)[1..] == a[1..] + b;
      CountAppend(a[1..], b, x);
    }
  }

  /** `indexOf`: the first position of `x` in `s`, or -1. */
  function IndexOf<T(==)>(s: seq<T>, x: T): (i: int)
    ensures i == -1 <==> x !in s
    ensures i != -1 ==> 0 <= i < |s| && s[i] == x && x !in s[..i]
  {
    if s == [] then -1
    else if s[0] == x then 0
    else
      var j := IndexOf(s[1..], x);
      if j == -1 then -1
      else
        assert s[..j + 1] == [s[0]] + s[1..][..j];
        j + 1
  }

  /** `findIndex`: the first position whose element satisfies `p`, or -1
      when none does. */
  function FirstIndex<T>(s: seq<T>, p: T -> bool): (i: int)
    ensures -1 <= i < |s|
    ensures i == -1 <==> forall k :: 0 <= k < |s| ==> !p(s[k])
    ensures i >= 0 ==> p(s[i]) && forall k :: 0 <= k < i ==> !p(s[k])
    decreases |s|
  {
    if s == [] then -1
    else if p(s[0]) then 0
    else
      var j := FirstIndex(s[1..], p);
      if j == -1 then -1 else j + 1
  }

  /** The counts of the elements of `keys` in `s`, added up. */
  function SumCounts<T(==)>(s: seq<T>, keys: seq<T>): nat {
    if keys == [] then 0 else Count(s, keys[0]) + SumCounts(s, keys[1..])
  }

  lemma {:induction false} SumCountsCons<T>(x: T, s: seq<T>, keys: seq<T>)
    ensures SumCounts([x] + s, keys) == Count(keys, x) + SumCounts(s, keys)
  {
    assert ([x] + s)[1..] == s;
    if keys != [] {
      SumCountsCons(x, s, keys[1..]);
    }
  }

  lemma {:induction false} CountDistinct<T>(keys: seq<T>, x: T)
    requires Distinct(keys) && x in keys
    ensures Count(keys, x) == 1
  {
    if keys[0] != x {
      assert Distinct(keys[1..]) by {
        forall i, j | 0 <= i < j < |keys[1..]| ensures keys[1..][i] != keys[1..][j] {
          assert keys[1..][i] == keys[i + 1] && keys[1..][j] == keys[j + 1];
        }
      }
      CountDistinct(keys[1..], x);
    } else {
      assert Count(keys[1..], x) == 0;
    }
  }

  /** Counting every distinct value that occurs accounts for every
      element exactly once. */
  lemma {:induction false} CountsCoverLength<T>(s: seq<T>, keys: seq<T>)
    requires Distinct(keys) && forall i :: 0 <= i < |s| ==> s[i] in keys
    ensures SumCounts(s, keys) == |s|
  {
    if s == [] {
      SumCountsEmpty(keys);
    } else {
      CountsCoverLength(s[1..], keys);
      assert s == [s[0]] + s[1..];
      SumCountsCons(s[0], s[1..], keys);
      CountDistinct(keys, s[0]);
    }
  }

  lemma {:induction false} SumCountsEmpty<T>(keys: seq<T>)
    ensures SumCounts([], keys) == 0
  {
    if keys != [] {
      SumCountsEmpty(keys[1..]);
    }
  }
}

=== FILE: text.dfy ===
/** String helpers shared by the option filters and the lookups:
    `toLowerCase` on ASCII letters, `indexOf`/`includes` of a substring,
    and `split(" ")`. */
module Text {

  /** `toLowerCase` of one character; only A-Z are folded. */
  function LowerChar(c: char): char {
    if 'A' <= c <= 'Z' then (c as int + 32) as char else c
  }

  function ToLower(s: string): (r: string)
    ensures |r| == |s|
    ensures forall i :: 0 <= i < |s| ==> r[i] == LowerChar(s[i])
  {
    if s == [] then [] else [LowerChar(s[0])] + ToLower(s[1..])
  }

  lemma {:induction false} ToLowerIdempotent(s: string)
    ensures ToLower(ToLower(s)) == ToLower(s)
  {
    if s != [] {
      ToLowerIdempotent(s[1..]);
      assert ToLower(s)[1..] == ToLower(s[1..]);
    }
  }

  predicate IsPrefix(p: string, s: string) {
    |p| <= |s| && p == s[..|p|]
  }

  /** `s.indexOf(sub)`: the first position where `sub` occurs, or -1. */
  function IndexOf(s: string, sub: string): (r: int)
    ensures r == -1 || 0 <= r <= |s| - |sub|
    ensures r >= 0 ==> IsPrefix(sub, s[r..])
    ensures r == -1 ==> forall k :: 0 <= k <= |s| ==> !IsPrefix(sub, s[k..])
    ensures r >= 0 ==> forall k :: 0 <= k < r ==> !IsPrefix(sub, s[k..])
  {
    if IsPrefix(sub, s) then 0
    else if s == [] then -1
    else
      var k := IndexOf(s[1..], sub);
      assert forall j :: 1 <= j <= |s| ==> s[j..] == s[1..][j - 1..];
      if k == -1 then -1 else k + 1
  }

  /** `s.includes(sub)`, the same as `s.indexOf(sub) !== -1`. */
  predicate Includes(s: string, sub: string) {
    IndexOf(s, sub) != -1
  }

  lemma IncludesEmpty(s: string)
    ensures Includes(s, "")
  {
  }

  /** `s.split(sep)` for a one-character separator: the pieces between
      separators; consecutive separators give empty pieces and the empty
      string gives one empty piece. */
  function Split(s: string, sep: char): (parts: seq<string>)
    ensures |parts| >= 1
    ensures forall i :: 0 <= i < |parts| ==> sep !in parts[i]
  {
    if s == [] then [""]
    else
      var rest := Split(s[1..], sep);
      if s[0] == sep then [""] + rest
      else [[s[0]] + rest[0]] + rest[1..]
  }

  /** `parts.join(sep)`. */
  function Join(parts: seq<string>, sep: char): string
    requires |parts| >= 1
  {
    if |parts| == 1 then parts[0] else parts[0] + [sep] + Join(parts[1..], sep)
  }

  /** Joining the pieces back with the separator gives the original
      string. */
  lemma {:induction false} SplitJoin(s: string, sep: char)
    ensures Join(Split(s, sep), sep) == s
  {
    if s != [] {
      SplitJoin(s[1..], sep);
      var rest := Split(s[1..], sep);
      if s[0] != sep {
        if |rest| == 1 {
        } else {
          assert ([[s[0]] + rest[0]] + rest[1..])[1..] == rest[1..];
        }
      } else {
        assert ([""] + rest)[1..] == rest;
      }
    }
  }

  /** The first piece is the prefix before the first separator. */
  lemma SplitHead(s: string, sep: char)
    ensures var head := Split(s, sep)[0];
      && |head| <= |s| && head == s[..|head|] && sep !in head
      && (|head| < |s| ==> s[|head|] == sep)
  {
    var parts := Split(s, sep);
    SplitJoin(s, sep);
    if |parts| > 1 {
      assert s == parts[0] + [sep] + Join(parts[1..], sep);
      assert s[|parts[0]|] == sep;
    }
  }

  /** Replacing the first piece before joining changes only the prefix
      before the first separator. */
  lemma JoinNewHead(parts: seq<string>, x: string, sep: char)
    requires |parts| >= 1
    ensures |parts[0]| <= |Join(parts, sep)|
    ensures Join([x] + parts[1..], sep) == x + Join(parts, sep)[|parts[0]|..]
  {
    var j := Join(parts, sep);
    if |parts| > 1 {
      assert ([x] + parts[1..])[1..] == parts[1..];
      assert j == parts[0] + ([sep] + Join(parts[1..], sep));
      assert j[|parts[0]|..] == [sep] + Join(parts[1..], sep);
    }
  }
}

=== FILE: tooltip.dfy ===
/** `Tooltip` of src/components/Tooltip.tsx: the same OPEN/CLOSE reducer
    as the menu, driven by mouse events or clicks depending on the
    `event` prop, and content rendered only while open. */
module Tooltip {
  import opened Wrappers
  import Menu

  /** The `event` prop. */
  datatype Trigger = OnHover | OnClick

  /** What happens on the tooltip's wrapper element. */
  datatype UiEvent = MouseEnter | MouseLeave | Click

  const InitialState: Menu.MenuState := Menu.InitialState

  /** The wrapper's handlers: with `onHover` entering opens and leaving
      closes; with `onClick` a click toggles; every other combination,
      and every event when the prop is unset, leaves the state alone. */
  function OnEvent(s: Menu.MenuState, trigger: Option<Trigger>, e: UiEvent): (r: Menu.MenuState)
    ensures trigger == Some(OnHover) && e == MouseEnter ==> r.isExpended
    ensures trigger == Some(OnHover) && e == MouseLeave ==> !r.isExpended
    ensures trigger == Some(OnClick) && e == Click ==> r.isExpended == !s.isExpended
    ensures trigger == Some(OnHover) && e == Click ==> r == s
    ensures trigger == Some(OnClick) && e != Click ==> r == s
    ensures trigger.None? ==> r == s
  {
    match (trigger, e)
    case (Some(OnHover), MouseEnter) => Menu.Reduce(s, Menu.Open)
    case (Some(OnHover), MouseLeave) => Menu.Reduce(s, Menu.Close)
    case (Some(OnClick), Click) => Menu.Toggle(s)
    case _ => s
  }

  function RunEvents(s: Menu.MenuState, trigger: Option<Trigger>, es: seq<UiEvent>): Menu.MenuState
    decreases |es|
  {
    if es == [] then s else RunEvents(OnEvent(s, trigger, es[0]), trigger, es[1..])
  }

  /** A hover tooltip is open after a sequence of events exactly when the
      last mouse-enter or mouse-leave in it was an enter; clicks play no
      part. */
  lemma {:induction false} HoverFollowsLastMouseEvent(s: Menu.MenuState, es: seq<UiEvent>, k: nat)
    requires k < |es| && es[k] != Click
    requires forall j :: k < j < |es| ==> es[j] == Click
    ensures RunEvents(s, Some(OnHover), es).isExpended <==> es[k] == MouseEnter
    decreases |es|
  {
    if k == 0 {
      ClicksIgnoredOnHover(OnEvent(s, Some(OnHover), es[0]), es[1..]);
    } else {
      HoverFollowsLastMouseEvent(OnEvent(s, Some(OnHover), es[0]), es[1..], k - 1);
    }
  }

  lemma {:induction false} ClicksIgnoredOnHover(s: Menu.MenuState, es: seq<UiEvent>)
    requires forall j :: 0 <= j < |es| ==> es[j] == Click
    ensures RunEvents(s, Some(OnHover), es) == s
    decreases |es|
  {
    if es != [] {
      ClicksIgnoredOnHover(OnEvent(s, Some(OnHover), es[0]), es[1..]);
    }
  }

  /** A click tooltip is open after `n` clicks from closed exactly when `n`
      is odd. */
  lemma {:induction false} ClickParity(es: seq<UiEvent>)
    requires forall j :: 0 <= j < |es| ==> es[j] == Click
    ensures RunEvents(InitialState, Some(OnClick), es).isExpended <==> |es| % 2 == 1
    decreases |es|
  {
    if |es| >= 2 {
      var s1 := OnEvent(InitialState, Some(OnClick), es[0]);
      var s2 := OnEvent(s1, Some(OnClick), es[1]);
      assert s2 == InitialState;
      assert RunEvents(InitialState, Some(OnClick), es) == RunEvents(s2, Some(OnClick), es[2..]) by {
        assert es[1..][1..] == es[2..];
      }
      ClickParity(es[2..]);
    } else if |es| == 1 {
      assert es[1..] == [];
    }
  }

  /** `TooltipContent` renders only while the tooltip is expanded. */
  predicate ContentRendered(s: Menu.MenuState) {
    s.isExpended
  }
}

=== FILE: validators.dfy ===
/** The file validators of src/utils/common-validators.ts: every selected
    file must have an allowed type and be at most `max` KB. */
module Validators {

  /** A browser `File`: its name, its MIME type and its size in bytes. */
  datatype File = File(name: string, mimeType: string, size: nat)

  /** What a form field can hold: nothing (a falsy value), one file, or a
      list of files. */
  datatype FileInput = NoFiles | Single(file: File) | Many(files: seq<File>)

  /** A single non-array value is treated as a one-element list. */
  function AsList(input: FileInput): (files: seq<File>)
    ensures input.NoFiles? ==> files == []
    ensures input.Single? ==> files == [input.file]
    ensures input.Many? ==> files == input.files
  {
    match input
    case NoFiles => []
    case Single(f) => [f]
    case Many(fs) => fs
  }

  /** `size / 1024 > max`, with `/` the exact division of JavaScript. */
  predicate TooBig(f: File, maxKb: int) {
    f.size > maxKb * 1024
  }

  /** `checkFileTypes(types)(files)`: a `valid` flag cleared by the first
      file whose type is not allowed; `every` stops there. */
  method CheckFileTypes(types: seq<string>, input: FileInput) returns (valid: bool)
    ensures valid <==> forall f :: f in AsList(input) ==> f.mimeType in types
  {
    valid := true;
    var files := AsList(input);
    var i := 0;
    while i < |files| && valid
      invariant 0 <= i <= |files|
      invariant valid <==> forall k :: 0 <= k < i ==> files[k].mimeType in types
      invariant !valid ==> exists k :: 0 <= k < i && files[k].mimeType !in types
    {
      if files[i].mimeType !in types {
        valid := false;
      }
      i := i + 1;
    }
  }

  /** `checkFileSize(max)(files)`, the same loop with the size test. */
  method CheckFileSize(maxKb: int, input: FileInput) returns (valid: bool)
    ensures valid <==> forall f :: f in AsList(input) ==> !TooBig(f, maxKb)
  {
    valid := true;
    var files := AsList(input);
    var i := 0;
    while i < |files| && valid
      invariant 0 <= i <= |files|
      invariant valid <==> forall k :: 0 <= k < i ==> !TooBig(files[k], maxKb)
      invariant !valid ==> exists k :: 0 <= k < i && TooBig(files[k], maxKb)
    {
      if TooBig(files[i], maxKb) {
        valid := false;
      }
      i := i + 1;
    }
  }

  const ImageTypes: seq<string> := ["image/png", "image/jpeg", "image/jpg"]
  const ImageMaxKb: int := 5000

  /** `ImageValidator`: both tests must pass. */
  method ValidateImage(input: FileInput) returns (valid: bool)
    ensures valid <==> forall f :: f in AsList(input) ==>
      f.mimeType in {"image/png", "image/jpeg", "image/jpg"} && f.size <= 5000 * 1024
  {
    var typesOk := CheckFileTypes(ImageTypes, input);
    var sizeOk := CheckFileSize(ImageMaxKb, input);
    valid := typesOk && sizeOk;
  }
}

=== FILE: wrappers.dfy ===
/** Option and Result, the two failure-carrying datatypes the model uses
    for JavaScript's `undefined` values and thrown errors. */
module Wrappers {

  datatype Option<+T> = None | Some(value: T) {
    /** The value, or `default` when absent (JavaScript's `x ?? default`). */
    function GetOr(default: T): T {
      match this
      case Some(v) => v
      case None => default
    }
  }

  datatype Result<+R, +E> = Ok(value: R) | Err(error: E)
}
